=== FILE: README.md ===
# German energy forecast: fetch, normalise, derive features

A Dafny model of the deterministic core of the german-energy-forecast pipeline.
The model has three groups.

**Fetching.**
- Three clients and two loader functions split a date range into day windows and query a remote service once per window.
  They retry each window under their own policy and collect what comes back.
- The model has one window split (`Windows.Split`) and one retry loop (`Retry.RunWindow`).
  A `Policy` value picks the except clauses of each loop: the two load loops, the renewable loop or the weather loop.
- `Retry.RunJobs` runs the windows in order.
- `LoadLoader`, `EntsoeLoad`, `Renewables` and `Weather` instantiate these, together with:
  - the date handling (`Calendar`: `str.strip`, `strptime('%Y%m%d')`, `strftime`, `date.toordinal`);
  - the column naming;
  - the final assembly.
- A remote call is a function from (window or job number, attempt number) to a reply: a table, something that is not a table, or an exception.
- A call returns its result together with the list of sleeps it made and the number of queries it sent.

**Normalisation** (`Processor`).
- `DataProcessor`'s three steps:
  - collapsing repeated timestamps by their median and sorting;
  - forward fill with limit 1;
  - masking z-score outliers to missing.
- A table (`Frames.Table`) has a datetime flag, an index of integer timestamps, and named columns of `Option<real>` cells.
  `None` stands for NaN.

**Feature derivation** (`Features`). `EnhancedFeatureExtractor24h.extract_features` does:
- input validation;
- hour and weekday;
- trailing rolling mean, min and max of `load` with `min_periods=1`;
- the morning, evening and base-hour flags;
- rolling statistics restricted to the peak rows;
- the solar and wind columns when their inputs are present;
- dropping `hour` and `weekday` again.

Timestamps are wall-clock seconds counted from 1970-01-01 00:00, so `index.hour` and `index.weekday` are plain arithmetic.

## Model

| member | source | states |
|---|---|---|
| Windows.Split | src/data/data_loader.py:60-66 | the windows are non-empty, each at most `size` long, all but the last exactly `size`, consecutive ones share a boundary, the first starts at `start`, the last ends at `end`, and there are none iff `start >= end` |
| Windows.SplitOrdered | src/data/data_loader.py:60-66 | every window ends no later than any later window starts |
| Windows.SplitCovers | src/data/data_loader.py:60-66 | a point lies in some window iff it lies in `[start, end)` |
| Windows.SplitDisjoint | src/data/data_loader.py:60-66 | no point lies in two windows |
| Windows.SplitCount | src/data/clients/entsoe_client.py:63-64 | the number of windows is `ceil((end - start) / size)`, the chunk count of the progress bar |
| Retry.RunWindow | src/data/data_loader.py:71-98 | at most `max_retries` queries, none iff no attempt is left; fewer sleeps than queries except in the renewable loop, whose sleeps are at most 60; only the two load loops raise, never on no-data; a kept table is the last reply and is non-empty except in the loader query; a placeholder only follows a no-data reply in the loader query |
| Retry.Decide | src/data/data_loader.py:71-98 | the except clauses of the four loops: only the two load loops raise; a table is kept iff it is a reply, and non-empty outside the loader query; only the loader query turns no-data into the placeholder; a retry sleeps at most once and at most 2^attempt seconds; a connection failure re-raises only on the last attempt and is retried, with one sleep, before it |
| Retry.Doubling | src/data/data_loader.py:97 | the i-th sleep of an uncapped run from attempt a is 2^(a+i) |
| Retry.CappedDoubling | src/data/clients/renewable_client.py:95 | the i-th sleep of a capped run from attempt a is min(2^(a+i), 60) |
| Retry.PersistentConnectionFailure | src/data/data_loader.py:93-98 | in the two load loops a connection error on every attempt makes exactly `max_retries` queries with sleeps 2^0 … 2^(max_retries-2) and then re-raises |
| Retry.PersistentRequestFailure | src/data/clients/renewable_client.py:94-105 | in the renewable loop request errors on every attempt make `max_retries` queries, each followed by a capped sleep, and nothing is raised |
| Retry.PersistentWeatherFailure | src/data/clients/weather_client.py:102-109 | in the weather loop failing replies on every attempt make `max_retries` queries, sleeping after all but the last, and nothing is raised |
| Retry.EmptyRepliesRequeried | src/data/clients/entsoe_client.py:83-85 | outside the loader query an empty table on every attempt is re-queried `max_retries` times without sleeping, and nothing is kept |
| Retry.NoDataNotRetried | src/data/clients/entsoe_client.py:87-89 | a no-data reply ends the window after one query without sleeping; the loader query keeps the placeholder for it, the other loops keep nothing |
| Retry.LoaderQueryAlwaysYields | src/data/data_loader.py:78-92 | a loader-query window that does not raise always appends one frame |
| Retry.RunJobs | src/data/clients/entsoe_client.py:71-100 | without an exception there is one outcome per window, each that window's own retry loop; an exception ends the batch early and only in a raising loop; renewable sleeps stay at most 60 |
| Retry.JobsQueryBound | src/data/clients/entsoe_client.py:71-97 | the batch sends at most windows × `max_retries` queries |
| Retry.QuietPoliciesRunAll | src/data/clients/renewable_client.py:66-109 | the renewable and weather loops never end the batch by an exception |
| Retry.BatchMatchesWindows | src/data/clients/entsoe_client.py:71-99 | a batch that does not raise has exactly the outcomes of the windows run one by one, in window order |
| Retry.Collected | src/data/clients/entsoe_client.py:83-84 | the gathered list holds exactly the kept tables, and is empty when nothing was kept |
| Retry.CollectedNonEmpty | src/data/clients/entsoe_client.py:83-84 | when every kept table is non-empty, so is every gathered one |
| Fetching.FileName | src/data/data_loader.py:200 | the CSV name `{prefix}{start}_{end}.csv` holds both date strings at fixed positions, so they can be read back from it |
| Fetching.LocalizableOrdinals | src/data/clients/entsoe_client.py:55-56 | pytz's `localize`, which looks at the day before and the day after, accepts a date iff its ordinal lies strictly between those of 0001-01-01 and 9999-12-31 |
| Fetching.Localize | src/data/clients/entsoe_client.py:55-56 | a string that does not parse is a ValueError, a parsed first or last representable day is an OverflowError, and any other parsed date comes back unchanged |
| Fetching.LocalizeRange | src/data/clients/entsoe_client.py:55-56 | succeeds iff both strings localize, giving both dates; when the start fails, its error is the one raised |
| Fetching.ParseStrictRange | src/data/clients/weather_client.py:52-63 | succeeds iff both stripped strings have eight characters, parse to naive datetimes, and the end is after the start, giving the parsed dates; the length error iff a stripped string is not eight long |
| Fetching.ParseZonedRange | src/data/clients/entsoe_client.py:48-59 | accepts exactly the ranges the naive parse accepts whose two dates can be localized, with the same dates; the length error iff a stripped string is not eight long; OverflowError iff the lengths pass and localizing the start, or else the end, overflows |
| Fetching.ParseLooseRange | src/data/clients/renewable_client.py:51-55 | succeeds iff both stripped strings parse to dates that can be localized, with no length or order check; fails only with a parse or overflow error |
| Fetching.ChunkCount | src/data/clients/entsoe_client.py:63-64 | fails with ZeroDivisionError iff the chunk size is zero |
| Fetching.Walk | src/data/clients/entsoe_client.py:63-72 | a parse error passes through, a zero chunk fails, otherwise it reports how many windows are queried before adding `chunk_size` days passes the last date, and whether that overflow happens |
| Fetching.OnlyLastOverflows | src/data/clients/entsoe_client.py:72 | every window but the last starts at least `chunk_size` days before the last representable date |
| Fetching.WindowsInRange | src/data/clients/entsoe_client.py:71-72 | every window of a valid range runs between representable dates |
| Calendar.FromOrdinal | src/data/clients/weather_client.py:76-78 | turns an ordinal back into a valid date with that ordinal |
| Calendar.Ordinal | src/data/clients/entsoe_client.py:63-72 | `toordinal` numbers every representable date between 1 (0001-01-01) and the number of 9999-12-31 |
| Calendar.OrdinalRoundTrip | src/data/clients/entsoe_client.py:55-63 | ordinals of valid dates are in range and `FromOrdinal` inverts `Ordinal` |
| Calendar.MaxOrdinalIsLastDay | src/data/clients/entsoe_client.py:72 | 9999-12-31 is the date with the largest ordinal |
| Calendar.FirstOrdinalDay | src/data/clients/entsoe_client.py:55-56 | 0001-01-01 is the only date with ordinal 1 |
| Calendar.LastOrdinalDay | src/data/clients/entsoe_client.py:55-56 | 9999-12-31 is the only date with the largest ordinal |
| Calendar.StripLeft | src/data/clients/entsoe_client.py:48-49 | removes exactly the leading whitespace |
| Calendar.StripRight | src/data/clients/entsoe_client.py:48-49 | removes exactly the trailing whitespace |
| Calendar.Strip | src/data/clients/entsoe_client.py:48-49 | the result is no longer and neither starts nor ends with whitespace |
| Calendar.StripSlice | src/data/clients/entsoe_client.py:48-49 | the stripped string is the slice of the input between its leading and trailing whitespace |
| Calendar.Strptime | src/data/clients/entsoe_client.py:55-56 | a parsed date is always a valid calendar date |
| Calendar.Format | src/data/clients/weather_client.py:77-78 | strftime writes eight ASCII digits, the year zero-padded to four |
| Calendar.ParseFormat | src/data/clients/weather_client.py:77-78 | parsing a formatted date gives that date back |
| Calendar.FormatParse | src/data/clients/weather_client.py:77-78 | formatting the date parsed from eight digits gives those digits back |
| LoadLoader.RenameLoadColumns | src/data/data_loader.py:78-82 | renaming keeps the index, the column count and every column's cells |
| LoadLoader.RenameLoadColumnsLabels | src/data/data_loader.py:78-82 | afterwards `Actual Load` is present iff it or `Load` was; `Load` survives only beside an existing `Actual Load`; the same for `Forecasted Load` and `Load Forecast`; other labels are unchanged |
| LoadLoader.RenameLoadColumnsIdempotent | src/data/data_loader.py:78-82 | renaming twice is renaming once |
| LoadLoader.RenameLoadColumnsKeepsTargets | src/data/data_loader.py:79-82 | a frame that already has both target labels is left unchanged |
| LoadLoader.RenameLoadColumnsWellFormed | src/data/data_loader.py:78-82 | renaming keeps column labels distinct |
| LoadLoader.AppendedAll | src/data/data_loader.py:83-92 | the list of frames has one entry per window that appended one, and one per window when every window did |
| LoadLoader.QueryLoadAndForecast | src/data/data_loader.py:46-110 | at most windows × `max_retries` queries; a success yields at least one frame; only a remote exception other than no-data escapes; no window or no attempt yields the empty placeholder alone |
| LoadLoader.QueryOnePerWindow | src/data/data_loader.py:70-92 | a successful query has exactly one frame per window, in window order, each what that window's loop appended |
| LoadLoader.QueryGivesUpOnConnection | src/data/data_loader.py:93-98 | a connection error on every attempt of the first window re-raises after `max_retries` queries and sleeps 2^0 … 2^(max_retries-2) |
| LoadLoader.QueryNoDataPlaceholder | src/data/data_loader.py:85-92 | a window whose first reply is no-data contributes the empty `Actual Load`/`Forecasted Load` frame |
| LoadLoader.Gathered | src/data/data_loader.py:172-188 | the chunks collected are exactly the replies that did not raise, none iff every window raised |
| LoadLoader.ParseExactRange | src/data/data_loader.py:165-167 | succeeds iff both unstripped strings parse to dates that can be localized; fails only with a parse or overflow error |
| LoadLoader.Combine | src/data/data_loader.py:190-208 | `None` iff every window raised; otherwise at least one chunk, all from replies, saved under the file name when saving works; a non-frame reply fails the concatenation |
| LoadLoader.FetchLoadData | src/data/data_loader.py:150-208 | as written: no API key fails first; no query is ever sent and nothing is slept; with the key set, a date that does not parse or cannot be localized is that error; the result is `None` iff the key is set, both dates parse and localize and no window overflows, and is otherwise a key, parse or overflow error |
| LoadLoader.IntendedFetchLoadData | src/data/data_loader.py:150-208 | with the window bounds passed on unchanged: no API key fails first; with the key set, a date that does not parse or cannot be localized fails before any query; no sleeps; `None` iff the key is set, both dates parse and localize, no window overflows and every window raised; a result costs one query per window, and its chunks come from answered windows and are saved when saving works |
| LoadLoader.WrittenFetchLosesChunks | src/data/data_loader.py:176-188 | whenever the intended loop would return chunks, the written one returns `None` with no query |
| LoadLoader.OneWindowLost | src/data/data_loader.py:172-192 | for a range inside one window, answered with a frame, the intended loop queries once and returns that frame, saved, while the written one queries nothing and returns `None` |
| LoadLoader.NewYearDayLost | src/data/data_loader.py:172-192 | the range 20240101 to 20240102 in 30-day chunks is one such range |
| LoadLoader.LoadFileName | src/data/data_loader.py:200 | both eight-character date strings can be read back from fixed positions of the file name, so distinct ranges never share a file |
| LoadLoader.ValidateData | src/data/data_loader.py:210-229 | true iff the frame exists and is not empty |
| LoadLoader.ValidateIgnoresCells | src/data/data_loader.py:224-229 | the verdict does not depend on the cells, so a high missing share only warns; the placeholder and `None` are refused |
| EntsoeLoad.EntsoeJobs | src/data/clients/entsoe_client.py:71-100 | without an exception the outcomes are those of the windows run one by one, and every gathered chunk is non-empty |
| EntsoeLoad.Conclude | src/data/clients/entsoe_client.py:102-113 | no chunk gives the empty frame unsaved; chunks are saved under the file name, and a failed save raises |
| EntsoeLoad.LoadFile | src/data/clients/entsoe_client.py:110 | both stripped eight-character dates can be read back from fixed positions of the file name |
| EntsoeLoad.FetchLoadData | src/data/clients/entsoe_client.py:27-117 | a bad range fails before any query, including one that starts or ends on 0001-01-01 or 9999-12-31, and so does a zero chunk size; a result holds exactly the non-empty chunks kept window by window, in window order, saved iff there is one |
| EntsoeLoad.ChunkCountIsWindowCount | src/data/clients/entsoe_client.py:62-72 | the progress-bar chunk count equals the number of windows the loop visits |
| Renewables.AllTypesDistinctCodes | src/data/clients/renewable_client.py:19-26 | the six members are all listed once and carry pairwise distinct codes |
| Renewables.KeyAlphabet | src/data/clients/renewable_client.py:70 | a lower-cased member name has only lower-case letters and underscores |
| Renewables.KeysDistinct | src/data/clients/renewable_client.py:70-71 | distinct members have distinct keys and distinct output column names |
| Renewables.Title | src/data/clients/renewable_client.py:127 | `str.title` capitalises a letter iff it does not follow a letter |
| Renewables.TitleSpaced | src/data/clients/renewable_client.py:127 | the titled key spells the key's words, capitalised |
| Renewables.TitleSpacedAt | src/data/clients/renewable_client.py:127 | character by character: a space for an underscore, otherwise the key's letter, upper-case exactly at a word start |
| Renewables.LookupSpelling | src/data/clients/renewable_client.py:125-129 | every type but offshore wind is looked up under (titled key, `Actual Aggregated`) |
| Renewables.Lookup | src/data/clients/renewable_client.py:120-129 | offshore wind alone is looked up under a plain label; every other type under a pair whose second part is `Actual Aggregated` and whose first part has the key's length |
| Renewables.FirstOccurrences | src/data/clients/renewable_client.py:69-71 | the keys of `all_data` are the requested types, each once |
| Renewables.ChunksFromJobs | src/data/clients/renewable_client.py:87-90 | every chunk stored for a type was kept by one of that type's jobs |
| Renewables.JobsInChunks | src/data/clients/renewable_client.py:87-90 | every chunk a type's job kept is stored for that type |
| Renewables.ChunkSamples | src/data/clients/renewable_client.py:116 | a chunk contributes one sample per row, at that row's time |
| Renewables.Extract | src/data/clients/renewable_client.py:116-132 | a type other than offshore wind yields a column iff it has chunks, all labelled by pairs, one of which carries its (title, `Actual Aggregated`) label, and then the column is those samples; offshore wind yields one iff its chunks carry the plain `Wind Offshore` label, or are all pair-labelled with exactly one pair under the level-0 key `Wind Offshore`, and then the column is that label's samples; every column is named after its type |
| Renewables.SingleSecondIsOnePair | src/data/clients/renewable_client.py:121-122 | the sub-frame under a level-0 key is one column iff exactly one pair label has that key as its first part |
| Renewables.Combine | src/data/clients/renewable_client.py:112-137 | the combined columns are exactly those contributed, none named twice |
| Renewables.Columns | src/data/clients/renewable_client.py:112-137 | a type's column name is present iff the type contributes one, that column is present, and every column comes from a requested type |
| Renewables.SortSeries | src/data/clients/renewable_client.py:147-148 | each column is sorted by time and is a permutation of its samples |
| Renewables.Generation | src/data/clients/renewable_client.py:111-148 | every column is sorted by time and named after a requested type, and no name appears twice |
| Renewables.GenerationColumns | src/data/clients/renewable_client.py:113-130 | a requested type has a column iff its chunks yield one, and that column holds the same samples |
| Renewables.RenewableJobs | src/data/clients/renewable_client.py:65-109 | every job runs (nothing raises), each is its own retry loop, every sleep is at most 60, and only non-empty chunks are kept |
| Renewables.Assemble | src/data/clients/renewable_client.py:111-154 | the columns are tidy and, for a non-empty type list, are the assembled generation columns of the job outcomes; a result is saved iff it has a column; a failed save raises |
| Renewables.GenerationFile | src/data/clients/renewable_client.py:151 | both stripped eight-character dates can be read back from fixed positions of the file name |
| Renewables.FetchRenewableData | src/data/clients/renewable_client.py:37-158 | a date that does not parse or cannot be localized fails before any query; errors are bad date, zero chunk, overflow or failed save; no sleep exceeds 60; the result's columns are tidy for the requested types (all six by default), saved iff non-empty |
| Renewables.FetchedColumns | src/data/clients/renewable_client.py:64-130 | a successful fetch walked every window without overflow, and then holds a column for a requested type iff the chunks that type's jobs kept yield one, with the same samples |
| Weather.StationIdsOrdered | src/data/clients/weather_client.py:16-20 | the station ids in enum order are strictly sorted as strings, and the column names are distinct |
| Weather.SplitDateWindows | src/data/clients/weather_client.py:75-76 | every window of two valid dates runs between representable dates |
| Weather.ChunkRequestAt | src/data/clients/weather_client.py:75-78 | the k-th request carries the k-th window's bounds formatted as `YYYYMMDD` |
| Weather.Requests | src/data/clients/weather_client.py:75-78 | one request per window of the date range |
| Weather.ChunkRequestsChain | src/data/clients/weather_client.py:75-111 | each request's end label is the next request's start label |
| Weather.RequestsShareBoundaries | src/data/clients/weather_client.py:70-111 | a non-empty range gives requests that start at the first date, end at the last and chain |
| Weather.RequestsEchoInputs | src/data/clients/weather_client.py:52-78 | for digit inputs the first request starts with the stripped start string and the last ends with the stripped end string |
| Weather.WeatherJobs | src/data/clients/weather_client.py:75-111 | one outcome per window, each its own retry loop, nothing raised, and only non-empty row sets kept |
| Weather.Concat | src/data/clients/weather_client.py:118 | the concatenation holds exactly the rows of the chunks |
| Weather.Readings | src/data/clients/weather_client.py:121-126 | the pivot sees exactly the rows that carry a value |
| Weather.ValuesAt | src/data/clients/weather_client.py:121-126 | the values averaged for one date and station are exactly those rows' values |
| Weather.DatesOf | src/data/clients/weather_client.py:121-126 | the dates found are exactly those of the rows |
| Weather.StationsOf | src/data/clients/weather_client.py:121-126 | the stations found are exactly those of the rows |
| Weather.MeanTable | src/data/clients/weather_client.py:121-126 | each cell is the mean of that date's and station's values |
| Weather.Pivot | src/data/clients/weather_client.py:121-126 | the pivot index is the sorted set of dates with a reading, the columns the sorted set of stations with one, each cell the mean of its readings |
| Weather.Celsius | src/data/clients/weather_client.py:134-137 | a value converted to Celsius plus 273.15 gives the Kelvin value back, and NaN stays NaN |
| Weather.Finish | src/data/clients/weather_client.py:128-137 | renaming fails iff the pivot does not have three columns; otherwise the index is kept, the names are the three column names in enum order, and every cell is converted |
| Weather.ThreeOfThree | src/data/clients/weather_client.py:128-132 | three sorted distinct ids drawn from the three stations are the stations' ids in enum order |
| Weather.StationsMatchColumns | src/data/clients/weather_client.py:121-137 | when only the requested stations answer, the rename succeeds iff each station has a reading, and each column then holds the converted mean of its own station's values |
| Weather.Assemble | src/data/clients/weather_client.py:113-143 | no kept rows give the empty frame unsaved; otherwise the frame is datetime-indexed, sorted, named after the stations and saved; a pivot mismatch or failed save raises |
| Weather.TemperatureFile | src/data/clients/weather_client.py:140 | both stripped eight-character dates can be read back from fixed positions of the file name |
| Weather.FetchTemperatureData | src/data/clients/weather_client.py:29-147 | errors are limited to those of validation, the chunk size, overflow, renaming and saving; an unsaved result is the empty frame; a saved one is sorted and has the three station columns |
| Weather.FetchAssembles | src/data/clients/weather_client.py:65-113 | when the walk does not overflow, the fetch's result is what assembling the window loops' outcomes gives |
| Weather.FetchedTemperatures | src/data/clients/weather_client.py:65-147 | when the walk does not overflow, the fetch is unsaved iff no window kept rows, and a saved table's index is exactly the timestamps at which some kept row has a reading |
| Weather.AssembledSaved | src/data/clients/weather_client.py:113-143 | when only the three stations fill the kept rows, the assembled result is saved iff saving works, some rows were kept and each station has a reading |
| Weather.AssembledCells | src/data/clients/weather_client.py:121-137 | when only the three stations fill the kept rows, a saved table holds in the column named after each station the Celsius mean of that station's readings at each timestamp |
| Weather.SavedTemperatures | src/data/clients/weather_client.py:65-147 | the same two facts for the whole fetch, on the rows its windows kept |
| Weather.SilentJobsKeepNothing | src/data/clients/weather_client.py:95-100 | a service that never returns rows leaves every window without data |
| Weather.SilentServiceGivesNoFrame | src/data/clients/weather_client.py:113-115 | a service that never returns rows makes the fetch of a valid range return the empty frame, unsaved |
| Stats.Present | src/features/feature_engineering.py:87 | the values taken into account are exactly the non-missing cells |
| Stats.Mean | src/features/feature_engineering.py:87 | defined iff there is a value, and then times the count gives the sum |
| Stats.MeanBetween | src/features/feature_engineering.py:87 | the mean lies between any lower and upper bound of the values |
| Stats.MeanConstant | src/features/feature_engineering.py:87 | the mean of equal values is that value |
| Stats.Least | src/features/feature_engineering.py:89 | defined iff there is a value, and then it is one of them and below all |
| Stats.Greatest | src/features/feature_engineering.py:90 | defined iff there is a value, and then it is one of them and above all |
| Stats.Median | src/data/processor.py:43 | defined iff there is a value |
| Stats.MedianBetween | src/data/processor.py:43 | the median lies between any bounds of the values |
| Stats.MedianSingle | src/data/processor.py:43 | the median of one value is that value |
| Stats.MedianOfTwo | src/data/processor.py:43 | the median of two values is their midpoint |
| Stats.MedianTenTwenty | src/data/processor.py:43 | an example of `Stats.MedianOfTwo`: the median of 10 and 20 is 15 |
| Processor.StrictlySortedIsUniqueMonotonic | src/data/processor.py:41-48 | a strictly increasing index is unique and monotonic |
| Processor.UniqueMonotonicIsStrictlySorted | src/data/processor.py:41-48 | a unique monotonic index is strictly increasing |
| Processor.GroupAbsent | src/data/processor.py:43 | a timestamp not in the index has no group |
| Processor.GroupSingle | src/data/processor.py:43 | in a unique index each timestamp's group is its own cell |
| Processor.MedianOfCell | src/data/processor.py:43 | the median of a one-cell group is that cell, missing or not |
| Processor.MedianCells | src/data/processor.py:43 | each output cell is the median of its timestamp's group |
| Processor.GroupMedian | src/data/processor.py:41-43 | the result's index is the sorted set of the input timestamps, labels are kept, and each cell is the median of its group's values |
| Processor.Reordered | src/data/processor.py:48 | each reordered cell is the input cell of the same timestamp |
| Processor.SortRows | src/data/processor.py:46-48 | sorting keeps every row with its cells, only reordered so the index is strictly increasing |
| Processor.EnforceQuality | src/data/processor.py:23-50 | raises iff the index is not a datetime index; otherwise the labels are kept, the index is strictly increasing and holds exactly the input timestamps |
| Processor.GroupMedianOfSorted | src/data/processor.py:41-48 | a frame with a unique monotonic index is unchanged by grouping |
| Processor.GroupMedianOfUnique | src/data/processor.py:41-48 | for a unique index, sorting gives what grouping gives |
| Processor.EnforceQualityIsGroupMedian | src/data/processor.py:35-50 | whichever branches run, the step is the group median of the input |
| Processor.EnforceQualityIdempotent | src/data/processor.py:23-50 | applying the step to its own result changes nothing |
| Processor.DuplicatesGiveMedian | src/data/processor.py:41-43 | an example of `Processor.EnforceQualityIsGroupMedian`: two rows at one timestamp with 10 and 20 collapse to one row with 15 |
| Processor.PairMedian | src/data/processor.py:43 | an example of `Processor.MedianCells`: the group of that timestamp has median 15 |
| Processor.LastPresent | src/data/processor.py:68 | finds the nearest earlier present cell, or reports that none exists |
| Processor.FillForward | src/data/processor.py:68 | the fill keeps the length and fills each cell as the limited forward fill does |
| Processor.FillForwardLoop | src/data/processor.py:68 | the left-to-right fill loop computes the limited forward fill |
| Processor.FillOneFillsFirstOfGap | src/data/processor.py:68 | with limit 1 present cells are unchanged, and a missing cell takes the previous cell only when that one is present |
| Processor.LastPresentAfterFill | src/data/processor.py:68 | after a fill with limit a, the last present cell before a long gap lies a rows further on |
| Processor.FillComposeAt | src/data/processor.py:68 | cell by cell, a fill with limit b after one with limit a is a fill with limit a + b |
| Processor.FillCompose | src/data/processor.py:68 | filling with limits a then b equals filling with limit a + b |
| Processor.FillNotIdempotent | src/data/processor.py:68 | filling `[1, NaN, NaN]` once gives `[1, 1, NaN]` and twice gives `[1, 1, 1]` |
| Processor.HandleMissingValues | src/data/processor.py:53-70 | index and labels are kept and every column is forward-filled with limit 1 |
| Processor.SquaredDeviations | src/data/processor.py:88 | the sum of squared deviations is never negative |
| Processor.Variance | src/data/processor.py:88 | the sample variance is defined iff there are two values, and is never negative |
| Processor.ScoreBelowIsDivided | src/data/processor.py:88-89 | the division-free comparison used is the z-score comparison \|x - mean\| / std < threshold |
| Processor.ZBelowIsZScore | src/data/processor.py:88-89 | for a column with positive standard deviation, a value is kept iff its z-score is below the threshold |
| Processor.Screen | src/data/processor.py:88-90 | a cell survives iff it is present and its z-score is below the threshold; every other cell becomes missing |
| Processor.RemoveOutliers | src/data/processor.py:84-95 | index, labels and unlisted columns are unchanged; in a listed column a cell survives unchanged iff it is present with a z-score below the threshold |
| Processor.SquaredDeviationsConstant | src/data/processor.py:88 | equal values have no deviation |
| Processor.ConstantColumnErased | src/data/processor.py:88-90 | a column whose values are all equal is masked entirely, its z-scores being undefined |
| Processor.ProcessData | src/data/processor.py:104-121 | fails iff the index is not a datetime index; otherwise the labels are kept, the index is that of the group-by-median (strictly increasing, exactly the input timestamps), and each cell is the median of its timestamp's values after the one-row forward fill, kept iff present and its z-score in the filled column is below 3, else missing |
| Features.Hour | src/features/feature_engineering.py:73 | the hour of a timestamp lies in 0..23 |
| Features.Weekday | src/features/feature_engineering.py:74 | the weekday of a timestamp lies in 0..6 |
| Features.HourOfClock | src/features/feature_engineering.py:73 | an instant h hours and s seconds into a day has hour h |
| Features.HourNext | src/features/feature_engineering.py:73 | one hour later the hour advances by one, wrapping at midnight |
| Features.HourDaily | src/features/feature_engineering.py:73 | a day later the hour is the same |
| Features.WeekdayNext | src/features/feature_engineering.py:74 | a day later the weekday advances by one, wrapping after Sunday |
| Features.WeekdayOfDate | src/features/feature_engineering.py:74 | every instant of a calendar day has that date's `date.weekday()` |
| Features.Aggregate | src/features/feature_engineering.py:87-90 | a statistic of the window values is defined iff there is a value |
| Features.Rolling | src/features/feature_engineering.py:87-90 | one output row per input row; which rows are defined, their order and their first row are stated by `Features.RollingDefined`, `Features.RollingOrdered` and `Features.RollingFirstRow` |
| Features.RollingDefined | src/features/feature_engineering.py:86-90 | row i of a rolling statistic is defined iff a reading lies in rows max(0, i-w+1)..i |
| Features.RollingOrdered | src/features/feature_engineering.py:87-90 | where defined, min ≤ mean ≤ max, and the min and max are readings of the window |
| Features.RollingConstant | src/features/feature_engineering.py:87-90 | a constant series has every rolling statistic equal to the constant |
| Features.RollingFirstRow | src/features/feature_engineering.py:87-90 | the first row's statistic is the first cell |
| Features.RollingLocal | src/features/feature_engineering.py:87-90 | a row's statistic depends only on the cells of its window |
| Features.Select | src/features/feature_engineering.py:103 | `df[mask]` keeps one element per selected row, each from a selected row |
| Features.SelectAt | src/features/feature_engineering.py:103 | the selected row i sits at its rank among the selected rows |
| Features.SelectAgree | src/features/feature_engineering.py:103 | selection sees only the selected rows |
| Features.SelectDistinct | src/features/feature_engineering.py:103 | selecting from distinct elements gives distinct elements |
| Features.MaskedRolling | src/features/feature_engineering.py:100-109 | a peak statistic is missing on every row outside its mask |
| Features.MaskedIgnoresUnselected | src/features/feature_engineering.py:100-109 | rows outside the mask do not influence a peak statistic |
| Features.MaskedIsRollingOfSelection | src/features/feature_engineering.py:100-109 | on a masked row, the peak statistic is the rolling statistic of the masked subsequence at that row's rank |
| Features.MaskedFirstRow | src/features/feature_engineering.py:100-109 | the first masked row's statistic is its own cell |
| Features.PeakHoursExclusive | src/features/feature_engineering.py:23-25 | the morning, evening and base hour sets are pairwise disjoint, and hours 5, 6, 12-15 and 19-21 are in none |
| Features.LabelInjective | src/features/feature_engineering.py:86-128 | distinct derived features have distinct column names |
| Features.Label | src/features/feature_engineering.py:84-128 | no derived column is named like an input column (`load`, `solar_yesterday`, the two wind columns) |
| Features.LabelsAvoidInputs | src/features/feature_engineering.py:86-128 | no derived column is named like an input column |
| Features.RankPlaces | src/features/feature_engineering.py:86-128 | every feature sits at its rank in the order the extractor adds columns |
| Features.AllFeaturesDistinct | src/features/feature_engineering.py:86-128 | the extractor adds each feature once |
| Features.Derived | src/features/feature_engineering.py:113-128 | only features whose inputs are present are added |
| Features.DerivedIsSupplied | src/features/feature_engineering.py:113-128 | a feature is added iff its inputs are present, and none twice |
| Features.DerivedLabelsDistinct | src/features/feature_engineering.py:86-128 | the added columns have distinct names |
| Features.NewColumns | src/features/feature_engineering.py:86-128 | one column per added feature, named by its label, holding its cells, one cell per row |
| Features.Cells | src/features/feature_engineering.py:84-128 | every feature has one cell per row of the input |
| Features.AddColumns | src/features/feature_engineering.py:86-128 | adding columns keeps the index and the datetime flag, and labels stay distinct |
| Features.AddColumnsKeeps | src/features/feature_engineering.py:86-128 | a column not written is unchanged |
| Features.AddColumnsSets | src/features/feature_engineering.py:86-128 | a written column holds what was written |
| Features.ExtractFeatures | src/features/feature_engineering.py:41-65 | raises iff the index is not a datetime index, `load` is missing, or a peak series cannot be realigned; the first two errors come first; a result keeps the index |
| Features.LabelNotTemporary | src/features/feature_engineering.py:132-135 | only the hour and weekday features are temporary |
| Features.AssembledColumn | src/features/feature_engineering.py:132-135 | a written column that is not temporary survives the cleanup |
| Features.ExtractedColumn | src/features/feature_engineering.py:86-128 | every added, non-temporary feature appears under its label with its cells |
| Features.ExtractedKeeps | src/features/feature_engineering.py:132-135 | a label no added feature uses is unchanged, except `hour` and `weekday`, which are dropped |
| Features.ExtractedDropsTemporary | src/features/feature_engineering.py:132-135 | the result has no `hour` and no `weekday` column |
| Features.ExtractedKeepsInput | src/features/feature_engineering.py:132-135 | the input columns `load`, `solar_yesterday` and the two wind columns are preserved |
| Features.ExtractedAbsent | src/features/feature_engineering.py:113-128 | a feature whose inputs are missing leaves its label as it was |
| Features.ExtractedLoadStatistics | src/features/feature_engineering.py:84-92 | for each of the 24, 168 and 336 hour windows the output holds the rolling min, mean and max of `load` over that many rows |
| Features.LoadStatisticsAt | src/features/feature_engineering.py:86-90 | a load statistic at row i is defined iff some reading lies in its window; where defined, min ≤ mean ≤ max; the first row's mean is the first load |
| Features.ExtractedFlag | src/features/feature_engineering.py:96-98 | each flag column is 1 exactly on rows whose hour is in its set, 0 elsewhere |
| Features.ExtractedPeakStatistics | src/features/feature_engineering.py:100-109 | each peak column is the masked rolling statistic of `load`, missing on off-peak rows |
| Features.PeakStatisticsIgnoreOffPeakLoad | src/features/feature_engineering.py:100-109 | changing load outside the peak hours leaves the peak statistics unchanged |
| Features.GateAt | src/features/feature_engineering.py:117-118 | a ramp cell is the solar cell in the peak, 0 outside it, and missing where solar is missing |
| Features.ExtractedSolar | src/features/feature_engineering.py:115-121 | with `solar_yesterday` present, the ramps gate solar by the peak flags and the solar means are rolling means of solar |
| Features.WindTotalAt | src/features/feature_engineering.py:124 | total wind is defined iff both parts are, and is then their sum |
| Features.ExtractedWind | src/features/feature_engineering.py:123-128 | with both wind columns present, `total_wind` is the row-wise total of the two wind columns and each wind window's column is the rolling mean of that total |
| Features.DistinctIndexAligns | src/features/feature_engineering.py:100-109 | with distinct timestamps the peak series always realign |
| Features.ProcessedFrameExtracts | src/features/feature_engineering.py:41-48 | a processed frame can have features extracted iff it has a `load` column |
| Features.RepeatedPeakTimestampFails | src/features/feature_engineering.py:100-109 | a repeated peak timestamp beside an off-peak row makes the peak assignment fail |
| Features.RepeatedTimestampAllInPeakPasses | src/features/feature_engineering.py:100-109 | a repeated timestamp is accepted when every row is in the morning peak |
| Frames.SetColumn | src/features/feature_engineering.py:87 | assigning a column writes exactly that label and keeps the index and the other columns |
| Frames.DropColumnsGet | src/features/feature_engineering.py:135 | dropping labels removes them and keeps every other column |
| Frames.RenameHas | src/data/data_loader.py:80 | after a rename the new label is present iff the old one or itself was, and the old one is gone |
| Sorting.Sort | src/data/processor.py:48 | the result is sorted and a permutation of the input |
| Sorting.SortDistinct | src/data/processor.py:41-48 | the result is strictly increasing with the same elements |
| Sorting.StrictlySortedUnique | src/data/processor.py:41-48 | two strictly increasing sequences with the same elements are equal |
| Sorting.SortBy | src/data/clients/renewable_client.py:148 | the result is sorted by the key and a permutation of the input |
| Sorting.LexLessIsStrictTotal | src/data/clients/weather_client.py:121-126 | Python's string order is a strict total order |

## Behaviour of the code that a reader may not expect

- The normaliser is not idempotent: forward fill with limit 1 fills one more cell each time it is applied (`Processor.FillNotIdempotent`).
  Only the deduplicate-and-sort step is idempotent (`Processor.EnforceQualityIdempotent`).
- The outlier step masks a value unless its z-score is strictly below the threshold.
  A column with an undefined z-score loses every value (`Processor.ConstantColumnErased`): one with fewer than two values, or one whose values are all equal.
  The model follows the code, which masks more than "`|z| >= 3`".
- Only the two load loops re-raise after the last attempt. The renewable and weather loops never propagate a remote error.
- The load and renewable clients and the loader localize both dates with pytz, which looks at the neighbouring days.
  A range that starts or ends on 0001-01-01 or 9999-12-31 therefore raises OverflowError before any query (`Fetching.LocalizableOrdinals`, `Fetching.ParseZonedRange`).
  The weather client parses naive datetimes and accepts those days.
- `strptime('%Y%m%d')` accepts some strings that are not eight digits, such as `202401 5`, and the clients check only the stripped length.
- Peak-restricted columns are assigned by label.
  With a repeated timestamp, the assignment fails unless every row is in the peak (`Features.RepeatedPeakTimestampFails`, `Features.RepeatedTimestampAllInPeakPasses`).
  It can never fail once the frame has been through the normaliser (`Features.ProcessedFrameExtracts`).
- Offshore wind is looked up with `'Wind Offshore' in df.columns`, with no check for MultiIndex columns.
  On MultiIndex columns that test matches the level-0 key, so a pair label such as (`Wind Offshore`, `Actual Aggregated`) is found too.
  The sub-frame under the key is stored when it is a single column; with two or more, the assignment raises ValueError, which is caught, and no column is stored (`Renewables.Extract`).

- The module-level `fetch_load_data` never queries the service (`LoadLoader.FetchLoadData`).
  Each window's bounds are built with `pd.Timestamp(current_start, tz='Europe/Berlin')` from a datetime already localized to Europe/Berlin.
  pandas 2.1.4 refuses a datetime with a time zone together with a `tz` argument and raises ValueError.
  That happens before the query, inside the `try`, so every window is logged and skipped, and the function returns `None` (`LoadLoader.WrittenFetchLosesChunks`).
  `LoadLoader.IntendedFetchLoadData` models the loop with the bounds passed on as they are.

## Findings

| source | as written | input that shows it | evidently intended | confidence | as-written member | corrected member |
|---|---|---|---|---|---|---|
| src/data/data_loader.py:179-180 | `pd.Timestamp(current_start, tz='Europe/Berlin')` on a localized datetime raises ValueError under pandas 2.1.4, so no window is queried and the function returns `None` | `fetch_load_data("20240101", "20240102")` with a service that answers: one window, no query, `None` | pass the localized bounds on (`pd.Timestamp(current_start)`), so each window is queried once | high for pandas 2.1.4; not executed | LoadLoader.FetchLoadData, LoadLoader.NewYearDayLost | LoadLoader.IntendedFetchLoadData, LoadLoader.OneWindowLost |

## Left out

- Network access, the ENTSO-E and DWD libraries, `time.sleep`, `datetime.now`, logging, tqdm and printing. The remote is a parameter mapping (job, attempt) to a reply; sleeps are returned as a list; the current time of `_query_load_and_forecast` is a parameter.
- CSV reading and writing. `save_data` is a boolean parameter saying whether the write works, and `process_data` starts from the frame `read_csv` would return.
- Time zones and daylight saving: dates are localized wall-clock days and timestamps wall-clock seconds. A window is a whole number of calendar days; the UTC offset that pytz arithmetic keeps from the start is not modelled (see the lines below for the members this touches).
- Floating point: cells are exact reals. Rolling standard deviation, the sin/cos encodings and the products `solar_hour_sin` and `wind_hour_sin` are not modelled.
- Features.ExtractFeatures: does not model the `*_sin`, `*_cos` and `*_std` columns, so an input column with one of those names is kept here where the code overwrites it.
- Processor.ProcessData: treats every column as numeric, since cells are reals. The z-score statistics are exact reals rather than IEEE doubles.
- LoadLoader.FetchLoadData: requires a positive chunk size. With a zero chunk the code's window loop never advances. With a negative one it walks backwards from the start, one window at a time, until adding the chunk passes below 0001-01-01 and raises OverflowError.
- LoadLoader.IntendedFetchLoadData: requires a positive chunk size, for the same reasons. With a negative chunk the code would query every backward window before the OverflowError.
- LoadLoader.IntendedFetchLoadData: counts whole calendar days per window. pytz arithmetic keeps the start's UTC offset. When the start is in summer time and the end in winter time, the code's window bounds fall one hour before local midnight. A range whose length in days is a multiple of the chunk size then gets one more window, one hour long, and one more query.
- EntsoeLoad.FetchLoadData: takes a natural chunk size. A negative one walks backwards from the start, querying each reversed window, until adding the chunk passes below 0001-01-01 and raises OverflowError, unless a query raises first.
- EntsoeLoad.FetchLoadData: counts whole calendar days per window. When the start is in summer time and the end in winter time, pytz arithmetic puts the code's window bounds one hour before local midnight. A range whose length in days is a multiple of the chunk size then gets one more window, one hour long, and one more query. An example is `"20241002"` to `"20241101"` with 30-day chunks: the code queries twice, the model once.
- EntsoeLoad.ChunkCountIsWindowCount: holds for day counts. The code's `(end - start).days` is taken between two aware datetimes. When the start is in winter time and the end in summer time, the difference is one hour short of the day count and rounds down. From `"20240302"` to `"20240401"` with a one-day chunk, the bar counts 29 chunks while the loop visits 30 windows.
- Renewables.FetchRenewableData: takes a natural chunk size. A negative one walks backwards from the start, querying every type for each reversed window, until adding the chunk passes below 0001-01-01 and raises OverflowError.
- Renewables.FetchRenewableData: counts whole calendar days per window. When the start is in summer time and the end in winter time, the code's window bounds fall one hour before local midnight. A range whose length in days is a multiple of the chunk size then gets one more window, one hour long, queried for every type. With the one-day chunk of `get_latest_renewable_data`, every such range does.
- Weather.FetchTemperatureData: takes a natural chunk size. A negative one walks backwards from the start, requesting each reversed window from every station, until adding the chunk passes below 0001-01-01 and raises OverflowError. Its datetimes are naive, so daylight saving does not affect it.
- Fetching.Walk: takes a natural chunk size, so the backward walk of a negative one is not modelled (see the fetchers above).
- Fetching.ChunkCount: takes a natural chunk size. For a negative one the code's floor division still gives a count, used only for the progress bar.
- Calendar.Strptime: reads ASCII digits only. Python's `%Y` pattern (`\d\d\d\d`) and the `[12]\d` day alternative also match other Unicode decimal digits, which `int()` reads, so a year in, say, Arabic-Indic digits parses in Python and gives `None` here. Modelling this would need Unicode's table of decimal digits.
- Calendar.Format: pads the year to four digits. `datetime.strftime('%Y')` hands `%Y` to the C library, and glibc does not pad years before 1000, so there the code writes `9990101` where the model writes `09990101`.
- Calendar.FormatParse: holds for four-digit years written with padding. On glibc the code's round trip fails for years before 1000, as the line above explains.
- Weather.RequestsEchoInputs: holds where `strftime` pads the year. On glibc a range in a year before 1000 gives requests whose labels lack the leading zero.
- LoadLoader.QueryLoadAndForecast: returns the list of frames to be concatenated rather than their concatenation.
- Renewables.Generation: keeps each type's column as its own time series. The realignment of later columns onto the first column's index by pandas assignment is not modelled.
- Weather.StationsMatchColumns: assumes the service answers only for the requested stations, as `filter_by_station_id` asks.
- Fetching.Walk: an `OverflowError` while stepping past 9999-12-31 is reported as an error after the queries already made. Those queries count in `queries`, but their results are dropped.
- `EntsoeClient.__init__`, `get_load_data`, `get_latest_load`, `get_latest_renewable_data` and `get_latest_temperature`: constructors and clock-driven wrappers around the modelled fetches.
- The dashboard, API, plotting, forecaster, cache, config and utility modules are not part of this model.

=== FILE: base.dfy ===
/** Small shared vocabulary: optional values, results with an error, and the
    integer helpers (powers of two, minimum) the fetch loops use for backoff. */
module Base {

  /** A possibly missing value; `None` plays the role of pandas' NaN / Python's None. */
  datatype Option<+T> = None | Some(value: T)

  /** Either a value or the error the original code raises. */
  datatype Result<+T, +E> = Ok(value: T) | Err(error: E)

  function Min(a: int, b: int): int
  {
    if a <= b then a else b
  }

  function Max(a: int, b: int): int
  {
    if a >= b then a else b
  }

  /** 2 ** k, as Python computes it on unbounded integers. */
  function Pow2(k: nat): (r: nat)
    ensures r >= 1
  {
    if k == 0 then 1 else 2 * Pow2(k - 1)
  }

  /** Powers of two grow: a later backoff is never shorter. */
  lemma {:induction false} Pow2Monotone(j: nat, k: nat)
    requires j <= k
    ensures Pow2(j) <= Pow2(k)
    decreases k - j
  {
    if j < k {
      Pow2Monotone(j, k - 1);
    }
  }

  lemma MulMonotone(k: int, a: int, b: int)
    requires k >= 0
    ensures a <= b ==> k * a <= k * b
  {
    assert k * b - k * a == k * (b - a);
  }

  /** Quotients are unique: a decomposition x == k * q + r with 0 <= r < k fixes x / k. */
  lemma DivUnique(x: int, k: int, q: int, r: int)
    requires k > 0 && 0 <= r < k && x == k * q + r
    ensures x / k == q
  {
    var d := x / k - q;
    assert k * (x / k) + x % k == k * q + r;
    assert k * d == r - x % k;
    MulMonotone(k, 1, d);
    MulMonotone(k, d, -1);
  }

  /** Remainders are unique: a decomposition x == k * q + r with 0 <= r < k fixes x % k. */
  lemma ModUnique(x: int, k: int, q: int, r: int)
    requires k > 0 && 0 <= r < k && x == k * q + r
    ensures x / k == q && x % k == r
  {
    DivUnique(x, k, q, r);
  }
}

=== FILE: calendar.dfy ===
/** The date handling the clients rely on: the proleptic Gregorian calendar of
    Python's `datetime` (years 1 to 9999, day ordinals as `date.toordinal`
    numbers them), `str.strip`, `datetime.strptime(s, '%Y%m%d')` and
    `strftime('%Y%m%d')`.  A date at midnight is identified with its ordinal,
    so adding `timedelta(days=k)` is adding k to the ordinal. */
module Calendar {
  import opened Base

  const MinYear := 1
  const MaxYear := 9999

  predicate IsLeap(y: int)
  {
    y % 4 == 0 && (y % 100 != 0 || y % 400 == 0)
  }

  function DaysInYear(y: int): int
  {
    if IsLeap(y) then 366 else 365
  }

  function DaysInMonth(y: int, m: int): int
    requires 1 <= m <= 12
  {
    if m == 2 then (if IsLeap(y) then 29 else 28)
    else if m == 4 || m == 6 || m == 9 || m == 11 then 30
    else 31
  }

  datatype Date = Date(year: int, month: int, day: int)

  /** The dates `datetime.date` can represent. */
  predicate Valid(d: Date)
  {
    && MinYear <= d.year <= MaxYear
    && 1 <= d.month <= 12
    && 1 <= d.day <= DaysInMonth(d.year, d.month)
  }

  /** Days in the years 1 .. y-1 (Python's `_days_before_year`). */
  function DaysBeforeYear(y: int): int
    requires y >= 1
  {
    var p := y - 1;
    365 * p + p / 4 - p / 100 + p / 400
  }

  /** Days in the months 1 .. m-1 of year y (m = 13 gives the whole year). */
  function DaysBeforeMonth(y: int, m: int): nat
    requires 1 <= m <= 13
  {
    [0, 31, 59, 90, 120, 151, 181, 212, 243, 273, 304, 334, 365][m - 1]
      + (if m > 2 && IsLeap(y) then 1 else 0)
  }

  /** `date.toordinal()`: 0001-01-01 is day 1, and every date has a number no larger
      than that of `date.max`. */
  function Ordinal(d: Date): (n: int)
    requires Valid(d)
    ensures 1 <= n <= MaxOrdinal
  {
    DayCountBounds(d);
    DaysBeforeYear(d.year) + DaysBeforeMonth(d.year, d.month) + d.day
  }

  /** The days before a date, plus its day of the month, lie between 1 and the
      number of days up to 9999-12-31. */
  lemma DayCountBounds(d: Date)
    requires Valid(d)
    ensures 1 <= DaysBeforeYear(d.year) + DaysBeforeMonth(d.year, d.month) + d.day <= MaxOrdinal
  {
    var y, m := d.year, d.month;
    DaysBeforeMonthStep(y, m);
    DaysBeforeMonthMonotone(y, m + 1);
    DaysBeforeYearMonotone(y, MaxYear);
    DaysBeforeYearStep(MaxYear);
  }

  /** Months before m take no more days than the whole year. */
  lemma DaysBeforeMonthMonotone(y: int, m: int)
    requires 1 <= m <= 13
    ensures DaysBeforeMonth(y, m) <= DaysBeforeMonth(y, 13)
  {
  }

  /** `date.max.toordinal()`. */
  const MaxOrdinal: int := 3652059

  lemma MaxOrdinalIsLastDay()
    ensures Valid(Date(MaxYear, 12, 31)) && Ordinal(Date(MaxYear, 12, 31)) == MaxOrdinal
  {
  }

  /** Stepping p to p + 1 raises p / k by one exactly when k divides p + 1. */
  lemma DivStep(p: int, k: int)
    requires p >= 0 && k > 0
    ensures (p + 1) / k == p / k + (if (p + 1) % k == 0 then 1 else 0)
  {
    var q, r := p / k, p % k;
    if r == k - 1 {
      ModUnique(p + 1, k, q + 1, 0);
    } else {
      ModUnique(p + 1, k, q, r + 1);
    }
  }

  lemma DaysBeforeYearStep(y: int)
    requires y >= 1
    ensures DaysBeforeYear(y + 1) == DaysBeforeYear(y) + DaysInYear(y)
  {
    DivStep(y - 1, 4);
    DivStep(y - 1, 100);
    DivStep(y - 1, 400);
    if y % 400 == 0 {
      ModUnique(y, 100, 4 * (y / 400), 0);
      ModUnique(y, 4, 100 * (y / 400), 0);
    } else if y % 100 == 0 {
      ModUnique(y, 4, 25 * (y / 100), 0);
    }
  }

  lemma DaysBeforeMonthStep(y: int, m: int)
    requires 1 <= m <= 12
    ensures DaysBeforeMonth(y, m + 1) == DaysBeforeMonth(y, m) + DaysInMonth(y, m)
    ensures DaysBeforeMonth(y, 13) == DaysInYear(y)
  {
  }

  lemma {:induction false} DaysBeforeYearMonotone(a: int, b: int)
    requires 1 <= a <= b
    ensures DaysBeforeYear(a) <= DaysBeforeYear(b)
    ensures a < b ==> DaysBeforeYear(a) + DaysInYear(a) <= DaysBeforeYear(b)
    decreases b - a
  {
    if a < b {
      DaysBeforeYearMonotone(a, b - 1);
      DaysBeforeYearStep(b - 1);
      DaysBeforeYearStep(a);
    }
  }

  /** The year holding the k-th day (counted from 0) after January 1 of year y,
      and that day's 0-based position inside its year. */
  function YearOf(y: int, k: int): (int, int)
    requires y >= 1 && k >= 0
    decreases k
  {
    if k < DaysInYear(y) then (y, k) else YearOf(y + 1, k - DaysInYear(y))
  }

  /** The month holding day k (0-based) of year y, searching from month m,
      and the day's 0-based position inside its month. */
  function MonthOf(y: int, m: int, k: int): (int, int)
    requires 1 <= m <= 12 && k >= 0
    decreases 12 - m
  {
    if m == 12 || k < DaysInMonth(y, m) then (m, k)
    else MonthOf(y, m + 1, k - DaysInMonth(y, m))
  }

  lemma {:induction false} YearOfSound(y: int, k: int)
    requires y >= 1 && k >= 0
    ensures YearOf(y, k).0 >= y
    ensures 0 <= YearOf(y, k).1 < DaysInYear(YearOf(y, k).0)
    ensures DaysBeforeYear(YearOf(y, k).0) - DaysBeforeYear(y) + YearOf(y, k).1 == k
    decreases k
  {
    if k >= DaysInYear(y) {
      DaysBeforeYearStep(y);
      YearOfSound(y + 1, k - DaysInYear(y));
    }
  }

  lemma {:induction false} YearOfComplete(y0: int, y: int, k: int)
    requires 1 <= y0 <= y
    requires 0 <= k < DaysInYear(y)
    ensures var n := DaysBeforeYear(y) - DaysBeforeYear(y0) + k; n >= 0 && YearOf(y0, n) == (y, k)
    decreases y - y0
  {
    DaysBeforeYearMonotone(y0, y);
    if y0 < y {
      DaysBeforeYearStep(y0);
      DaysBeforeYearMonotone(y0 + 1, y);
      YearOfComplete(y0 + 1, y, k);
    }
  }

  lemma {:induction false} MonthOfSound(y: int, m: int, k: int)
    requires 1 <= m <= 12
    requires 0 <= k < DaysInYear(y) - DaysBeforeMonth(y, m)
    ensures m <= MonthOf(y, m, k).0 <= 12
    ensures 0 <= MonthOf(y, m, k).1 < DaysInMonth(y, MonthOf(y, m, k).0)
    ensures DaysBeforeMonth(y, MonthOf(y, m, k).0) - DaysBeforeMonth(y, m) + MonthOf(y, m, k).1 == k
    decreases 12 - m
  {
    DaysBeforeMonthStep(y, m);
    if !(m == 12 || k < DaysInMonth(y, m)) {
      MonthOfSound(y, m + 1, k - DaysInMonth(y, m));
    }
  }

  lemma {:induction false} MonthOfComplete(y: int, m0: int, m: int, e: int)
    requires 1 <= m0 <= m <= 12
    requires 0 <= e < DaysInMonth(y, m)
    ensures MonthOf(y, m0, DaysBeforeMonth(y, m) - DaysBeforeMonth(y, m0) + e) == (m, e)
    decreases m - m0
  {
    DaysBeforeMonthStep(y, m0);
    if m0 < m {
      assert DaysBeforeMonth(y, m) >= DaysBeforeMonth(y, m0 + 1);
      MonthOfComplete(y, m0 + 1, m, e);
    }
  }

  /** `date.fromordinal(n)`. */
  function FromOrdinal(n: int): (d: Date)
    requires 1 <= n <= MaxOrdinal
    ensures Valid(d) && Ordinal(d) == n
  {
    YearOfSound(1, n - 1);
    var (y, k) := YearOf(1, n - 1);
    if y > MaxYear then
      DaysBeforeYearMonotone(MaxYear + 1, y);
      assert false;
      Date(MinYear, 1, 1)
    else
      DaysBeforeMonthStep(y, 1);
      MonthOfSound(y, 1, k);
      var (m, e) := MonthOf(y, 1, k);
      Date(y, m, e + 1)
  }

  /** A valid date's ordinal, split into the days before its year and its 0-based
      day within the year. */
  lemma OrdinalParts(d: Date)
    requires Valid(d)
    ensures var k := DaysBeforeMonth(d.year, d.month) + d.day - 1;
      && 0 <= k < DaysInYear(d.year)
      && Ordinal(d) == DaysBeforeYear(d.year) + k + 1
      && 1 <= Ordinal(d) <= MaxOrdinal
  {
    var y := d.year;
    DaysBeforeMonthStep(y, d.month);
    assert DaysBeforeMonth(y, d.month + 1) <= DaysBeforeMonth(y, 13);
    DaysBeforeYearStep(y);
    DaysBeforeYearMonotone(y + 1, MaxYear + 1);
  }

  /** Day ordinals number the representable dates one-to-one, from 1 to MaxOrdinal. */
  lemma OrdinalRoundTrip(d: Date)
    requires Valid(d)
    ensures 1 <= Ordinal(d) <= MaxOrdinal
    ensures FromOrdinal(Ordinal(d)) == d
  {
    var y := d.year;
    var k := DaysBeforeMonth(y, d.month) + d.day - 1;
    OrdinalParts(d);
    YearOfComplete(1, y, k);
    MonthOfComplete(y, 1, d.month, d.day - 1);
  }

  /** Only 0001-01-01 has ordinal 1. */
  lemma FirstOrdinalDay(d: Date)
    requires Valid(d) && Ordinal(d) == 1
    ensures d == Date(MinYear, 1, 1)
  {
    var first := Date(MinYear, 1, 1);
    assert Valid(first) && Ordinal(first) == 1;
    OrdinalRoundTrip(d);
    OrdinalRoundTrip(first);
    assert d == FromOrdinal(1) == first;
  }

  /** Only 9999-12-31 has ordinal MaxOrdinal. */
  lemma LastOrdinalDay(d: Date)
    requires Valid(d) && Ordinal(d) == MaxOrdinal
    ensures d == Date(MaxYear, 12, 31)
  {
    var last := Date(MaxYear, 12, 31);
    MaxOrdinalIsLastDay();
    OrdinalRoundTrip(d);
    OrdinalRoundTrip(last);
    assert d == FromOrdinal(MaxOrdinal) == last;
  }

  // ---------------------------------------------------------------------------
  // str.strip

  /** The characters Python's `str.isspace` accepts, which `str.strip()` removes. */
  predicate IsSpace(c: char)
  {
    || ('\U{9}' <= c <= '\U{D}')
    || ('\U{1C}' <= c <= '\U{20}')
    || c == '\U{85}' || c == '\U{A0}' || c == '\U{1680}'
    || ('\U{2000}' <= c <= '\U{200A}')
    || c == '\U{2028}' || c == '\U{2029}' || c == '\U{202F}' || c == '\U{205F}' || c == '\U{3000}'
  }

  /** How many characters at the start of s have property p. */
  function LeadingCount(s: string, p: char -> bool): (n: nat)
    ensures n <= |s|
    ensures forall j :: 0 <= j < n ==> p(s[j])
    ensures n == |s| || !p(s[n])
  {
    if |s| > 0 && p(s[0]) then
      var m := LeadingCount(s[1..], p);
      assert forall j :: 1 <= j < m + 1 ==> s[j] == s[1..][j - 1];
      m + 1
    else 0
  }

  /** How many characters at the end of s have property p. */
  function TrailingCount(s: string, p: char -> bool): (n: nat)
    ensures n <= |s|
    ensures forall j :: |s| - n <= j < |s| ==> p(s[j])
    ensures n == |s| || !p(s[|s| - n - 1])
  {
    if |s| > 0 && p(s[|s| - 1]) then
      var m := TrailingCount(s[..|s| - 1], p);
      assert forall j :: 0 <= j < |s| - 1 ==> s[j] == s[..|s| - 1][j];
      m + 1
    else 0
  }

  /** `str.lstrip()`: what is dropped is all whitespace, what is kept does not start
      with any. */
  function StripLeft(s: string): (r: string)
    ensures |r| <= |s| && r == s[|s| - |r|..]
    ensures forall j :: 0 <= j < |s| - |r| ==> IsSpace(s[j])
    ensures |r| == 0 || !IsSpace(r[0])
  {
    s[LeadingCount(s, IsSpace)..]
  }

  /** `str.rstrip()`: what is dropped is all whitespace, what is kept does not end
      with any. */
  function StripRight(s: string): (r: string)
    ensures |r| <= |s| && r == s[..|r|]
    ensures forall j :: |r| <= j < |s| ==> IsSpace(s[j])
    ensures |r| == 0 || !IsSpace(r[|r| - 1])
  {
    s[..|s| - TrailingCount(s, IsSpace)]
  }

  /** `str.strip()`: whitespace removed at both ends. */
  function Strip(s: string): (r: string)
    ensures |r| <= |s|
    ensures |r| == 0 || (!IsSpace(r[0]) && !IsSpace(r[|r| - 1]))
  {
    StripRight(StripLeft(s))
  }

  /** r is the slice of s starting at i, and every character before and after it
      has the property p. */
  predicate SliceBetween(s: string, i: int, r: string, p: char -> bool)
  {
    && 0 <= i && i + |r| <= |s| && r == s[i..i + |r|]
    && (forall j :: 0 <= j < i ==> p(s[j]))
    && (forall j :: i + |r| <= j < |s| ==> p(s[j]))
  }

  /** What strip keeps is the slice of `s` between its leading and its trailing
      whitespace. */
  lemma {:induction false} StripSlice(s: string)
    ensures SliceBetween(s, |s| - |StripLeft(s)|, Strip(s), IsSpace)
  {
    var l := StripLeft(s);
    PrefixOfSuffix(s, l, StripRight(l), IsSpace);
  }

  /** A prefix r of a suffix l of s is a slice of s; what precedes l in s and what
      follows r in l keep a property p. */
  lemma {:induction false} PrefixOfSuffix(s: string, l: string, r: string, p: char -> bool)
    requires |l| <= |s| && l == s[|s| - |l|..]
    requires |r| <= |l| && r == l[..|r|]
    requires forall j :: 0 <= j < |s| - |l| ==> p(s[j])
    requires forall j :: |r| <= j < |l| ==> p(l[j])
    ensures SliceBetween(s, |s| - |l|, r, p)
  {
    var i := |s| - |l|;
    assert r == s[i..i + |r|] by {
      assert l[..|r|] == s[i..][..|r|];
    }
    forall j | i + |r| <= j < |s| ensures p(s[j]) {
      assert s[j] == l[j - i];
    }
  }

  // ---------------------------------------------------------------------------
  // datetime.strptime(s, '%Y%m%d') and strftime('%Y%m%d')

  predicate IsDigit(c: char)
  {
    '0' <= c <= '9'
  }

  function DigitValue(c: char): int
    requires IsDigit(c)
  {
    c as int - '0' as int
  }

  function DigitChar(v: int): char
    requires 0 <= v <= 9
  {
    ('0' as int + v) as char
  }

  /** One way a directive can match: the number read and the position after it. */
  datatype Field = Field(value: int, next: nat)

  /** The alternatives of the `%m` pattern `1[0-2]|0[1-9]|[1-9]` that match at
      position p, in the order the regular expression tries them. */
  function MonthFields(s: string, p: nat): seq<Field>
  {
    (if p + 1 < |s| && ((s[p] == '1' && '0' <= s[p + 1] <= '2') || (s[p] == '0' && '1' <= s[p + 1] <= '9'))
     then [Field(10 * DigitValue(s[p]) + DigitValue(s[p + 1]), p + 2)] else [])
    + (if p < |s| && '1' <= s[p] <= '9' then [Field(DigitValue(s[p]), p + 1)] else [])
  }

  /** The alternatives of the `%d` pattern `3[01]|[12]\d|0[1-9]|[1-9]| [1-9]`
      that match at position p, in the order the regular expression tries them. */
  function DayFields(s: string, p: nat): seq<Field>
  {
    (if p + 1 < |s| && ((s[p] == '3' && '0' <= s[p + 1] <= '1')
                        || ('1' <= s[p] <= '2' && IsDigit(s[p + 1]))
                        || (s[p] == '0' && '1' <= s[p + 1] <= '9'))
     then [Field(10 * DigitValue(s[p]) + DigitValue(s[p + 1]), p + 2)] else [])
    + (if p < |s| && '1' <= s[p] <= '9' then [Field(DigitValue(s[p]), p + 1)] else [])
    + (if p + 1 < |s| && s[p] == ' ' && '1' <= s[p + 1] <= '9' then [Field(DigitValue(s[p + 1]), p + 2)] else [])
  }

  /** What the regular expression matches after the four year digits: the
      first month alternative for which some day alternative matches, with the
      first such day alternative (the pattern is not anchored at the end). */
  function MatchMonthDay(s: string, months: seq<Field>): (r: Option<(Field, Field)>)
    ensures r.Some? ==> r.value.0 in months && r.value.1 in DayFields(s, r.value.0.next)
  {
    if |months| == 0 then None
    else
      var days := DayFields(s, months[0].next);
      if |days| > 0 then Some((months[0], days[0])) else MatchMonthDay(s, months[1..])
  }

  /** `datetime.strptime(s, '%Y%m%d')` for strings of ASCII characters: `None`
      where Python raises ValueError (no match, unconverted data remains, or a
      day, month or year out of range). */
  function Strptime(s: string): (r: Option<Date>)
    ensures r.Some? ==> Valid(r.value)
  {
    if |s| < 4 || !(IsDigit(s[0]) && IsDigit(s[1]) && IsDigit(s[2]) && IsDigit(s[3])) then None
    else
      var y := 1000 * DigitValue(s[0]) + 100 * DigitValue(s[1]) + 10 * DigitValue(s[2]) + DigitValue(s[3]);
      match MatchMonthDay(s, MonthFields(s, 4))
      case None => None
      case Some((m, d)) =>
        if d.next == |s| && Valid(Date(y, m.value, d.value)) then Some(Date(y, m.value, d.value)) else None
  }

  /** `strftime('%Y%m%d')`: four-digit year, two-digit month and day. */
  function Format(d: Date): (s: string)
    requires Valid(d)
    ensures |s| == 8 && forall i :: 0 <= i < 8 ==> IsDigit(s[i])
  {
    [DigitChar(d.year / 1000), DigitChar(d.year / 100 % 10), DigitChar(d.year / 10 % 10), DigitChar(d.year % 10),
     DigitChar(d.month / 10), DigitChar(d.month % 10), DigitChar(d.day / 10), DigitChar(d.day % 10)]
  }

  lemma FourDigits(y: int)
    requires 0 <= y < 10000
    ensures 1000 * (y / 1000) + 100 * (y / 100 % 10) + 10 * (y / 10 % 10) + y % 10 == y
  {
    var q1, d := y / 10, y % 10;
    var q2, c := q1 / 10, q1 % 10;
    var a, b := q2 / 10, q2 % 10;
    assert y == 1000 * a + 100 * b + 10 * c + d;
    DigitsOf(a, b, c, d);
  }

  lemma DigitsOf(a: int, b: int, c: int, d: int)
    requires 0 <= a <= 9 && 0 <= b <= 9 && 0 <= c <= 9 && 0 <= d <= 9
    ensures var y := 1000 * a + 100 * b + 10 * c + d;
      y / 1000 == a && y / 100 % 10 == b && y / 10 % 10 == c && y % 10 == d
  {
    var y := 1000 * a + 100 * b + 10 * c + d;
    DivUnique(y, 1000, a, 100 * b + 10 * c + d);
    DivUnique(y, 100, 10 * a + b, 10 * c + d);
    ModUnique(10 * a + b, 10, a, b);
    ModUnique(y, 10, 100 * a + 10 * b + c, d);
    ModUnique(100 * a + 10 * b + c, 10, 10 * a + b, c);
  }

  /** Parsing what strftime printed gives the date back. */
  lemma ParseFormat(d: Date)
    requires Valid(d)
    ensures Strptime(Format(d)) == Some(d)
  {
    var s := Format(d);
    FourDigits(d.year);
    assert DayFields(s, 6)[0] == Field(d.day, 8);
    assert MonthFields(s, 4)[0] == Field(d.month, 6);
  }

  /** Among the month alternatives at p, only the two-digit one ends at p + 2. */
  lemma MonthFieldsEnd(s: string, p: nat)
    requires p + 1 < |s| && IsDigit(s[p]) && IsDigit(s[p + 1])
    ensures forall f :: f in MonthFields(s, p) ==>
      p < f.next <= p + 2 && (f.next == p + 2 ==> f.value == 10 * DigitValue(s[p]) + DigitValue(s[p + 1]))
  {
  }

  /** Among the day alternatives at p, followed by two digits, only the two-digit
      one ends at p + 2. */
  lemma DayFieldsEnd(s: string, p: nat)
    requires p + 1 < |s| && IsDigit(s[p]) && IsDigit(s[p + 1])
    ensures forall f :: f in DayFields(s, p) ==>
      f.next <= p + 2 && (f.next == p + 2 ==> f.value == 10 * DigitValue(s[p]) + DigitValue(s[p + 1]))
  {
  }

  /** What strptime reads from eight ASCII digits: four for the year, two for the
      month and two for the day. */
  lemma StrptimeDigits(s: string)
    requires |s| == 8 && forall i :: 0 <= i < 8 ==> IsDigit(s[i])
    requires Strptime(s).Some?
    ensures Strptime(s).value == Date(
      1000 * DigitValue(s[0]) + 100 * DigitValue(s[1]) + 10 * DigitValue(s[2]) + DigitValue(s[3]),
      10 * DigitValue(s[4]) + DigitValue(s[5]),
      10 * DigitValue(s[6]) + DigitValue(s[7]))
  {
    var (m, dd) := MatchMonthDay(s, MonthFields(s, 4)).value;
    assert dd.next == 8;
    MonthFieldsEnd(s, 4);
    DayFieldsEnd(s, m.next);
    DayFieldsEnd(s, 6);
  }

  /** strftime writes a date whose parts have the given digits as those digits. */
  lemma FormatDigits(v: seq<int>)
    requires |v| == 8 && forall i :: 0 <= i < 8 ==> 0 <= v[i] <= 9
    requires Valid(Date(1000 * v[0] + 100 * v[1] + 10 * v[2] + v[3], 10 * v[4] + v[5], 10 * v[6] + v[7]))
    ensures Format(Date(1000 * v[0] + 100 * v[1] + 10 * v[2] + v[3], 10 * v[4] + v[5], 10 * v[6] + v[7]))
      == seq(8, i requires 0 <= i < 8 => DigitChar(v[i]))
  {
    DigitsOf(v[0], v[1], v[2], v[3]);
    ModUnique(10 * v[4] + v[5], 10, v[4], v[5]);
    ModUnique(10 * v[6] + v[7], 10, v[6], v[7]);
  }

  /** Formatting a parsed string of eight ASCII digits prints that string again. */
  lemma FormatParse(s: string)
    requires |s| == 8 && forall i :: 0 <= i < 8 ==> IsDigit(s[i])
    requires Strptime(s).Some?
    ensures Format(Strptime(s).value) == s
  {
    StrptimeDigits(s);
    var v := seq(8, i requires 0 <= i < 8 => DigitValue(s[i]));
    var d := Date(1000 * v[0] + 100 * v[1] + 10 * v[2] + v[3], 10 * v[4] + v[5], 10 * v[6] + v[7]);
    assert Strptime(s).value == d;
    FormatDigits(v);
    forall i | 0 <= i < 8 ensures DigitChar(v[i]) == s[i] {
    }
    assert Format(d) == s;
  }
}

=== FILE: entsoe.dfy ===
/** `EntsoeClient.fetch_load_data` in `src/data/clients/entsoe_client.py`: the
    load client that validates its date strings, walks windows of `chunk_size`
    days with a retry loop that re-raises connection failures, and keeps only the
    non-empty chunks. */
module EntsoeLoad {
  import opened Base
  import opened Calendar
  import opened Windows
  import opened Retry
  import opened Frames
  import opened Fetching
  import opened LoadLoader

  /** The chunks to concatenate, and the file they were saved under; no chunk means
      the empty frame, returned unsaved. */
  datatype Fetched = Fetched(chunks: seq<Frame>, savedAs: Option<string>)

  /** The CSV file of a range, named after the stripped dates: both can be read back
      from fixed positions of the name. */
  function LoadFile(startDate: string, endDate: string): (r: string)
    ensures |Strip(startDate)| == 8 && |Strip(endDate)| == 8 ==>
      |r| == 31 && r[10..18] == Strip(startDate) && r[19..27] == Strip(endDate)
  {
    FileName("load_data_", Strip(startDate), Strip(endDate))
  }

  /** The retry loops of the first n windows, in order. */
  function EntsoeJobs(remote: (nat, nat) -> Reply<Frame>, n: nat, maxRetries: int): (b: Batch<Frame>)
    ensures b.raised.None? ==> b.outcomes == WindowOutcomes(EntsoeLoad, Empty, remote, n, maxRetries)
    ensures b.raised.None? ==> forall i :: 0 <= i < |Collected(b.outcomes)| ==> !IsEmpty(Collected(b.outcomes)[i])
  {
    var b := RunJobs(EntsoeLoad, Empty, remote, 0, n, maxRetries);
    BatchMatchesWindows(EntsoeLoad, Empty, remote, n, maxRetries);
    CollectedNonEmpty(Empty, b.outcomes);
    b
  }

  /** The tail of the fetch once every window answered: the empty frame when no chunk
      was kept, else the chunks, provided the CSV can be written. */
  function Conclude(chunks: seq<Frame>, saveWorks: bool, file: string): (r: Result<Fetched, Error>)
    ensures r.Err? <==> |chunks| > 0 && !saveWorks
    ensures r.Err? ==> r.error == SaveFailed
    ensures r.Ok? ==> r.value.chunks == chunks && r.value.savedAs == (if |chunks| == 0 then None else Some(file))
  {
    if |chunks| == 0 then Ok(Fetched([], None))
    else if saveWorks then Ok(Fetched(chunks, Some(file)))
    else Err(SaveFailed)
  }

  /** `fetch_load_data(start_date, end_date, chunk_size, max_retries)`: `remote(k, a)`
      answers attempt `a` for the k-th window; `saveWorks` says whether writing the
      CSV succeeds. */
  function FetchLoadData(startDate: string, endDate: string, chunkSize: nat, maxRetries: int,
                         saveWorks: bool, remote: (nat, nat) -> Reply<Frame>): (r: Run<Fetched>)
    ensures ParseZonedRange(startDate, endDate).Err? ==>
      r == Run(Err(ParseZonedRange(startDate, endDate).error), [], 0)
    ensures ParseZonedRange(startDate, endDate).Ok? && chunkSize == 0 ==> r == Run(Err(ZeroChunk), [], 0)
    ensures r.result.Ok? ==> forall i :: 0 <= i < |r.result.value.chunks| ==> !IsEmpty(r.result.value.chunks[i])
    ensures r.result.Ok? ==>
      r.result.value.savedAs == (if |r.result.value.chunks| == 0 then None else Some(LoadFile(startDate, endDate)))
    ensures r.result.Ok? ==>
      var (s, e) := ParseZonedRange(startDate, endDate).value;
      chunkSize > 0 &&
      r.result.value.chunks == Collected(WindowOutcomes(EntsoeLoad, Empty, remote, |Split(Ordinal(s), Ordinal(e), chunkSize)|, maxRetries))
  {
    match Walk(ParseZonedRange(startDate, endDate), chunkSize)
    case Err(x) => Run(Err(x), [], 0)
    case Ok((n, overflow)) =>
      var b := EntsoeJobs(remote, n, maxRetries);
      if b.raised.Some? then Run(Err(Remote(b.raised.value)), b.sleeps, b.queries)
      else if overflow then Run(Err(DateOverflow), b.sleeps, b.queries)
      else Run(Conclude(Collected(b.outcomes), saveWorks, LoadFile(startDate, endDate)), b.sleeps, b.queries)
  }

  /** The progress bar's `(total_days + chunk_size - 1) // chunk_size` is the number
      of windows the loop visits. */
  lemma ChunkCountIsWindowCount(start: Date, end: Date, chunkSize: nat)
    requires Valid(start) && Valid(end) && Ordinal(start) < Ordinal(end) && chunkSize > 0
    ensures ChunkCount(Ordinal(end) - Ordinal(start), chunkSize) == Ok(|Split(Ordinal(start), Ordinal(end), chunkSize)|)
  {
    SplitCount(Ordinal(start), Ordinal(end), chunkSize);
  }
}

=== FILE: features.dfy ===
/** The feature derivation of the 24-hour load forecaster: calendar fields of the
    timestamps, trailing rolling statistics of the load, peak-hour flags, rolling
    statistics restricted to the rows of one peak, and the renewable features.

    Timestamps are wall-clock seconds counted from 1970-01-01 00:00, so that the
    hour and the weekday pandas reads off a (possibly zone-aware) index are plain
    arithmetic on them. */
module Features {
  import opened Base
  import opened Calendar
  import opened Frames
  import opened Stats
  import Processor

  type Frame = Table<string>

  /** The exceptions the derivation lets through. */
  datatype Error =
    | NotDatetimeIndex  // ValueError: the index is not a DatetimeIndex
    | MissingLoad       // ValueError: there is no 'load' column
    | DuplicateLabels   // ValueError from pandas: a peak-restricted series cannot be realigned

  const Load: string := "load"
  const Solar: string := "solar_yesterday"
  const Offshore: string := "wind_offshore_yesterday"
  const Onshore: string := "wind_onshore_yesterday"

  // ---------------------------------------------------------------------------
  // Time fields

  /** `index.hour`. */
  function Hour(ts: int): (h: int)
    ensures 0 <= h < 24
  {
    (ts / 3600) % 24
  }

  /** `index.weekday`, Monday being 0; 1970-01-01 was a Thursday. */
  function Weekday(ts: int): (d: int)
    ensures 0 <= d < 7
  {
    (ts / 86400 + 3) % 7
  }

  /** The hour field of `day` days, `h` hours and `s` seconds after the epoch is `h`. */
  lemma {:induction false} HourOfClock(day: int, h: int, s: int)
    requires 0 <= h < 24 && 0 <= s < 3600
    ensures Hour(86400 * day + 3600 * h + s) == h
  {
    var x := 86400 * day + 3600 * h + s;
    assert x == 3600 * (24 * day + h) + s;
    DivUnique(x, 3600, 24 * day + h, s);
    ModUnique(24 * day + h, 24, day, h);
  }

  /** One hour later the hour field has moved on by one, wrapping at midnight. */
  lemma {:induction false} HourNext(ts: int)
    ensures Hour(ts + 3600) == (Hour(ts) + 1) % 24
  {
    var q, r := ts / 3600, ts % 3600;
    DivUnique(ts + 3600, 3600, q + 1, r);
    if q % 24 < 23 {
      ModUnique(q + 1, 24, q / 24, q % 24 + 1);
    } else {
      ModUnique(q + 1, 24, q / 24 + 1, 0);
    }
  }

  /** One day later the hour field is the same. */
  lemma {:induction false} HourDaily(ts: int)
    ensures Hour(ts + 86400) == Hour(ts)
  {
    var q, r := ts / 3600, ts % 3600;
    DivUnique(ts + 86400, 3600, q + 24, r);
    ModUnique(q + 24, 24, q / 24 + 1, q % 24);
  }

  /** One day later the weekday has moved on by one, wrapping after Sunday. */
  lemma {:induction false} WeekdayNext(ts: int)
    ensures Weekday(ts + 86400) == (Weekday(ts) + 1) % 7
  {
    var q, r := ts / 86400, ts % 86400;
    DivUnique(ts + 86400, 86400, q + 1, r);
    var k := q + 3;
    if k % 7 < 6 {
      ModUnique(k + 1, 7, k / 7, k % 7 + 1);
    } else {
      ModUnique(k + 1, 7, k / 7 + 1, 0);
    }
  }

  /** The ordinal of 1970-01-01, the day the timestamps count from. */
  const EpochOrdinal: int := 719163

  /** Any instant of a calendar day has the weekday Python's `date.weekday()` gives
      that day, `(toordinal() + 6) % 7`. */
  lemma {:induction false} WeekdayOfDate(d: Date, s: int)
    requires Valid(d) && 0 <= s < 86400
    ensures Valid(Date(1970, 1, 1)) && Ordinal(Date(1970, 1, 1)) == EpochOrdinal
    ensures Weekday(86400 * (Ordinal(d) - EpochOrdinal) + s) == (Ordinal(d) + 6) % 7
  {
    var n := Ordinal(d);
    DivUnique(86400 * (n - EpochOrdinal) + s, 86400, n - EpochOrdinal, s);
    assert n - EpochOrdinal + 3 == 7 * ((n + 6) / 7 - 102738) + (n + 6) % 7;
    ModUnique(n - EpochOrdinal + 3, 7, (n + 6) / 7 - 102738, (n + 6) % 7);
  }

  // ---------------------------------------------------------------------------
  // Trailing rolling statistics: `rolling(window=w, min_periods=1)`

  /** The aggregates applied over a window; missing cells are skipped. */
  datatype Stat = MeanOf | LeastOf | GreatestOf

  function Aggregate(stat: Stat, xs: seq<real>): (r: Option<real>)
    ensures r.Some? <==> |xs| > 0
  {
    match stat
    case MeanOf => Mean(xs)
    case LeastOf => Least(xs)
    case GreatestOf => Greatest(xs)
  }

  /** The first row of the window of width `w` that ends at row `i`. */
  function WindowStart(w: nat, i: nat): (lo: nat)
    requires w > 0
    ensures lo <= i
  {
    if i + 1 >= w then i + 1 - w else 0
  }

  /** The present values among rows max(0, i - w + 1) .. i. */
  function Trailing(cells: seq<Option<real>>, w: nat, i: nat): seq<real>
    requires w > 0 && i < |cells|
  {
    Present(cells[WindowStart(w, i)..i + 1])
  }

  /** Row i aggregates the present values of rows max(0, i - w + 1) .. i, and is
      missing only when all of them are. */
  function Rolling(cells: seq<Option<real>>, w: nat, stat: Stat): (r: seq<Option<real>>)
    requires w > 0
    ensures |r| == |cells|
  {
    seq(|cells|, i requires 0 <= i < |cells| => Aggregate(stat, Trailing(cells, w, i)))
  }

  /** A rolling cell is defined exactly when some cell of its window is present. */
  lemma {:induction false} RollingDefined(cells: seq<Option<real>>, w: nat, stat: Stat, i: nat)
    requires w > 0 && i < |cells|
    ensures Rolling(cells, w, stat)[i].Some? <==>
      exists j :: WindowStart(w, i) <= j <= i && cells[j].Some?
  {
    RollingAt(cells, w, stat, i);
    PresentInRange(cells, WindowStart(w, i), i);
  }

  /** Row i of a rolling column is defined iff its window has a present value. */
  lemma RollingAt(cells: seq<Option<real>>, w: nat, stat: Stat, i: nat)
    requires w > 0 && i < |cells|
    ensures Rolling(cells, w, stat)[i].Some? <==> |Trailing(cells, w, i)| > 0
  {
    assert Rolling(cells, w, stat)[i] == Aggregate(stat, Trailing(cells, w, i));
  }

  /** Rows lo .. hi hold a present value iff some row between them does. */
  lemma PresentInRange(cells: seq<Option<real>>, lo: nat, hi: nat)
    requires lo <= hi < |cells|
    ensures |Present(cells[lo..hi + 1])| > 0 <==> exists j :: lo <= j <= hi && cells[j].Some?
  {
    var window := cells[lo..hi + 1];
    var xs := Present(window);
    if |xs| > 0 {
      assert Some(xs[0]) in window;
      var k :| 0 <= k < |window| && window[k] == Some(xs[0]);
      assert cells[lo + k] == window[k];
    }
    if exists j :: lo <= j <= hi && cells[j].Some? {
      var j :| lo <= j <= hi && cells[j].Some?;
      assert window[j - lo] == cells[j];
      assert cells[j].value in xs;
    }
  }

  /** Where the window holds a value, its minimum, mean and maximum are all defined,
      in that order, and the minimum and maximum are values of the window. */
  lemma {:induction false} RollingOrdered(cells: seq<Option<real>>, w: nat, i: nat)
    requires w > 0 && i < |cells|
    requires exists j :: WindowStart(w, i) <= j <= i && cells[j].Some?
    ensures Rolling(cells, w, LeastOf)[i].Some?
    ensures Rolling(cells, w, MeanOf)[i].Some?
    ensures Rolling(cells, w, GreatestOf)[i].Some?
    ensures Rolling(cells, w, LeastOf)[i].value <= Rolling(cells, w, MeanOf)[i].value
    ensures Rolling(cells, w, MeanOf)[i].value <= Rolling(cells, w, GreatestOf)[i].value
    ensures Some(Rolling(cells, w, LeastOf)[i].value) in cells[WindowStart(w, i)..i + 1]
    ensures Some(Rolling(cells, w, GreatestOf)[i].value) in cells[WindowStart(w, i)..i + 1]
  {
    RollingDefined(cells, w, MeanOf, i);
    var xs := Trailing(cells, w, i);
    var lo, hi := Least(xs).value, Greatest(xs).value;
    assert Between(xs, lo, hi);
    MeanBetween(xs, lo, hi);
  }

  /** A series whose cells all hold `c` rolls to `c` under every statistic. */
  lemma {:induction false} RollingConstant(cells: seq<Option<real>>, w: nat, stat: Stat, c: real, i: nat)
    requires w > 0 && i < |cells|
    requires forall j :: 0 <= j < |cells| ==> cells[j] == Some(c)
    ensures Rolling(cells, w, stat)[i] == Some(c)
  {
    var xs := Trailing(cells, w, i);
    var window := cells[WindowStart(w, i)..i + 1];
    assert window[|window| - 1] == Some(c);
    forall k | 0 <= k < |xs| ensures xs[k] == c {
      assert xs[k] in xs;
    }
    if stat == MeanOf {
      MeanConstant(xs, c);
    }
  }

  /** The first row is defined from that row alone: every statistic gives its own cell. */
  lemma {:induction false} RollingFirstRow(cells: seq<Option<real>>, w: nat, stat: Stat)
    requires w > 0 && |cells| > 0
    ensures Rolling(cells, w, stat)[0] == cells[0]
  {
    assert cells[0..1] == [cells[0]];
    if cells[0].Some? {
      assert Trailing(cells, w, 0) == [cells[0].value];
      if stat == MeanOf {
        MeanConstant([cells[0].value], cells[0].value);
      }
    }
  }

  /** Row i depends on nothing but the rows of its window. */
  lemma {:induction false} RollingLocal(a: seq<Option<real>>, b: seq<Option<real>>, w: nat, stat: Stat, i: nat)
    requires w > 0 && i < |a| && i < |b|
    requires forall j :: WindowStart(w, i) <= j <= i ==> a[j] == b[j]
    ensures Rolling(a, w, stat)[i] == Rolling(b, w, stat)[i]
  {
    assert a[WindowStart(w, i)..i + 1] == b[WindowStart(w, i)..i + 1];
  }

  // ---------------------------------------------------------------------------
  // Rolling statistics restricted to the rows of a mask: `df[mask]['load'].rolling(...)`

  /** How many rows a mask selects. */
  function Count(mask: seq<bool>): (n: nat)
    ensures n <= |mask|
  {
    if |mask| == 0 then 0
    else Count(mask[..|mask| - 1]) + (if mask[|mask| - 1] then 1 else 0)
  }

  /** The selected rows, in order. */
  function Select<T>(cells: seq<T>, mask: seq<bool>): (r: seq<T>)
    requires |cells| == |mask|
    ensures |r| == Count(mask)
    ensures forall x :: x in r ==> exists i :: 0 <= i < |cells| && mask[i] && cells[i] == x
  {
    if |cells| == 0 then []
    else
      var n := |cells| - 1;
      var rest := Select(cells[..n], mask[..n]);
      assert forall i :: 0 <= i < n ==> cells[..n][i] == cells[i] && mask[..n][i] == mask[i];
      rest + (if mask[n] then [cells[n]] else [])
  }

  /** A selected row sits in the selection right after the selected rows before it. */
  lemma {:induction false} SelectAt<T>(cells: seq<T>, mask: seq<bool>, i: nat)
    requires |cells| == |mask| && i < |cells| && mask[i]
    ensures Count(mask[..i]) < Count(mask)
    ensures Select(cells, mask)[Count(mask[..i])] == cells[i]
    decreases |cells|
  {
    var n := |cells| - 1;
    assert mask[..n][..i] == mask[..i];
    if i < n {
      SelectAt(cells[..n], mask[..n], i);
    } else {
      assert mask[..n] == mask[..i];
    }
  }

  /** Two series that agree on the selected rows have the same selection. */
  lemma {:induction false} SelectAgree<T>(a: seq<T>, b: seq<T>, mask: seq<bool>)
    requires |a| == |mask| && |b| == |mask|
    requires forall i :: 0 <= i < |mask| && mask[i] ==> a[i] == b[i]
    ensures Select(a, mask) == Select(b, mask)
    decreases |mask|
  {
    if |mask| > 0 {
      var n := |mask| - 1;
      SelectAgree(a[..n], b[..n], mask[..n]);
    }
  }

  /** No value occurs twice. */
  predicate Distinct<T(==)>(s: seq<T>)
  {
    forall i, j :: 0 <= i < j < |s| ==> s[i] != s[j]
  }

  /** Selecting from distinct values keeps them distinct. */
  lemma {:induction false} SelectDistinct<T>(cells: seq<T>, mask: seq<bool>)
    requires |cells| == |mask| && Distinct(cells)
    ensures Distinct(Select(cells, mask))
    decreases |mask|
  {
    if |mask| > 0 {
      var n := |mask| - 1;
      SelectDistinct(cells[..n], mask[..n]);
      var rest := Select(cells[..n], mask[..n]);
      if mask[n] {
        var s := Select(cells, mask);
        assert s == rest + [cells[n]];
        forall i, j | 0 <= i < j < |s| ensures s[i] != s[j] {
          assert s[i] == rest[i];
          if j == |rest| {
            assert rest[i] in rest;
          } else {
            assert s[j] == rest[j];
          }
        }
      }
    }
  }

  /** Row i of the restricted statistic, when the mask selects it: the statistic of
      the selection at the place where row i landed. */
  function MaskedAt(cells: seq<Option<real>>, mask: seq<bool>, w: nat, stat: Stat, i: nat): Option<real>
    requires |cells| == |mask| && w > 0 && i < |cells|
  {
    if mask[i] then
      SelectAt(cells, mask, i);
      Rolling(Select(cells, mask), w, stat)[Count(mask[..i])]
    else None
  }

  /** The statistic rolled over the selected rows alone, put back in their places;
      the rows the mask leaves out are missing. */
  function MaskedRolling(cells: seq<Option<real>>, mask: seq<bool>, w: nat, stat: Stat): (r: seq<Option<real>>)
    requires |cells| == |mask| && w > 0
    ensures |r| == |cells|
    ensures forall i :: 0 <= i < |cells| && !mask[i] ==> r[i].None?
  {
    seq(|cells|, i requires 0 <= i < |cells| => MaskedAt(cells, mask, w, stat, i))
  }

  /** The restricted statistic never looks at a row outside the mask. */
  lemma {:induction false} MaskedIgnoresUnselected(a: seq<Option<real>>, b: seq<Option<real>>, mask: seq<bool>, w: nat, stat: Stat)
    requires |a| == |mask| && |b| == |mask| && w > 0
    requires forall i :: 0 <= i < |mask| && mask[i] ==> a[i] == b[i]
    ensures MaskedRolling(a, mask, w, stat) == MaskedRolling(b, mask, w, stat)
  {
    SelectAgree(a, b, mask);
  }

  /** At a selected row the restricted statistic is the trailing statistic of the
      selection, at the position that holds that row's own cell. */
  lemma {:induction false} MaskedIsRollingOfSelection(cells: seq<Option<real>>, mask: seq<bool>, w: nat, stat: Stat, i: nat)
    requires |cells| == |mask| && w > 0 && i < |cells| && mask[i]
    ensures Count(mask[..i]) < Count(mask)
    ensures Select(cells, mask)[Count(mask[..i])] == cells[i]
    ensures MaskedRolling(cells, mask, w, stat)[i] == Rolling(Select(cells, mask), w, stat)[Count(mask[..i])]
  {
    SelectAt(cells, mask, i);
  }

  /** The first selected row is defined from its own cell alone. */
  lemma {:induction false} MaskedFirstRow(cells: seq<Option<real>>, mask: seq<bool>, w: nat, stat: Stat, i: nat)
    requires |cells| == |mask| && w > 0 && i < |cells| && mask[i] && Count(mask[..i]) == 0
    ensures MaskedRolling(cells, mask, w, stat)[i] == cells[i]
  {
    SelectAt(cells, mask, i);
    RollingFirstRow(Select(cells, mask), w, stat);
  }

  // ---------------------------------------------------------------------------
  // Peak hours

  const MorningPeakHours: set<int> := {7, 8, 9, 10, 11}
  const EveningPeakHours: set<int> := {16, 17, 18}
  const BaseHours: set<int> := {0, 1, 2, 3, 4, 22, 23}

  /** No hour is in two of the sets; the hours 5, 6, 12 to 15 and 19 to 21 are in none. */
  lemma {:induction false} PeakHoursExclusive(h: int)
    ensures !(h in MorningPeakHours && h in EveningPeakHours)
    ensures !(h in MorningPeakHours && h in BaseHours)
    ensures !(h in EveningPeakHours && h in BaseHours)
    ensures h in {5, 6, 12, 13, 14, 15, 19, 20, 21} ==>
      h !in MorningPeakHours && h !in EveningPeakHours && h !in BaseHours
  {
  }

  /** `index.hour.isin(hours)`. */
  function Mask(index: seq<int>, hours: set<int>): (m: seq<bool>)
    ensures |m| == |index|
  {
    seq(|index|, i requires 0 <= i < |index| => Hour(index[i]) in hours)
  }

  /** A boolean column, its cells read as 1.0 and 0.0. */
  function Flags(mask: seq<bool>): (r: seq<Option<real>>)
    ensures |r| == |mask|
  {
    seq(|mask|, i requires 0 <= i < |mask| => Some(if mask[i] then 1.0 else 0.0))
  }

  /** `flag * series`: the value where the flag is set, zero where it is not, and
      missing where the series is. */
  function Gate(mask: seq<bool>, cells: seq<Option<real>>): (r: seq<Option<real>>)
    requires |mask| == |cells|
    ensures |r| == |cells|
  {
    seq(|cells|, i requires 0 <= i < |cells| =>
      match cells[i]
      case None => None
      case Some(x) => Some(if mask[i] then x else 0.0))
  }

  /** `a + b`, missing where either is. */
  function AddCells(a: seq<Option<real>>, b: seq<Option<real>>): (r: seq<Option<real>>)
    requires |a| == |b|
    ensures |r| == |a|
  {
    seq(|a|, i requires 0 <= i < |a| =>
      if a[i].Some? && b[i].Some? then Some(a[i].value + b[i].value) else None)
  }

  // ---------------------------------------------------------------------------
  // The derived columns

  /** The windows of the load statistics: one day, one week, two weeks. */
  datatype LoadWindow = Day | Week | Fortnight

  /** The windows of the peak statistics, counted in peak rows. */
  datatype PeakWindow = Three | Six | Twelve

  /** The windows of the renewable means. */
  datatype RenewableWindow = OneDay | OneWeek

  datatype Peak = Morning | Evening

  /** The two statistics taken over peak rows. */
  datatype PeakAggregate = PeakMean | PeakMax

  /** One derived column, as the f-strings of the extractor name them. */
  datatype Feature =
    | HourOfDay
    | DayOfWeek
    | LoadStat(loadWindow: LoadWindow, stat: Stat)
    | PeakFlag(flagged: Peak)
    | BaseFlag
    | PeakStat(peak: Peak, peakWindow: PeakWindow, aggregate: PeakAggregate)
    | SolarRamp(ramp: Peak)
    | SolarMean(solarWindow: RenewableWindow)
    | TotalWind
    | WindMean(windWindow: RenewableWindow)

  function LoadHours(w: LoadWindow): nat
  {
    match w
    case Day => 24
    case Week => 168
    case Fortnight => 336
  }

  function PeakRows(w: PeakWindow): nat
  {
    match w
    case Three => 3
    case Six => 6
    case Twelve => 12
  }

  function RenewableHours(w: RenewableWindow): nat
  {
    match w
    case OneDay => 24
    case OneWeek => 168
  }

  function PeakHours(p: Peak): set<int>
  {
    match p
    case Morning => MorningPeakHours
    case Evening => EveningPeakHours
  }

  function AsStat(a: PeakAggregate): Stat
  {
    match a
    case PeakMean => MeanOf
    case PeakMax => GreatestOf
  }

  /** The column label of a feature: never the name of an input column. */
  function Label(f: Feature): (r: string)
    ensures r != Load && r != Solar && r != Offshore && r != Onshore
  {
    match f
    case HourOfDay => "hour"
    case DayOfWeek => "weekday"
    case LoadStat(Day, MeanOf) => "load_24h_mean"
    case LoadStat(Day, LeastOf) => "load_24h_min"
    case LoadStat(Day, GreatestOf) => "load_24h_max"
    case LoadStat(Week, MeanOf) => "load_168h_mean"
    case LoadStat(Week, LeastOf) => "load_168h_min"
    case LoadStat(Week, GreatestOf) => "load_168h_max"
    case LoadStat(Fortnight, MeanOf) => "load_336h_mean"
    case LoadStat(Fortnight, LeastOf) => "load_336h_min"
    case LoadStat(Fortnight, GreatestOf) => "load_336h_max"
    case PeakFlag(Morning) => "is_morning_peak"
    case PeakFlag(Evening) => "is_evening_peak"
    case BaseFlag => "is_base_load"
    case PeakStat(Morning, Three, PeakMean) => "morning_peak_3h_mean"
    case PeakStat(Morning, Three, PeakMax) => "morning_peak_3h_max"
    case PeakStat(Morning, Six, PeakMean) => "morning_peak_6h_mean"
    case PeakStat(Morning, Six, PeakMax) => "morning_peak_6h_max"
    case PeakStat(Morning, Twelve, PeakMean) => "morning_peak_12h_mean"
    case PeakStat(Morning, Twelve, PeakMax) => "morning_peak_12h_max"
    case PeakStat(Evening, Three, PeakMean) => "evening_peak_3h_mean"
    case PeakStat(Evening, Three, PeakMax) => "evening_peak_3h_max"
    case PeakStat(Evening, Six, PeakMean) => "evening_peak_6h_mean"
    case PeakStat(Evening, Six, PeakMax) => "evening_peak_6h_max"
    case PeakStat(Evening, Twelve, PeakMean) => "evening_peak_12h_mean"
    case PeakStat(Evening, Twelve, PeakMax) => "evening_peak_12h_max"
    case SolarRamp(Morning) => "morning_solar_ramp"
    case SolarRamp(Evening) => "evening_solar_ramp"
    case SolarMean(OneDay) => "solar_24h_mean"
    case SolarMean(OneWeek) => "solar_168h_mean"
    case TotalWind => "total_wind"
    case WindMean(OneDay) => "wind_24h_mean"
    case WindMean(OneWeek) => "wind_168h_mean"
  }

  /** No two features share a label. */
  lemma LabelInjective(f: Feature, g: Feature)
    ensures Label(f) == Label(g) ==> f == g
  {
    match f
    case LoadStat(_, _) => LoadLabelsDistinct(f, g);
    case PeakStat(Morning, _, _) => MorningLabelsDistinct(f, g);
    case PeakStat(Evening, _, _) => EveningLabelsDistinct(f, g);
    case _ => OtherLabelsDistinct(f, g);
  }

  lemma LoadLabelsDistinct(f: Feature, g: Feature)
    requires f.LoadStat?
    ensures Label(f) == Label(g) ==> f == g
  {
  }

  lemma MorningLabelsDistinct(f: Feature, g: Feature)
    requires f.PeakStat? && f.peak == Morning
    ensures Label(f) == Label(g) ==> f == g
  {
  }

  lemma EveningLabelsDistinct(f: Feature, g: Feature)
    requires f.PeakStat? && f.peak == Evening
    ensures Label(f) == Label(g) ==> f == g
  {
  }

  lemma OtherLabelsDistinct(f: Feature, g: Feature)
    requires !f.LoadStat? && !f.PeakStat?
    ensures Label(f) == Label(g) ==> f == g
  {
  }

  /** No feature is labelled like one of the input columns the extractor reads. */
  lemma LabelsAvoidInputs(f: Feature)
    ensures Label(f) != Load && Label(f) != Solar && Label(f) != Offshore && Label(f) != Onshore
  {
  }

  /** Whether the columns a feature is computed from are there. */
  predicate Supplied(t: Frame, f: Feature)
  {
    match f
    case LoadStat(_, _) => HasColumn(t, Load)
    case PeakStat(_, _, _) => HasColumn(t, Load)
    case SolarRamp(_) => HasColumn(t, Solar)
    case SolarMean(_) => HasColumn(t, Solar)
    case TotalWind => HasColumn(t, Offshore) && HasColumn(t, Onshore)
    case WindMean(_) => HasColumn(t, Offshore) && HasColumn(t, Onshore)
    case _ => true
  }

  /** `wind_offshore_yesterday + wind_onshore_yesterday`. */
  function WindTotal(t: Frame): (r: seq<Option<real>>)
    requires WellFormed(t) && HasColumn(t, Offshore) && HasColumn(t, Onshore)
    ensures |r| == |t.index|
  {
    AddCells(Get(t, Offshore).value, Get(t, Onshore).value)
  }

  /** The cells of a feature, computed from the input frame. */
  function Cells(t: Frame, f: Feature): (r: seq<Option<real>>)
    requires WellFormed(t) && Supplied(t, f)
    ensures |r| == |t.index|
  {
    match f
    case HourOfDay => seq(|t.index|, i requires 0 <= i < |t.index| => Some(Hour(t.index[i]) as real))
    case DayOfWeek => seq(|t.index|, i requires 0 <= i < |t.index| => Some(Weekday(t.index[i]) as real))
    case LoadStat(w, stat) => Rolling(Get(t, Load).value, LoadHours(w), stat)
    case PeakFlag(p) => Flags(Mask(t.index, PeakHours(p)))
    case BaseFlag => Flags(Mask(t.index, BaseHours))
    case PeakStat(p, w, a) =>
      MaskedRolling(Get(t, Load).value, Mask(t.index, PeakHours(p)), PeakRows(w), AsStat(a))
    case SolarRamp(p) => Gate(Mask(t.index, PeakHours(p)), Get(t, Solar).value)
    case SolarMean(w) => Rolling(Get(t, Solar).value, RenewableHours(w), MeanOf)
    case TotalWind => WindTotal(t)
    case WindMean(w) => Rolling(WindTotal(t), RenewableHours(w), MeanOf)
  }

  /** Every feature, in the order the extractor adds them. */
  const AllFeatures: seq<Feature> := [
    HourOfDay, DayOfWeek,
    LoadStat(Day, MeanOf), LoadStat(Day, LeastOf), LoadStat(Day, GreatestOf),
    LoadStat(Week, MeanOf), LoadStat(Week, LeastOf), LoadStat(Week, GreatestOf),
    LoadStat(Fortnight, MeanOf), LoadStat(Fortnight, LeastOf), LoadStat(Fortnight, GreatestOf),
    PeakFlag(Morning), PeakFlag(Evening), BaseFlag,
    PeakStat(Morning, Three, PeakMean), PeakStat(Morning, Three, PeakMax),
    PeakStat(Evening, Three, PeakMean), PeakStat(Evening, Three, PeakMax),
    PeakStat(Morning, Six, PeakMean), PeakStat(Morning, Six, PeakMax),
    PeakStat(Evening, Six, PeakMean), PeakStat(Evening, Six, PeakMax),
    PeakStat(Morning, Twelve, PeakMean), PeakStat(Morning, Twelve, PeakMax),
    PeakStat(Evening, Twelve, PeakMean), PeakStat(Evening, Twelve, PeakMax),
    SolarRamp(Morning), SolarRamp(Evening), SolarMean(OneDay), SolarMean(OneWeek),
    TotalWind, WindMean(OneDay), WindMean(OneWeek)]

  /** The place of a feature in that order. */
  function Rank(f: Feature): nat
  {
    match f
    case HourOfDay => 0
    case DayOfWeek => 1
    case LoadStat(w, stat) =>
      2 + 3 * (match w case Day => 0 case Week => 1 case Fortnight => 2)
        + (match stat case MeanOf => 0 case LeastOf => 1 case GreatestOf => 2)
    case PeakFlag(Morning) => 11
    case PeakFlag(Evening) => 12
    case BaseFlag => 13
    case PeakStat(p, w, a) =>
      14 + 4 * (match w case Three => 0 case Six => 1 case Twelve => 2)
        + 2 * (match p case Morning => 0 case Evening => 1)
        + (match a case PeakMean => 0 case PeakMax => 1)
    case SolarRamp(Morning) => 26
    case SolarRamp(Evening) => 27
    case SolarMean(OneDay) => 28
    case SolarMean(OneWeek) => 29
    case TotalWind => 30
    case WindMean(OneDay) => 31
    case WindMean(OneWeek) => 32
  }

  /** Every feature is listed, at its rank. */
  lemma RankPlaces(f: Feature)
    ensures Rank(f) < |AllFeatures| && AllFeatures[Rank(f)] == f
  {
  }

  /** No feature is listed twice. */
  lemma AllFeaturesDistinct()
    ensures Distinct(AllFeatures)
  {
    assert forall i :: 0 <= i < |AllFeatures| ==> Rank(AllFeatures[i]) == i;
  }

  /** The features added to a frame, in the order the extractor adds them: those
      whose input columns are there. */
  function Derived(t: Frame): (fs: seq<Feature>)
    ensures forall f :: f in fs ==> Supplied(t, f)
  {
    Select(AllFeatures, seq(|AllFeatures|, i requires 0 <= i < |AllFeatures| => Supplied(t, AllFeatures[i])))
  }

  /** A feature is added exactly when the columns it is computed from are there, and
      none is added twice. */
  lemma DerivedIsSupplied(t: Frame, f: Feature)
    ensures f in Derived(t) <==> Supplied(t, f)
    ensures Distinct(Derived(t))
  {
    var mask := seq(|AllFeatures|, i requires 0 <= i < |AllFeatures| => Supplied(t, AllFeatures[i]));
    RankPlaces(f);
    AllFeaturesDistinct();
    SelectDistinct(AllFeatures, mask);
    if Supplied(t, f) {
      SelectAt(AllFeatures, mask, Rank(f));
    }
  }


  /** No two added features share a label. */
  lemma DerivedLabelsDistinct(t: Frame)
    ensures forall j, k :: 0 <= j < k < |Derived(t)| ==> Label(Derived(t)[j]) != Label(Derived(t)[k])
  {
    var fs := Derived(t);
    DerivedIsSupplied(t, HourOfDay);
    forall j, k | 0 <= j < k < |fs| ensures Label(fs[j]) != Label(fs[k]) {
      LabelInjective(fs[j], fs[k]);
    }
  }

  /** The added columns, labelled and computed. */
  function NewColumns(t: Frame): (cols: seq<Column<string>>)
    requires WellFormed(t)
    ensures |cols| == |Derived(t)| && DistinctNames(cols)
    ensures forall k :: 0 <= k < |cols| ==> |cols[k].cells| == |t.index|
    ensures forall k :: 0 <= k < |cols| ==> cols[k] == Column(Label(Derived(t)[k]), Cells(t, Derived(t)[k]))
  {
    var fs := Derived(t);
    DerivedLabelsDistinct(t);
    seq(|fs|, k requires 0 <= k < |fs| => Column(Label(fs[k]), Cells(t, fs[k])))
  }

  // ---------------------------------------------------------------------------
  // Assembly

  /** `df[name] = cells` for each column in turn. */
  function AddColumns(t: Frame, cols: seq<Column<string>>): (r: Frame)
    requires WellFormed(t)
    requires forall k :: 0 <= k < |cols| ==> |cols[k].cells| == |t.index|
    ensures WellFormed(r) && r.timeIndexed == t.timeIndexed && r.index == t.index
    decreases |cols|
  {
    if |cols| == 0 then t
    else AddColumns(SetColumn(t, cols[0].name, cols[0].cells), cols[1..])
  }

  /** A label none of the assignments writes reads as before. */
  lemma {:induction false} AddColumnsKeeps(t: Frame, cols: seq<Column<string>>, n: string)
    requires WellFormed(t)
    requires forall k :: 0 <= k < |cols| ==> |cols[k].cells| == |t.index|
    requires forall k :: 0 <= k < |cols| ==> cols[k].name != n
    ensures Get(AddColumns(t, cols), n) == Get(t, n)
    decreases |cols|
  {
    if |cols| > 0 {
      AddColumnsKeeps(SetColumn(t, cols[0].name, cols[0].cells), cols[1..], n);
    }
  }

  /** With distinct labels, every assigned column reads back as assigned. */
  lemma {:induction false} AddColumnsSets(t: Frame, cols: seq<Column<string>>, k: nat)
    requires WellFormed(t)
    requires forall j :: 0 <= j < |cols| ==> |cols[j].cells| == |t.index|
    requires DistinctNames(cols) && k < |cols|
    ensures Get(AddColumns(t, cols), cols[k].name) == Some(cols[k].cells)
    decreases |cols|
  {
    var u := SetColumn(t, cols[0].name, cols[0].cells);
    if k == 0 {
      AddColumnsKeeps(u, cols[1..], cols[0].name);
    } else {
      assert DistinctNames(cols[1..]);
      AddColumnsSets(u, cols[1..], k - 1);
    }
  }

  /** The temporary columns dropped at the end. */
  const Temporary: set<string> := {"hour", "weekday"}

  /** Assigning a series restricted to the rows of `hours` realigns it on the frame's
      index unless its index is that index, and realignment fails on a repeated
      label. */
  predicate Misaligned(index: seq<int>, hours: set<int>)
  {
    var labels := Select(index, Mask(index, hours));
    labels != index && !Distinct(labels)
  }

  /** The frames `extract_features` accepts: a datetime index, a `load` column, and
      peak rows whose series can be assigned back. */
  predicate Extractable(t: Frame)
  {
    && t.timeIndexed && HasColumn(t, Load)
    && !Misaligned(t.index, MorningPeakHours) && !Misaligned(t.index, EveningPeakHours)
  }

  /** `extract_features`: validation, then the time, rolling, peak and renewable
      features, then the temporary columns dropped; the input frame is a value and
      is left as it was. */
  function ExtractFeatures(t: Frame): (r: Result<Frame, Error>)
    requires WellFormed(t)
    ensures r.Ok? <==> Extractable(t)
    ensures r == Err(NotDatetimeIndex) <==> !t.timeIndexed
    ensures r == Err(MissingLoad) <==> t.timeIndexed && !HasColumn(t, Load)
    ensures r.Ok? ==> WellFormed(r.value) && r.value.timeIndexed && r.value.index == t.index
  {
    if !t.timeIndexed then Err(NotDatetimeIndex)
    else if !HasColumn(t, Load) then Err(MissingLoad)
    else if Misaligned(t.index, MorningPeakHours) || Misaligned(t.index, EveningPeakHours) then
      Err(DuplicateLabels)
    else Ok(DropColumns(AddColumns(t, NewColumns(t)), Temporary))
  }

  /** The hour and weekday labels are the only temporary ones. */
  lemma LabelNotTemporary(f: Feature)
    ensures Label(f) in Temporary <==> f == HourOfDay || f == DayOfWeek
  {
    LabelInjective(f, HourOfDay);
    LabelInjective(f, DayOfWeek);
  }

  /** Each assigned column outside the temporary ones is in the assembled frame. */
  lemma {:induction false} AssembledColumn(t: Frame, cols: seq<Column<string>>, k: nat)
    requires WellFormed(t) && DistinctNames(cols) && k < |cols|
    requires forall j :: 0 <= j < |cols| ==> |cols[j].cells| == |t.index|
    requires cols[k].name !in Temporary
    ensures Get(DropColumns(AddColumns(t, cols), Temporary), cols[k].name) == Some(cols[k].cells)
  {
    AddColumnsSets(t, cols, k);
    DropColumnsGet(AddColumns(t, cols), Temporary, cols[k].name);
  }

  /** Every added feature but the temporary two is in the result, as computed. */
  lemma ExtractedColumn(t: Frame, f: Feature)
    requires WellFormed(t) && Extractable(t)
    requires Supplied(t, f) && f != HourOfDay && f != DayOfWeek
    ensures Get(ExtractFeatures(t).value, Label(f)) == Some(Cells(t, f))
  {
    var fs := Derived(t);
    var cols := NewColumns(t);
    DerivedIsSupplied(t, f);
    var k :| 0 <= k < |fs| && fs[k] == f;
    LabelNotTemporary(f);
    assert cols[k] == Column(Label(f), Cells(t, f));
    AssembledColumn(t, cols, k);
  }

  /** Every other column, the input columns among them, is kept as it was, and the
      temporary columns are gone. */
  lemma ExtractedKeeps(t: Frame, n: string)
    requires WellFormed(t) && Extractable(t)
    requires forall f :: Supplied(t, f) ==> Label(f) != n
    ensures Get(ExtractFeatures(t).value, n) == if n in Temporary then None else Get(t, n)
  {
    var fs := Derived(t);
    var cols := NewColumns(t);
    forall k | 0 <= k < |cols| ensures cols[k].name != n {
      assert fs[k] in fs;
    }
    AddColumnsKeeps(t, cols, n);
    DropColumnsGet(AddColumns(t, cols), Temporary, n);
  }

  /** The temporary hour and weekday columns are dropped whatever the input held. */
  lemma ExtractedDropsTemporary(t: Frame)
    requires WellFormed(t) && Extractable(t)
    ensures !HasColumn(ExtractFeatures(t).value, "hour")
    ensures !HasColumn(ExtractFeatures(t).value, "weekday")
  {
    var u := AddColumns(t, NewColumns(t));
    DropColumnsGet(u, Temporary, "hour");
    DropColumnsGet(u, Temporary, "weekday");
  }

  /** A column the extractor reads comes through untouched. */
  lemma ExtractedKeepsInput(t: Frame, n: string)
    requires WellFormed(t) && Extractable(t)
    requires n == Load || n == Solar || n == Offshore || n == Onshore
    ensures Get(ExtractFeatures(t).value, n) == Get(t, n)
  {
    forall f ensures Label(f) != n {
      LabelsAvoidInputs(f);
    }
    assert n !in Temporary;
    ExtractedKeeps(t, n);
  }

  /** A feature whose input columns are missing is not added: its label reads as in
      the input frame (normally not at all). */
  lemma ExtractedAbsent(t: Frame, f: Feature)
    requires WellFormed(t) && Extractable(t) && !Supplied(t, f)
    ensures Get(ExtractFeatures(t).value, Label(f)) == Get(t, Label(f))
  {
    forall g | Supplied(t, g) ensures Label(g) != Label(f) {
      LabelInjective(g, f);
    }
    LabelNotTemporary(f);
    ExtractedKeeps(t, Label(f));
  }

  // ---------------------------------------------------------------------------
  // The properties of the derived columns

  /** The load statistics of the result: each is the trailing statistic of the load,
      defined wherever its window holds a reading (so from the first row on when
      that row does), and minimum <= mean <= maximum. */
  lemma ExtractedLoadStatistics(t: Frame, w: LoadWindow)
    requires WellFormed(t) && Extractable(t)
    ensures var r, load, n := ExtractFeatures(t).value, Get(t, Load).value, LoadHours(w);
      && Get(r, Label(LoadStat(w, LeastOf))) == Some(Rolling(load, n, LeastOf))
      && Get(r, Label(LoadStat(w, MeanOf))) == Some(Rolling(load, n, MeanOf))
      && Get(r, Label(LoadStat(w, GreatestOf))) == Some(Rolling(load, n, GreatestOf))
  {
    ExtractedColumn(t, LoadStat(w, LeastOf));
    ExtractedColumn(t, LoadStat(w, MeanOf));
    ExtractedColumn(t, LoadStat(w, GreatestOf));
  }

  /** Row i of the load statistics of one window: defined iff the window holds a
      reading, then min <= mean <= max; the first row is the first reading. */
  lemma {:induction false} LoadStatisticsAt(load: seq<Option<real>>, w: LoadWindow, i: nat)
    requires i < |load|
    ensures var n := LoadHours(w);
      && (Rolling(load, n, MeanOf)[i].Some? <==> exists j :: WindowStart(n, i) <= j <= i && load[j].Some?)
      && (Rolling(load, n, MeanOf)[i].Some? ==>
            && Rolling(load, n, LeastOf)[i].Some? && Rolling(load, n, GreatestOf)[i].Some?
            && Rolling(load, n, LeastOf)[i].value <= Rolling(load, n, MeanOf)[i].value
            && Rolling(load, n, MeanOf)[i].value <= Rolling(load, n, GreatestOf)[i].value)
      && Rolling(load, n, MeanOf)[0] == load[0]
  {
    var n := LoadHours(w);
    RollingDefined(load, n, MeanOf, i);
    if Rolling(load, n, MeanOf)[i].Some? {
      RollingOrdered(load, n, i);
    }
    RollingFirstRow(load, n, MeanOf);
  }

  /** The hours a flag marks. */
  function FlagHours(f: Feature): set<int>
    requires f.PeakFlag? || f.BaseFlag?
  {
    if f.PeakFlag? then PeakHours(f.flagged) else BaseHours
  }

  /** A flag of the result is 1.0 exactly on the rows whose hour is in its set, and
      0.0 on all others; by `PeakHoursExclusive` no row carries two flags. */
  lemma {:induction false} ExtractedFlag(t: Frame, f: Feature, i: nat)
    requires WellFormed(t) && Extractable(t) && i < |t.index|
    requires f.PeakFlag? || f.BaseFlag?
    ensures Get(ExtractFeatures(t).value, Label(f)) == Some(Flags(Mask(t.index, FlagHours(f))))
    ensures Flags(Mask(t.index, FlagHours(f)))[i] == Some(if Hour(t.index[i]) in FlagHours(f) then 1.0 else 0.0)
  {
    ExtractedColumn(t, f);
  }

  /** A peak statistic of the result is the statistic rolled over that peak's rows
      alone, and is missing on every other row. */
  lemma {:induction false} ExtractedPeakStatistics(t: Frame, p: Peak, w: PeakWindow, a: PeakAggregate, i: nat)
    requires WellFormed(t) && Extractable(t) && i < |t.index|
    ensures var r, mask := ExtractFeatures(t).value, Mask(t.index, PeakHours(p));
      && Get(r, Label(PeakStat(p, w, a))) == Some(MaskedRolling(Get(t, Load).value, mask, PeakRows(w), AsStat(a)))
      && (Hour(t.index[i]) !in PeakHours(p) ==> Get(r, Label(PeakStat(p, w, a))).value[i].None?)
  {
    ExtractedColumn(t, PeakStat(p, w, a));
  }

  /** Changing the load outside a peak's hours changes none of that peak's statistics. */
  lemma PeakStatisticsIgnoreOffPeakLoad(t: Frame, u: Frame, p: Peak, w: PeakWindow, a: PeakAggregate)
    requires WellFormed(t) && WellFormed(u) && HasColumn(t, Load) && HasColumn(u, Load)
    requires t.index == u.index
    requires forall i :: 0 <= i < |t.index| && Hour(t.index[i]) in PeakHours(p) ==>
      Get(t, Load).value[i] == Get(u, Load).value[i]
    ensures Cells(t, PeakStat(p, w, a)) == Cells(u, PeakStat(p, w, a))
  {
    var mask := Mask(t.index, PeakHours(p));
    MaskedIgnoresUnselected(Get(t, Load).value, Get(u, Load).value, mask, PeakRows(w), AsStat(a));
  }

  /** With `solar_yesterday` present, the ramps are the solar values inside the peak
      and zero outside it, missing where the solar value is, and the means are its
      trailing means. */
  lemma {:induction false} ExtractedSolar(t: Frame, p: Peak, w: RenewableWindow, i: nat)
    requires WellFormed(t) && Extractable(t) && HasColumn(t, Solar) && i < |t.index|
    ensures var r, solar := ExtractFeatures(t).value, Get(t, Solar).value;
      var ramp := Gate(Mask(t.index, PeakHours(p)), solar);
      && Get(r, Label(SolarRamp(p))) == Some(ramp)
      && Get(r, Label(SolarMean(w))) == Some(Rolling(solar, RenewableHours(w), MeanOf))
      && ramp[i] == (if solar[i].None? then None
                     else if Hour(t.index[i]) in PeakHours(p) then solar[i] else Some(0.0))
  {
    ExtractedColumn(t, SolarRamp(p));
    ExtractedColumn(t, SolarMean(w));
    GateAt(Mask(t.index, PeakHours(p)), Get(t, Solar).value, i);
  }

  lemma {:induction false} GateAt(mask: seq<bool>, cells: seq<Option<real>>, i: nat)
    requires |mask| == |cells| && i < |cells|
    ensures Gate(mask, cells)[i] == if cells[i].None? then None else if mask[i] then cells[i] else Some(0.0)
  {
  }

  /** With both wind columns present, `total_wind` is their sum, missing where either
      is, and the wind means are its trailing means. */
  lemma ExtractedWind(t: Frame, w: RenewableWindow)
    requires WellFormed(t) && Extractable(t)
    requires HasColumn(t, Offshore) && HasColumn(t, Onshore)
    ensures var r, total := ExtractFeatures(t).value, WindTotal(t);
      && Get(r, Label(TotalWind)) == Some(total)
      && Get(r, Label(WindMean(w))) == Some(Rolling(total, RenewableHours(w), MeanOf))
  {
    assert Supplied(t, TotalWind) && Supplied(t, WindMean(w));
    assert Cells(t, TotalWind) == WindTotal(t);
    assert Cells(t, WindMean(w)) == Rolling(WindTotal(t), RenewableHours(w), MeanOf);
    ExtractedColumn(t, TotalWind);
    ExtractedColumn(t, WindMean(w));
  }

  lemma {:induction false} WindTotalAt(t: Frame, i: nat)
    requires WellFormed(t) && HasColumn(t, Offshore) && HasColumn(t, Onshore) && i < |t.index|
    ensures var off, on, total := Get(t, Offshore).value, Get(t, Onshore).value, WindTotal(t);
      && (total[i].Some? <==> off[i].Some? && on[i].Some?)
      && (total[i].Some? ==> total[i].value == off[i].value + on[i].value)
  {
  }

  // ---------------------------------------------------------------------------
  // Repeated timestamps

  /** Distinct timestamps never make the realignment fail. */
  lemma {:induction false} DistinctIndexAligns(index: seq<int>, hours: set<int>)
    requires Distinct(index)
    ensures !Misaligned(index, hours)
  {
    SelectDistinct(index, Mask(index, hours));
  }

  /** A frame the preprocessing accepted has distinct timestamps, so extraction fails
      on it only for want of a load column. */
  lemma ProcessedFrameExtracts(t: Frame)
    requires WellFormed(t) && Processor.ProcessData(t).Ok?
    ensures var q := Processor.ProcessData(t).value;
      WellFormed(q) && (ExtractFeatures(q).Ok? <==> HasColumn(q, Load))
  {
    var q := Processor.ProcessData(t).value;
    Processor.StrictlySortedIsUniqueMonotonic(q.index);
    DistinctIndexAligns(q.index, MorningPeakHours);
    DistinctIndexAligns(q.index, EveningPeakHours);
  }

  /** Two readings at 08:00 and one at 13:00: the morning series cannot be realigned,
      and extraction fails. */
  lemma RepeatedPeakTimestampFails()
    ensures var t := Table(true, [28800, 28800, 46800], [Column(Load, [Some(1.0), Some(2.0), Some(3.0)])]);
      WellFormed(t) && ExtractFeatures(t) == Err(DuplicateLabels)
  {
    var index := [28800, 28800, 46800];
    var mask := Mask(index, MorningPeakHours);
    assert mask == [true, true, false];
    assert mask[..0] == [] && mask[..1] == [true];
    SelectAt(index, mask, 0);
    SelectAt(index, mask, 1);
    var labels := Select(index, mask);
    assert labels[0] == labels[1];
    assert Count(mask) == 2;
    assert Misaligned(index, MorningPeakHours);
    var t := Table(true, index, [Column(Load, [Some(1.0), Some(2.0), Some(3.0)])]);
    assert t.columns[0].name == Load;
  }

  /** The same repeated 08:00 reading with no other rows is realigned trivially, the
      morning series having the frame's own index, and extraction succeeds. */
  lemma RepeatedTimestampAllInPeakPasses()
    ensures var t := Table(true, [28800, 28800], [Column(Load, [Some(1.0), Some(2.0)])]);
      WellFormed(t) && ExtractFeatures(t).Ok?
  {
    var index := [28800, 28800];
    var morning := Mask(index, MorningPeakHours);
    assert morning == [true, true];
    assert morning[..0] == [] && morning[..1] == [true];
    SelectAt(index, morning, 0);
    SelectAt(index, morning, 1);
    assert Count(morning) == 2;
    assert Select(index, morning) == index;
    var evening := Mask(index, EveningPeakHours);
    assert evening == [false, false];
    assert Count(evening) == 0;
    var t := Table(true, index, [Column(Load, [Some(1.0), Some(2.0)])]);
    assert t.columns[0].name == Load;
  }
}

=== FILE: fetching.dfy ===
/** The prologue and the window loop shared by the clients that take their range
    as two `YYYYMMDD` strings: stripping, validation, parsing, the chunk count
    of the progress bar, and the day windows. */
module Fetching {
  import opened Base
  import opened Calendar
  import opened Windows
  import opened Retry

  /** The exceptions the fetchers themselves raise, beside the remote's. */
  datatype Error =
    | MissingApiKey        // ValueError: ENTSOE_API_KEY is not set
    | BadLength            // ValueError: "Dates must be in YYYYMMDD format"
    | BadDate              // ValueError raised by strptime
    | EmptyRange           // ValueError: "End date must be after start date"
    | ZeroChunk            // ZeroDivisionError computing the chunk count
    | DateOverflow         // OverflowError: a window start plus the chunk passes 9999-12-31
    | ColumnCountMismatch  // ValueError: the weather pivot's columns cannot be renamed
    | SaveFailed           // the CSV could not be written
    | NotAFrame            // TypeError: pd.concat met a reply that is not a frame
    | Remote(fault: Fault) // a remote exception that left a retry loop

  /** An outcome together with what the call did on the way: sleeps and queries. */
  datatype Run<+T> = Run(result: Result<T, Error>, sleeps: seq<nat>, queries: nat)

  /** `f'{prefix}{start}_{end}.csv'`, the CSV file every fetcher saves to: both dates
      can be read back from fixed positions of the name. */
  function FileName(prefix: string, startDate: string, endDate: string): (r: string)
    ensures |r| == |prefix| + |startDate| + |endDate| + 5
    ensures r[|prefix|..|prefix| + |startDate|] == startDate
    ensures r[|prefix| + |startDate| + 1..|prefix| + |startDate| + 1 + |endDate|] == endDate
  {
    var r := prefix + startDate + "_" + endDate + ".csv";
    assert r[|prefix|..|prefix| + |startDate|] == startDate;
    assert r[|prefix| + |startDate| + 1..|prefix| + |startDate| + 1 + |endDate|] == endDate;
    r
  }

  /** pytz's `localize` for Europe/Berlin looks up the offsets of the day before and
      the day after the date, so it raises OverflowError on `date.min` and `date.max`. */
  predicate Localizable(d: Date)
  {
    d != Date(MinYear, 1, 1) && d != Date(MaxYear, 12, 31)
  }

  /** In day ordinals: a date can be localized iff it is neither the first nor the
      last numbered day. */
  lemma LocalizableOrdinals(d: Date)
    requires Valid(d)
    ensures Localizable(d) <==> 1 < Ordinal(d) < MaxOrdinal
  {
    OrdinalNotFirst(d);
    OrdinalNotLast(d);
  }

  lemma OrdinalNotFirst(d: Date)
    requires Valid(d)
    ensures Ordinal(d) != 1 <==> d != Date(MinYear, 1, 1)
  {
    if Ordinal(d) == 1 {
      FirstOrdinalDay(d);
    }
  }

  lemma OrdinalNotLast(d: Date)
    requires Valid(d)
    ensures Ordinal(d) != MaxOrdinal <==> d != Date(MaxYear, 12, 31)
  {
    MaxOrdinalIsLastDay();
    if Ordinal(d) == MaxOrdinal {
      LastOrdinalDay(d);
    }
  }

  /** `tz.localize(datetime.strptime(s, '%Y%m%d'))`: the parse fails, or the day is
      one `localize` cannot handle, or the parsed date comes back. */
  function Localize(s: string): (r: Result<Date, Error>)
    ensures r.Ok? <==> Strptime(s).Some? && Localizable(Strptime(s).value)
    ensures r.Ok? ==> r.value == Strptime(s).value
    ensures r == Err(BadDate) <==> Strptime(s).None?
    ensures r == Err(DateOverflow) <==> Strptime(s).Some? && !Localizable(Strptime(s).value)
  {
    match Strptime(s)
    case None => Err(BadDate)
    case Some(d) => if Localizable(d) then Ok(d) else Err(DateOverflow)
  }

  /** The start localized before the end: the start's error is the one raised. */
  function LocalizeRange(startDate: string, endDate: string): (r: Result<(Date, Date), Error>)
    ensures r.Ok? <==> Localize(startDate).Ok? && Localize(endDate).Ok?
    ensures r.Ok? ==> r.value == (Localize(startDate).value, Localize(endDate).value)
    ensures Localize(startDate).Err? ==> r == Err(Localize(startDate).error)
    ensures r.Err? ==> r.error in {BadDate, DateOverflow}
  {
    match Localize(startDate)
    case Err(x) => Err(x)
    case Ok(a) =>
      match Localize(endDate)
      case Err(x) => Err(x)
      case Ok(b) => Ok((a, b))
  }

  /** The weather client: strip both strings, require eight characters each, parse
      them into naive datetimes, and require the end after the start. */
  function ParseStrictRange(startDate: string, endDate: string): (r: Result<(Date, Date), Error>)
    ensures r.Ok? <==>
      && |Strip(startDate)| == 8 && |Strip(endDate)| == 8
      && Strptime(Strip(startDate)).Some? && Strptime(Strip(endDate)).Some?
      && Ordinal(Strptime(Strip(startDate)).value) < Ordinal(Strptime(Strip(endDate)).value)
    ensures r.Ok? ==> r.value == (Strptime(Strip(startDate)).value, Strptime(Strip(endDate)).value)
    ensures r == Err(BadLength) <==> |Strip(startDate)| != 8 || |Strip(endDate)| != 8
  {
    var s, e := Strip(startDate), Strip(endDate);
    if !(|s| == 8 && |e| == 8) then Err(BadLength)
    else match (Strptime(s), Strptime(e))
      case (Some(a), Some(b)) => if Ordinal(b) <= Ordinal(a) then Err(EmptyRange) else Ok((a, b))
      case _ => Err(BadDate)
  }

  /** The load client: the same checks, with both dates localized to Europe/Berlin
      before the order is compared.  It accepts what the naive parse accepts, except
      a range touching the first or last representable day, which overflows. */
  function ParseZonedRange(startDate: string, endDate: string): (r: Result<(Date, Date), Error>)
    ensures r.Ok? <==>
      && ParseStrictRange(startDate, endDate).Ok?
      && Localizable(ParseStrictRange(startDate, endDate).value.0)
      && Localizable(ParseStrictRange(startDate, endDate).value.1)
    ensures r.Ok? ==> r.value == ParseStrictRange(startDate, endDate).value
    ensures r == Err(BadLength) <==> |Strip(startDate)| != 8 || |Strip(endDate)| != 8
    ensures r == Err(DateOverflow) <==>
      |Strip(startDate)| == 8 && |Strip(endDate)| == 8 && LocalizeRange(Strip(startDate), Strip(endDate)) == Err(DateOverflow)
  {
    var s, e := Strip(startDate), Strip(endDate);
    if !(|s| == 8 && |e| == 8) then Err(BadLength)
    else match LocalizeRange(s, e)
      case Err(x) => Err(x)
      case Ok((a, b)) => if Ordinal(b) <= Ordinal(a) then Err(EmptyRange) else Ok((a, b))
  }

  /** The renewable client: strip and localize, nothing more. */
  function ParseLooseRange(startDate: string, endDate: string): (r: Result<(Date, Date), Error>)
    ensures r.Ok? <==>
      && Strptime(Strip(startDate)).Some? && Strptime(Strip(endDate)).Some?
      && Localizable(Strptime(Strip(startDate)).value) && Localizable(Strptime(Strip(endDate)).value)
    ensures r.Ok? ==> r.value == (Strptime(Strip(startDate)).value, Strptime(Strip(endDate)).value)
    ensures r.Err? ==> r.error in {BadDate, DateOverflow}
  {
    LocalizeRange(Strip(startDate), Strip(endDate))
  }

  /** `(total_days + chunk_size - 1) // chunk_size`, the length of the progress
      bar; a zero chunk size raises ZeroDivisionError here, before any query. */
  function ChunkCount(totalDays: int, chunkSize: nat): (r: Result<int, Error>)
    ensures r.Err? <==> chunkSize == 0
    ensures r.Err? ==> r.error == ZeroChunk
  {
    if chunkSize == 0 then Err(ZeroChunk) else Ok((totalDays + chunkSize - 1) / chunkSize)
  }

  /** How many windows are queried before `current_start + timedelta(days=chunk_size)`
      raises OverflowError, and whether it does. */
  function Reached(ws: seq<Window>, chunkSize: nat): (n: nat)
    ensures n <= |ws|
  {
    if |ws| > 0 && ws[|ws| - 1].start + chunkSize > MaxOrdinal then |ws| - 1 else |ws|
  }

  /** The window walk after a parsed range: how many windows are queried, and
      whether the walk then stops on OverflowError; a zero chunk size fails first. */
  function Walk(range: Result<(Date, Date), Error>, chunkSize: nat): (r: Result<(nat, bool), Error>)
    requires range.Ok? ==> Valid(range.value.0) && Valid(range.value.1)
    ensures range.Err? ==> r == Err(range.error)
    ensures range.Ok? ==> (r.Err? <==> chunkSize == 0) && (r.Err? ==> r.error == ZeroChunk)
    ensures r.Ok? ==>
      var ws := Split(Ordinal(range.value.0), Ordinal(range.value.1), chunkSize);
      r.value == (Reached(ws, chunkSize), Reached(ws, chunkSize) < |ws|)
  {
    match range
    case Err(x) => Err(x)
    case Ok((s, e)) =>
      match ChunkCount(Ordinal(e) - Ordinal(s), chunkSize)
      case Err(x) => Err(x)
      case Ok(_) =>
        var ws := Split(Ordinal(s), Ordinal(e), chunkSize);
        Ok((Reached(ws, chunkSize), Reached(ws, chunkSize) < |ws|))
  }

  /** Only the last window can overflow: every other one ends chunk_size days after
      it starts, at a date that exists. */
  lemma {:induction false} OnlyLastOverflows(start: int, end: int, chunkSize: nat, i: int)
    requires chunkSize > 0 && end <= MaxOrdinal
    requires 0 <= i < |Split(start, end, chunkSize)| - 1
    ensures Split(start, end, chunkSize)[i].start + chunkSize <= MaxOrdinal
  {
    var ws := Split(start, end, chunkSize);
    ChainOrdered(ws, i, |ws| - 1);
  }

  /** Every window lies between two existing dates. */
  lemma {:induction false} WindowsInRange(start: int, end: int, chunkSize: nat)
    requires 1 <= start && end <= MaxOrdinal && chunkSize > 0
    ensures var ws := Split(start, end, chunkSize);
      forall i :: 0 <= i < |ws| ==> 1 <= ws[i].start && ws[i].end <= MaxOrdinal
  {
    var ws := Split(start, end, chunkSize);
    forall i | 0 <= i < |ws| ensures 1 <= ws[i].start && ws[i].end <= MaxOrdinal {
      ChainInside(ws, i);
    }
  }
}

=== FILE: frames.dfy ===
/** A pandas DataFrame reduced to what the pipeline relies on: whether its index
    is a DatetimeIndex, the index values (timestamps), and the labelled columns,
    each holding one possibly-missing number per index value. */
module Frames {
  import opened Base

  /** One column: its label and its cells, top to bottom (`None` is NaN). */
  datatype Column<L> = Column(name: L, cells: seq<Option<real>>)

  datatype Table<L> = Table(timeIndexed: bool, index: seq<int>, columns: seq<Column<L>>)

  function Names<L>(t: Table<L>): (r: seq<L>)
    ensures |r| == |t.columns|
    ensures forall k :: 0 <= k < |r| ==> r[k] == t.columns[k].name
  {
    seq(|t.columns|, k requires 0 <= k < |t.columns| => t.columns[k].name)
  }

  predicate HasColumn<L(==,!new)>(t: Table<L>, name: L)
  {
    exists k :: 0 <= k < |t.columns| && t.columns[k].name == name
  }

  predicate DistinctNames<L(==)>(cols: seq<Column<L>>)
  {
    forall j, k :: 0 <= j < k < |cols| ==> cols[j].name != cols[k].name
  }

  /** Column labels are distinct and every column is as long as the index. */
  predicate WellFormed<L(==,!new)>(t: Table<L>)
  {
    && DistinctNames(t.columns)
    && (forall k :: 0 <= k < |t.columns| ==> |t.columns[k].cells| == |t.index|)
  }

  /** `DataFrame.empty`: no rows or no columns. */
  predicate IsEmpty<L>(t: Table<L>)
  {
    |t.columns| == 0 || |t.index| == 0
  }

  /** The position of the column labelled `name`, if there is one. */
  function Find<L(==,!new)>(cols: seq<Column<L>>, name: L): (r: Option<nat>)
    ensures r.Some? <==> exists k :: 0 <= k < |cols| && cols[k].name == name
    ensures r.Some? ==> r.value < |cols| && cols[r.value].name == name
    ensures r.Some? ==> forall k :: 0 <= k < r.value ==> cols[k].name != name
  {
    if |cols| == 0 then None
    else if cols[0].name == name then Some(0)
    else
      var r := Find(cols[1..], name);
      if r.None? then None else Some(r.value + 1)
  }

  /** `df[name]`, or `None` when there is no such column. */
  function Get<L(==,!new)>(t: Table<L>, name: L): (r: Option<seq<Option<real>>>)
    ensures r.Some? <==> HasColumn(t, name)
    ensures WellFormed(t) && r.Some? ==> |r.value| == |t.index|
    ensures r.Some? ==> exists k :: 0 <= k < |t.columns| && t.columns[k] == Column(name, r.value)
  {
    match Find(t.columns, name)
    case None => None
    case Some(k) => Some(t.columns[k].cells)
  }

  /** With distinct labels, `df[name]` is the one column carrying that label. */
  lemma GetUnique<L(!new)>(t: Table<L>, k: nat)
    requires DistinctNames(t.columns) && k < |t.columns|
    ensures Get(t, t.columns[k].name) == Some(t.columns[k].cells)
  {
  }

  /** `df[name] = cells`: overwrites the column in place, or appends it last. */
  function SetColumn<L(==,!new)>(t: Table<L>, name: L, cells: seq<Option<real>>): (r: Table<L>)
    requires WellFormed(t) && |cells| == |t.index|
    ensures WellFormed(r)
    ensures r.timeIndexed == t.timeIndexed && r.index == t.index
    ensures Names(r) == (if HasColumn(t, name) then Names(t) else Names(t) + [name])
    ensures Get(r, name) == Some(cells)
    ensures forall n :: n != name ==> Get(r, n) == Get(t, n)
  {
    var r := match Find(t.columns, name)
      case Some(k) => t.(columns := t.columns[k := Column(name, cells)])
      case None => t.(columns := t.columns + [Column(name, cells)]);
    SetColumnOthers(t, name, cells, r);
    r
  }

  lemma SetColumnOthers<L(!new)>(t: Table<L>, name: L, cells: seq<Option<real>>, r: Table<L>)
    requires WellFormed(t) && |cells| == |t.index|
    requires r == match Find(t.columns, name)
      case Some(k) => t.(columns := t.columns[k := Column(name, cells)])
      case None => t.(columns := t.columns + [Column(name, cells)])
    ensures WellFormed(r)
    ensures Get(r, name) == Some(cells)
    ensures forall n :: n != name ==> Get(r, n) == Get(t, n)
  {
    var i := if Find(t.columns, name).Some? then Find(t.columns, name).value else |t.columns|;
    assert r.columns[i] == Column(name, cells);
    GetUnique(r, i);
    forall n | n != name ensures Get(r, n) == Get(t, n) {
      if HasColumn(t, n) {
        var k :| 0 <= k < |t.columns| && t.columns[k].name == n;
        assert r.columns[k] == t.columns[k];
        GetUnique(t, k);
        GetUnique(r, k);
      } else {
        assert !HasColumn(r, n);
      }
    }
  }

  /** The columns not labelled in `drop`, in their order. */
  function KeepColumns<L(==,!new)>(cols: seq<Column<L>>, drop: set<L>): (r: seq<Column<L>>)
    ensures forall c :: c in r <==> c in cols && c.name !in drop
    ensures DistinctNames(cols) ==> DistinctNames(r)
  {
    if |cols| == 0 then []
    else
      var rest := KeepColumns(cols[1..], drop);
      assert forall c :: c in cols <==> c == cols[0] || c in cols[1..];
      if cols[0].name in drop then rest
      else
        assert DistinctNames(cols) ==> forall c :: c in cols[1..] ==> c.name != cols[0].name;
        [cols[0]] + rest
  }

  /** `df.drop(columns=[...], errors='ignore')`. */
  function DropColumns<L(==,!new)>(t: Table<L>, drop: set<L>): (r: Table<L>)
    ensures r.timeIndexed == t.timeIndexed && r.index == t.index
    ensures forall c :: c in r.columns <==> c in t.columns && c.name !in drop
    ensures WellFormed(t) ==> WellFormed(r)
  {
    t.(columns := KeepColumns(t.columns, drop))
  }

  /** After a drop, a label in `drop` is gone and every other label reads as before. */
  lemma DropColumnsGet<L(!new)>(t: Table<L>, drop: set<L>, n: L)
    requires WellFormed(t)
    ensures Get(DropColumns(t, drop), n) == if n in drop then None else Get(t, n)
  {
    var r := DropColumns(t, drop);
    if n !in drop && Get(t, n).Some? {
      var k :| 0 <= k < |t.columns| && t.columns[k] == Column(n, Get(t, n).value);
      assert t.columns[k] in r.columns;
      var j :| 0 <= j < |r.columns| && r.columns[j] == Column(n, Get(r, n).value);
      assert r.columns[j] in t.columns;
    }
  }

  /** `df.rename(columns={from: to})`: every column labelled `from` is relabelled. */
  function Rename<L(==,!new)>(t: Table<L>, from: L, to: L): (r: Table<L>)
    ensures r.timeIndexed == t.timeIndexed && r.index == t.index && |r.columns| == |t.columns|
    ensures forall k :: 0 <= k < |t.columns| ==>
      r.columns[k] == Column(if t.columns[k].name == from then to else t.columns[k].name, t.columns[k].cells)
  {
    var cols := seq(|t.columns|, k requires 0 <= k < |t.columns| =>
      Column(if t.columns[k].name == from then to else t.columns[k].name, t.columns[k].cells));
    t.(columns := cols)
  }

  /** Which labels a rename leaves present. */
  lemma RenameHas<L(!new)>(t: Table<L>, from: L, to: L, n: L)
    requires from != to
    ensures HasColumn(Rename(t, from, to), n) <==>
      if n == to then HasColumn(t, from) || HasColumn(t, to) else n != from && HasColumn(t, n)
  {
    var r := Rename(t, from, to);
    if HasColumn(r, n) {
      var k :| 0 <= k < |r.columns| && r.columns[k].name == n;
      assert t.columns[k].name == from || t.columns[k].name == n;
    }
    if n == to && HasColumn(t, from) {
      var k :| 0 <= k < |t.columns| && t.columns[k].name == from;
      assert r.columns[k].name == to;
    }
    if HasColumn(t, n) && n != from {
      var k :| 0 <= k < |t.columns| && t.columns[k].name == n;
      assert r.columns[k].name == n;
    }
  }

  /** Relabelling a column to a label not yet present keeps labels distinct. */
  lemma RenameWellFormed<L(!new)>(t: Table<L>, from: L, to: L)
    requires WellFormed(t) && !HasColumn(t, to)
    ensures WellFormed(Rename(t, from, to))
  {
    var r := Rename(t, from, to);
    forall j, k | 0 <= j < k < |r.columns| ensures r.columns[j].name != r.columns[k].name {
      assert t.columns[j].name != to && t.columns[k].name != to;
    }
  }
}

=== FILE: loader.dfy ===
/** `src/data/data_loader.py`: the ENTSO-E load query with 7-day windows and
    retries, the column renaming it applies, the module-level chunked fetch that
    swallows per-chunk errors, and the validation of its result.  Timestamps are
    seconds on the local clock. */
module LoadLoader {
  import opened Base
  import opened Calendar
  import opened Windows
  import opened Retry
  import opened Frames
  import opened Fetching

  type Frame = Table<string>

  const Hour: int := 3600
  const Week: int := 7 * 24 * Hour

  const ActualLoad: string := "Actual Load"
  const ForecastedLoad: string := "Forecasted Load"
  const Load: string := "Load"
  const LoadForecast: string := "Load Forecast"

  /** The empty frame standing in for a window without data: columns
      Actual Load and Forecasted Load, an empty DatetimeIndex. */
  const NoDataFrame: Frame := Table(true, [], [Column(ActualLoad, []), Column(ForecastedLoad, [])])

  function Empty(t: Frame): bool
  {
    IsEmpty(t)
  }

  /** The two renames applied to a non-empty reply: `Load` becomes `Actual Load`
      unless that already exists, and `Load Forecast` becomes `Forecasted Load`
      unless that already exists. */
  function RenameLoadColumns(t: Frame): (r: Frame)
    ensures r.timeIndexed == t.timeIndexed && r.index == t.index && |r.columns| == |t.columns|
    ensures forall k :: 0 <= k < |t.columns| ==> r.columns[k].cells == t.columns[k].cells
  {
    var t1 := if !HasColumn(t, ActualLoad) && HasColumn(t, Load) then Rename(t, Load, ActualLoad) else t;
    if !HasColumn(t1, ForecastedLoad) && HasColumn(t1, LoadForecast) then Rename(t1, LoadForecast, ForecastedLoad) else t1
  }

  /** Which labels are present after renaming: `Actual Load` iff either of `Actual Load`
      and `Load` was, `Load` only if `Actual Load` already was too, likewise for the
      forecast, and every other label exactly when it was before. */
  lemma RenameLoadColumnsLabels(t: Frame, n: string)
    ensures var r := RenameLoadColumns(t);
      && (HasColumn(r, ActualLoad) <==> HasColumn(t, ActualLoad) || HasColumn(t, Load))
      && (HasColumn(r, Load) <==> HasColumn(t, Load) && HasColumn(t, ActualLoad))
      && (HasColumn(r, ForecastedLoad) <==> HasColumn(t, ForecastedLoad) || HasColumn(t, LoadForecast))
      && (HasColumn(r, LoadForecast) <==> HasColumn(t, LoadForecast) && HasColumn(t, ForecastedLoad))
      && (n != ActualLoad && n != Load && n != ForecastedLoad && n != LoadForecast ==>
           (HasColumn(r, n) <==> HasColumn(t, n)))
  {
    var t1 := if !HasColumn(t, ActualLoad) && HasColumn(t, Load) then Rename(t, Load, ActualLoad) else t;
    RenameHas(t, Load, ActualLoad, ActualLoad);
    RenameHas(t, Load, ActualLoad, Load);
    RenameHas(t, Load, ActualLoad, ForecastedLoad);
    RenameHas(t, Load, ActualLoad, LoadForecast);
    RenameHas(t, Load, ActualLoad, n);
    RenameHas(t1, LoadForecast, ForecastedLoad, ActualLoad);
    RenameHas(t1, LoadForecast, ForecastedLoad, Load);
    RenameHas(t1, LoadForecast, ForecastedLoad, ForecastedLoad);
    RenameHas(t1, LoadForecast, ForecastedLoad, LoadForecast);
    RenameHas(t1, LoadForecast, ForecastedLoad, n);
  }

  /** Renaming a second time changes nothing. */
  lemma RenameLoadColumnsIdempotent(t: Frame)
    ensures RenameLoadColumns(RenameLoadColumns(t)) == RenameLoadColumns(t)
  {
    var r := RenameLoadColumns(t);
    RenameLoadColumnsLabels(t, ActualLoad);
  }

  /** A frame with both target labels already present is left as it is. */
  lemma RenameLoadColumnsKeepsTargets(t: Frame)
    requires HasColumn(t, ActualLoad) && HasColumn(t, ForecastedLoad)
    ensures RenameLoadColumns(t) == t
  {
  }

  /** Renaming keeps column labels distinct. */
  lemma RenameLoadColumnsWellFormed(t: Frame)
    requires WellFormed(t)
    ensures WellFormed(RenameLoadColumns(t))
  {
    var t1 := if !HasColumn(t, ActualLoad) && HasColumn(t, Load) then Rename(t, Load, ActualLoad) else t;
    if !HasColumn(t, ActualLoad) && HasColumn(t, Load) {
      RenameWellFormed(t, Load, ActualLoad);
    }
    if !HasColumn(t1, ForecastedLoad) && HasColumn(t1, LoadForecast) {
      RenameWellFormed(t1, LoadForecast, ForecastedLoad);
    }
  }

  /** What `fetched_dfs` receives from one window's loop. */
  function Appended(y: Yield<Frame>): seq<Frame>
  {
    match y
    case Nothing => []
    case Kept(v) => [if IsEmpty(v) then v else RenameLoadColumns(v)]
    case Placeholder => [NoDataFrame]
  }

  function AppendedAll(ys: seq<Yield<Frame>>): (r: seq<Frame>)
    ensures |r| <= |ys|
    ensures (forall i :: 0 <= i < |ys| ==> ys[i] == Nothing) ==> r == []
    ensures (forall i :: 0 <= i < |ys| ==> ys[i] != Nothing) ==>
      |r| == |ys| && forall i :: 0 <= i < |ys| ==> [r[i]] == Appended(ys[i])
  {
    if |ys| == 0 then [] else Appended(ys[0]) + AppendedAll(ys[1..])
  }

  /** `end_ts`, defaulting to 24 hours after the local clock reading `now`. */
  function QueryEnd(endTs: Option<int>, now: int): int
  {
    if endTs.Some? then endTs.value else now + 24 * Hour
  }

  /** `EntsoeClient._query_load_and_forecast`: reply `remote(k, a)` answers attempt
      `a` for the k-th 7-day window. */
  function QueryLoadAndForecast(startTs: int, endTs: Option<int>, now: int, maxRetries: int,
                                remote: (nat, nat) -> Reply<Frame>): (r: Run<seq<Frame>>)
    ensures r.queries <= |Split(startTs, QueryEnd(endTs, now), Week)| * Max(maxRetries, 0)
    ensures r.result.Ok? ==> |r.result.value| >= 1
    ensures r.result.Err? ==> r.result.error.Remote? && r.result.error.fault != NoMatchingData
    ensures maxRetries <= 0 || startTs >= QueryEnd(endTs, now) ==> r == Run(Ok([NoDataFrame]), [], 0)
  {
    var ws := Split(startTs, QueryEnd(endTs, now), Week);
    var b := RunJobs(LoaderQuery, Empty, remote, 0, |ws|, maxRetries);
    JobsQueryBound(LoaderQuery, Empty, remote, 0, |ws|, maxRetries);
    if b.raised.Some? then Run(Err(Remote(b.raised.value)), b.sleeps, b.queries)
    else
      var frames := AppendedAll(b.outcomes);
      Run(Ok(if |frames| == 0 then [NoDataFrame] else frames), b.sleeps, b.queries)
  }

  /** Unless it raises, the query contributes one frame per window, in window order:
      the renamed reply, or the placeholder where there was no matching data. */
  lemma QueryOnePerWindow(startTs: int, endTs: Option<int>, now: int, maxRetries: int,
                          remote: (nat, nat) -> Reply<Frame>)
    requires maxRetries >= 1
    ensures var ws := Split(startTs, QueryEnd(endTs, now), Week);
      var r := QueryLoadAndForecast(startTs, endTs, now, maxRetries, remote);
      r.result.Ok? && |ws| > 0 ==>
        |r.result.value| == |ws|
        && forall k :: 0 <= k < |ws| ==>
             [r.result.value[k]] == Appended(RunWindow(LoaderQuery, Empty, JobReplies(remote, k), 0, maxRetries).outcome)
  {
    var ws := Split(startTs, QueryEnd(endTs, now), Week);
    var b := RunJobs(LoaderQuery, Empty, remote, 0, |ws|, maxRetries);
    if b.raised.None? {
      forall k | 0 <= k < |b.outcomes| ensures b.outcomes[k] != Nothing {
        LoaderQueryAlwaysYields(Empty, JobReplies(remote, k), 0, maxRetries);
      }
    }
  }

  /** With every attempt for the first window failing to connect, the query makes
      max_retries attempts, sleeps 1, 2, 4, ... seconds between them, and re-raises. */
  lemma QueryGivesUpOnConnection(startTs: int, endTs: Option<int>, now: int, maxRetries: int,
                                 remote: (nat, nat) -> Reply<Frame>)
    requires maxRetries >= 1 && startTs < QueryEnd(endTs, now)
    requires forall a :: 0 <= a < maxRetries ==> remote(0, a) == Raised(ConnectionFailure)
    ensures QueryLoadAndForecast(startTs, endTs, now, maxRetries, remote)
      == Run(Err(Remote(ConnectionFailure)), Doubling(0, maxRetries - 1), maxRetries)
  {
    PersistentConnectionFailure(LoaderQuery, Empty, JobReplies(remote, 0), 0, maxRetries);
  }

  /** A window whose first reply is NoMatchingDataError contributes the placeholder:
      the two load columns over an empty index. */
  lemma QueryNoDataPlaceholder(startTs: int, endTs: Option<int>, now: int, maxRetries: int,
                               remote: (nat, nat) -> Reply<Frame>, k: nat)
    requires maxRetries >= 1
    requires k < |Split(startTs, QueryEnd(endTs, now), Week)|
    requires remote(k, 0) == Raised(NoMatchingData)
    ensures var r := QueryLoadAndForecast(startTs, endTs, now, maxRetries, remote);
      r.result.Ok? ==> k < |r.result.value| && r.result.value[k] == NoDataFrame
  {
    var r := QueryLoadAndForecast(startTs, endTs, now, maxRetries, remote);
    if r.result.Ok? {
      QueryOnePerWindow(startTs, endTs, now, maxRetries, remote);
      var w := RunWindow(LoaderQuery, Empty, JobReplies(remote, k), 0, maxRetries);
      assert JobReplies(remote, k)(0) == Raised(NoMatchingData);
      NoDataNotRetried(LoaderQuery, Empty, JobReplies(remote, k), 0, maxRetries);
      assert w.outcome == Yield.Placeholder;
      assert [r.result.value[k]] == [NoDataFrame];
    }
  }

  datatype Saved = Saved(chunks: seq<Frame>, savedAs: Option<string>)

  /** The replies that reach `all_data` from windows j .. n-1: those that did not raise. */
  function Gathered(remote: nat -> Reply<Frame>, j: nat, n: nat): (r: seq<Reply<Frame>>)
    requires j <= n
    decreases n - j
    ensures |r| <= n - j
    ensures forall i :: 0 <= i < |r| ==> !r[i].Raised?
    ensures |r| == 0 <==> forall k :: j <= k < n ==> remote(k).Raised?
    ensures forall k :: j <= k < n && !remote(k).Raised? ==> remote(k) in r
    ensures forall i :: 0 <= i < |r| ==> exists k :: j <= k < n && remote(k) == r[i]
  {
    if j == n then []
    else
      var rest := Gathered(remote, j + 1, n);
      if remote(j).Raised? then rest else [remote(j)] + rest
  }

  function Values(rs: seq<Reply<Frame>>): (r: seq<Frame>)
    requires forall i :: 0 <= i < |rs| ==> rs[i].Data?
    ensures |r| == |rs| && forall i :: 0 <= i < |rs| ==> rs[i] == Data(r[i])
  {
    if |rs| == 0 then [] else [rs[0].value] + Values(rs[1..])
  }

  /** The CSV file of a range: both date strings can be read back from fixed positions
      of the name, so two eight-character ranges share a file only when they are equal. */
  function LoadFileName(startDate: string, endDate: string): (r: string)
    ensures |startDate| == 8 && |endDate| == 8 ==>
      |r| == 31 && r[10..18] == startDate && r[19..27] == endDate
  {
    FileName("load_data_", startDate, endDate)
  }

  /** The windows `fetch_load_data` walks, from the parsed start to the parsed end. */
  function ChunkWindows(startDate: string, endDate: string, chunkSize: nat): (ws: seq<Window>)
    requires chunkSize > 0
    requires Strptime(startDate).Some? && Strptime(endDate).Some?
  {
    Split(Ordinal(Strptime(startDate).value), Ordinal(Strptime(endDate).value), chunkSize)
  }

  /** The module-level `fetch_load_data` as written.  Each window builds its bounds
      with `pd.Timestamp(current_start, tz='Europe/Berlin')`, but `current_start` is
      already localized to Europe/Berlin, and pandas 2.1.4 refuses a datetime that
      carries a tzinfo together with a `tz` argument: the ValueError is raised before
      `query_load_and_forecast` is reached, logged, and skipped.  No window is ever
      queried, `all_data` stays empty, and the call returns `None` unless the key
      check, the parsing or the window walk fails first. */
  function FetchLoadData(apiKeySet: bool, startDate: string, endDate: string, chunkSize: nat,
                         saveWorks: bool, remote: nat -> Reply<Frame>): (r: Run<Option<Saved>>)
    requires chunkSize > 0
    ensures r.queries == 0 && r.sleeps == []
    ensures !apiKeySet ==> r.result == Err(MissingApiKey)
    ensures r.result.Ok? ==> r.result.value.None?
    ensures ParseExactRange(startDate, endDate).Err? ==>
      r.result == Err(if apiKeySet then ParseExactRange(startDate, endDate).error else MissingApiKey)
    ensures r.result.Ok? <==>
      && apiKeySet && ParseExactRange(startDate, endDate).Ok?
      && var ws := ChunkWindows(startDate, endDate, chunkSize); Reached(ws, chunkSize) == |ws|
    ensures r.result.Err? ==> r.result.error in {MissingApiKey, BadDate, DateOverflow}
  {
    var attempted := IntendedFetchLoadData(apiKeySet, startDate, endDate, chunkSize, saveWorks, StampRejected);
    Run(attempted.result, [], 0)
  }

  /** Every window's ValueError from the timestamp construction, in place of a reply. */
  function StampRejected(k: nat): Reply<Frame>
  {
    Raised(OtherFailure)
  }

  /** `fetch_load_data` as evidently intended, with the window bounds passed on as the
      localized timestamps they already are: `remote(k)` answers the k-th window of
      `chunk_size` days.  A missing API key raises first; the date strings are parsed
      unstripped; every exception a query raises is logged and skipped; nothing
      fetched gives `None`; a failed save is logged and skipped. */
  function IntendedFetchLoadData(apiKeySet: bool, startDate: string, endDate: string, chunkSize: nat,
                                 saveWorks: bool, remote: nat -> Reply<Frame>): (r: Run<Option<Saved>>)
    requires chunkSize > 0
    ensures !apiKeySet ==> r == Run(Err(MissingApiKey), [], 0)
    ensures r.sleeps == []
    ensures r.result.Err? ==> r.result.error in {MissingApiKey, BadDate, DateOverflow, NotAFrame}
    ensures apiKeySet && ParseExactRange(startDate, endDate).Err? ==>
      r == Run(Err(ParseExactRange(startDate, endDate).error), [], 0)
    ensures r.result == Ok(None) <==>
      && apiKeySet && ParseExactRange(startDate, endDate).Ok?
      && var ws := ChunkWindows(startDate, endDate, chunkSize);
         Reached(ws, chunkSize) == |ws| && forall k :: 0 <= k < |ws| ==> remote(k).Raised?
    ensures r.result.Ok? ==>
      && apiKeySet && ParseExactRange(startDate, endDate).Ok?
      && r.queries == |ChunkWindows(startDate, endDate, chunkSize)|
    ensures r.result.Ok? && r.result.value.Some? ==>
      && 1 <= |r.result.value.value.chunks| <= r.queries
      && Answered(remote, r.queries, r.result.value.value.chunks)
      && r.result.value.value.savedAs == (if saveWorks then Some(LoadFileName(startDate, endDate)) else None)
  {
    if !apiKeySet then Run(Err(MissingApiKey), [], 0)
    else match Walk(ParseExactRange(startDate, endDate), chunkSize)
      case Err(x) => Run(Err(x), [], 0)
      case Ok((n, overflow)) =>
        if overflow then Run(Err(DateOverflow), [], n)
        else Run(Combine(remote, n, saveWorks, LoadFileName(startDate, endDate)), [], n)
  }

  /** Whatever the service would answer, the code as written fetches nothing: where the
      intended loop returns chunks, the written one returns `None` without a query. */
  lemma {:induction false} WrittenFetchLosesChunks(apiKeySet: bool, startDate: string, endDate: string,
                                                  chunkSize: nat, saveWorks: bool, remote: nat -> Reply<Frame>)
    requires chunkSize > 0
    requires var i := IntendedFetchLoadData(apiKeySet, startDate, endDate, chunkSize, saveWorks, remote);
      i.result.Ok? && i.result.value.Some?
    ensures FetchLoadData(apiKeySet, startDate, endDate, chunkSize, saveWorks, remote) == Run(Ok(None), [], 0)
  {
    var i := IntendedFetchLoadData(apiKeySet, startDate, endDate, chunkSize, saveWorks, remote);
    assert i.result != Ok(None);
    var ws := ChunkWindows(startDate, endDate, chunkSize);
    assert Reached(ws, chunkSize) == |ws|;
  }

  /** The first two days of 2024 parse, and 30-day chunks cover them with one window
      that ends far from the last representable date. */
  lemma NewYearWindow()
    ensures ParseExactRange("20240101", "20240102").Ok?
    ensures var ws := ChunkWindows("20240101", "20240102", 30);
      |ws| == 1 && ws[0].start + 30 <= MaxOrdinal
  {
    var a, b := Date(2024, 1, 1), Date(2024, 1, 2);
    assert Format(a) == "20240101";
    assert Format(b) == "20240102";
    ParseFormat(a);
    ParseFormat(b);
    assert Ordinal(b) == Ordinal(a) + 1;
    assert Ordinal(a) + 30 <= MaxOrdinal;
  }

  /** A single window answered with a frame gives that frame, saved. */
  lemma CombineOne(remote: nat -> Reply<Frame>, file: string)
    requires remote(0) == Data(NoDataFrame)
    ensures Combine(remote, 1, true, file) == Ok(Some(Saved([NoDataFrame], Some(file))))
  {
    var got := Gathered(remote, 0, 1);
    assert got == [Data(NoDataFrame)];
    assert Values(got) == [NoDataFrame];
  }

  /** A range that fits in one window, answered with a frame: the intended loop sends
      one query and returns that frame, saved; the written one sends none and returns
      `None`. */
  lemma {:induction false} OneWindowLost(startDate: string, endDate: string, chunkSize: nat,
                                         remote: nat -> Reply<Frame>)
    requires chunkSize > 0 && ParseExactRange(startDate, endDate).Ok?
    requires var ws := ChunkWindows(startDate, endDate, chunkSize);
      |ws| == 1 && ws[0].start + chunkSize <= MaxOrdinal
    requires remote(0) == Data(NoDataFrame)
    ensures FetchLoadData(true, startDate, endDate, chunkSize, true, remote) == Run(Ok(None), [], 0)
    ensures IntendedFetchLoadData(true, startDate, endDate, chunkSize, true, remote)
      == Run(Ok(Some(Saved([NoDataFrame], Some(LoadFileName(startDate, endDate))))), [], 1)
  {
    var ws := ChunkWindows(startDate, endDate, chunkSize);
    assert Reached(ws, chunkSize) == 1;
    assert Walk(ParseExactRange(startDate, endDate), chunkSize) == Ok((1, false));
    CombineOne(remote, LoadFileName(startDate, endDate));
  }

  /** A service that answers every window with the placeholder frame. */
  function AlwaysAnswers(k: nat): Reply<Frame>
  {
    Data(NoDataFrame)
  }

  /** `fetch_load_data("20240101", "20240102")` with the service answering: the code as
      written returns `None` without a query, where one query would have fetched the day. */
  lemma NewYearDayLost()
    ensures FetchLoadData(true, "20240101", "20240102", 30, true, AlwaysAnswers) == Run(Ok(None), [], 0)
    ensures IntendedFetchLoadData(true, "20240101", "20240102", 30, true, AlwaysAnswers)
      == Run(Ok(Some(Saved([NoDataFrame], Some(LoadFileName("20240101", "20240102"))))), [], 1)
  {
    NewYearWindow();
    OneWindowLost("20240101", "20240102", 30, AlwaysAnswers);
  }

  /** Every chunk is the reply of one of the first n windows. */
  predicate Answered(remote: nat -> Reply<Frame>, n: nat, chunks: seq<Frame>)
  {
    forall i :: 0 <= i < |chunks| ==> exists k :: 0 <= k < n && remote(k) == Data(chunks[i])
  }

  /** `tz.localize(datetime.strptime(s, '%Y%m%d'))` on both strings as given,
      unstripped: the start first, then the end. */
  function ParseExactRange(startDate: string, endDate: string): (r: Result<(Date, Date), Error>)
    ensures r.Ok? <==>
      && Strptime(startDate).Some? && Strptime(endDate).Some?
      && Localizable(Strptime(startDate).value) && Localizable(Strptime(endDate).value)
    ensures r.Ok? ==> r.value == (Strptime(startDate).value, Strptime(endDate).value)
    ensures r.Err? ==> r.error in {BadDate, DateOverflow}
  {
    LocalizeRange(startDate, endDate)
  }

  /** What follows the loop over n windows: `None` when every query raised,
      NotAFrame when `pd.concat` meets a reply that is not a frame, else the chunks;
      a failed save is logged and the chunks are still returned. */
  function Combine(remote: nat -> Reply<Frame>, n: nat, saveWorks: bool, file: string): (r: Result<Option<Saved>, Error>)
    ensures r.Err? ==> r.error == NotAFrame
    ensures r == Ok(None) <==> forall k :: 0 <= k < n ==> remote(k).Raised?
    ensures r.Ok? && r.value.Some? ==>
      && 1 <= |r.value.value.chunks| <= n
      && Answered(remote, n, r.value.value.chunks)
      && r.value.value.savedAs == (if saveWorks then Some(file) else None)
  {
    var got := Gathered(remote, 0, n);
    if |got| == 0 then Ok(None)
    else if exists i :: 0 <= i < |got| && got[i].Malformed? then Err(NotAFrame)
    else
      var chunks := Values(got);
      Ok(Some(Saved(chunks, if saveWorks then Some(file) else None)))
  }

  /** `validate_data`: false exactly for a missing or empty frame. */
  function ValidateData(t: Option<Frame>): (ok: bool)
    ensures ok ==> t.Some? && |t.value.index| > 0 && |t.value.columns| > 0
    ensures t.Some? && !IsEmpty(t.value) ==> ok
  {
    t.Some? && !IsEmpty(t.value)
  }

  /** Missing values never change the verdict: frames of the same shape validate alike,
      whatever their cells hold. */
  lemma ValidateIgnoresCells(t: Frame, cols: seq<Column<string>>)
    requires |cols| == |t.columns|
    ensures ValidateData(Some(t)) == ValidateData(Some(t.(columns := cols)))
    ensures !ValidateData(Some(NoDataFrame)) && !ValidateData(None)
  {
  }
}

=== FILE: processor.dfy ===
/** `src/data/processor.py`: the normaliser's three steps.  Duplicate timestamps are
    collapsed to their median and the index is sorted.  Gaps are forward-filled at
    most one row deep.  Cells whose z-score reaches the threshold are blanked.
    Values are exact reals, so the rounding of IEEE doubles is not modelled. */
module Processor {
  import opened Base
  import opened Sorting
  import opened Frames
  import opened Stats

  type Frame = Table<string>

  /** The ValueError raised for an index that is not a DatetimeIndex. */
  datatype Error = NotDatetimeIndex

  // ---------------------------------------------------------------------------
  // _enforce_data_quality

  /** `index.is_unique`. */
  predicate UniqueIndex(index: seq<int>)
  {
    forall i, j :: 0 <= i < j < |index| ==> index[i] != index[j]
  }

  /** `index.is_monotonic_increasing`: each timestamp is at most the next one. */
  predicate MonotonicIncreasing(index: seq<int>)
  {
    forall i :: 0 <= i < |index| - 1 ==> index[i] <= index[i + 1]
  }

  /** A strictly increasing index is both unique and monotonic. */
  lemma StrictlySortedIsUniqueMonotonic(index: seq<int>)
    requires StrictlySorted(index, IntLess)
    ensures UniqueIndex(index) && MonotonicIncreasing(index)
  {
  }

  /** A unique, monotonic index is strictly increasing. */
  lemma {:induction false} UniqueMonotonicIsStrictlySorted(index: seq<int>)
    requires UniqueIndex(index) && MonotonicIncreasing(index)
    ensures StrictlySorted(index, IntLess)
  {
    forall i, j | 0 <= i < j < |index| ensures index[i] < index[j] {
      StepUp(index, i, j);
    }
  }

  lemma {:induction false} StepUp(index: seq<int>, i: int, j: int)
    requires UniqueIndex(index) && MonotonicIncreasing(index)
    requires 0 <= i < j < |index|
    ensures index[i] < index[j]
    decreases j - i
  {
    assert index[i] <= index[i + 1] && index[i] != index[i + 1];
    if i + 1 < j {
      StepUp(index, i + 1, j);
    }
  }

  /** The cells of the rows stamped d, in row order: one group of `groupby(df.index)`. */
  function GroupCells(index: seq<int>, cells: seq<Option<real>>, d: int): (r: seq<Option<real>>)
    requires |cells| == |index|
    ensures |r| <= |index|
    decreases |index|
  {
    if |index| == 0 then []
    else (if index[0] == d then [cells[0]] else []) + GroupCells(index[1..], cells[1..], d)
  }

  /** A timestamp that stamps no row has an empty group. */
  lemma {:induction false} GroupAbsent(index: seq<int>, cells: seq<Option<real>>, d: int)
    requires |cells| == |index| && d !in index
    ensures GroupCells(index, cells, d) == []
    decreases |index|
  {
    if |index| > 0 {
      assert d !in index[1..];
      GroupAbsent(index[1..], cells[1..], d);
    }
  }

  /** On a unique index the group of a row's timestamp is that row's cell alone. */
  lemma {:induction false} GroupSingle(index: seq<int>, cells: seq<Option<real>>, j: nat)
    requires |cells| == |index| && UniqueIndex(index) && j < |index|
    ensures GroupCells(index, cells, index[j]) == [cells[j]]
    decreases |index|
  {
    if j == 0 {
      assert index[0] !in index[1..];
      GroupAbsent(index[1..], cells[1..], index[0]);
    } else {
      assert index[1..][j - 1] == index[j];
      GroupSingle(index[1..], cells[1..], j - 1);
    }
  }

  /** The median of a single cell is that cell, missing or not. */
  lemma MedianOfCell(c: Option<real>)
    ensures Median(Present([c])) == c
  {
    assert [c][1..] == [];
    if c.Some? {
      MedianSingle(c.value);
    }
  }

  /** The group medians of one column, one per key. */
  function MedianCells(index: seq<int>, cells: seq<Option<real>>, keys: seq<int>): (r: seq<Option<real>>)
    requires |cells| == |index|
    ensures |r| == |keys|
    ensures forall i :: 0 <= i < |keys| ==> r[i] == Median(Present(GroupCells(index, cells, keys[i])))
  {
    seq(|keys|, i requires 0 <= i < |keys| => Median(Present(GroupCells(index, cells, keys[i]))))
  }

  /** `df.groupby(df.index).median()`: one row per distinct timestamp, ascending, and
      in each column the median of the present cells of that timestamp's rows. */
  function GroupMedian(t: Frame): (r: Frame)
    requires WellFormed(t)
    ensures WellFormed(r) && r.timeIndexed == t.timeIndexed && Names(r) == Names(t)
    ensures StrictlySorted(r.index, IntLess)
    ensures forall x :: x in r.index <==> x in t.index
    ensures forall k, i :: 0 <= k < |r.columns| && 0 <= i < |r.index| ==>
      r.columns[k].cells[i] == Median(Present(GroupCells(t.index, t.columns[k].cells, r.index[i])))
  {
    IntLessIsStrictTotal();
    var keys := SortDistinct(t.index, IntLess);
    Table(t.timeIndexed, keys,
      seq(|t.columns|, k requires 0 <= k < |t.columns| =>
        Column(t.columns[k].name, MedianCells(t.index, t.columns[k].cells, keys))))
  }

  /** The first row stamped x. */
  function RowOf(index: seq<int>, x: int): (j: nat)
    requires x in index
    ensures j < |index| && index[j] == x
  {
    if index[0] == x then 0 else 1 + RowOf(index[1..], x)
  }

  /** The cells of one column taken from the rows stamped keys[0], keys[1], ... */
  function Reordered(index: seq<int>, cells: seq<Option<real>>, keys: seq<int>): (r: seq<Option<real>>)
    requires |cells| == |index| && forall x :: x in keys ==> x in index
    ensures |r| == |keys|
    ensures forall i :: 0 <= i < |keys| ==> r[i] == cells[RowOf(index, keys[i])]
  {
    seq(|keys|, i requires 0 <= i < |keys| => cells[RowOf(index, keys[i])])
  }

  /** Distinct values are as many as their set. */
  lemma {:induction false} UniqueCard(s: seq<int>)
    requires UniqueIndex(s)
    ensures |set x | x in s| == |s|
  {
    if |s| > 0 {
      UniqueCard(s[1..]);
      assert (set x | x in s) == {s[0]} + (set x | x in s[1..]);
      assert s[0] !in (set x | x in s[1..]);
    }
  }

  /** `df.sort_index()` on a unique index: the rows in ascending order of timestamp,
      none lost, each carrying its own cells. */
  function SortRows(t: Frame): (r: Frame)
    requires WellFormed(t) && UniqueIndex(t.index)
    ensures WellFormed(r) && r.timeIndexed == t.timeIndexed && Names(r) == Names(t)
    ensures StrictlySorted(r.index, IntLess) && |r.index| == |t.index|
    ensures forall x :: x in r.index <==> x in t.index
    ensures forall k, i :: 0 <= k < |r.columns| && 0 <= i < |r.index| ==>
      r.index[i] in t.index && r.columns[k].cells[i] == t.columns[k].cells[RowOf(t.index, r.index[i])]
  {
    IntLessIsStrictTotal();
    var keys := SortDistinct(t.index, IntLess);
    UniqueCard(t.index);
    UniqueCard(keys);
    assert (set x | x in keys) == (set x | x in t.index);
    Table(t.timeIndexed, keys,
      seq(|t.columns|, k requires 0 <= k < |t.columns| =>
        Column(t.columns[k].name, Reordered(t.index, t.columns[k].cells, keys))))
  }

  /** `_enforce_data_quality`: a non-datetime index raises ValueError; duplicated
      timestamps are collapsed to their median; a non-monotonic index is sorted. */
  function EnforceQuality(t: Frame): (r: Result<Frame, Error>)
    requires WellFormed(t)
    ensures r.Err? <==> !t.timeIndexed
    ensures r.Ok? ==> WellFormed(r.value) && r.value.timeIndexed && Names(r.value) == Names(t)
    ensures r.Ok? ==> StrictlySorted(r.value.index, IntLess)
    ensures r.Ok? ==> forall x :: x in r.value.index <==> x in t.index
  {
    if !t.timeIndexed then Err(NotDatetimeIndex)
    else
      var g := if !UniqueIndex(t.index) then GroupMedian(t) else t;
      if !MonotonicIncreasing(g.index) then
        assert UniqueIndex(g.index);
        Ok(SortRows(g))
      else
        UniqueMonotonicIsStrictlySorted(g.index);
        Ok(g)
  }

  /** A unique, sorted table is its own group-by-median. */
  lemma GroupMedianOfSorted(t: Frame)
    requires WellFormed(t) && UniqueIndex(t.index) && MonotonicIncreasing(t.index)
    ensures GroupMedian(t) == t
  {
    var g := GroupMedian(t);
    IntLessIsStrictTotal();
    UniqueMonotonicIsStrictlySorted(t.index);
    StrictlySortedUnique(g.index, t.index, IntLess);
    forall k | 0 <= k < |t.columns| ensures g.columns[k] == t.columns[k] {
      forall i | 0 <= i < |t.index| ensures g.columns[k].cells[i] == t.columns[k].cells[i] {
        GroupSingle(t.index, t.columns[k].cells, i);
        MedianOfCell(t.columns[k].cells[i]);
      }
    }
  }

  /** Sorting a unique table gives its group-by-median. */
  lemma GroupMedianOfUnique(t: Frame)
    requires WellFormed(t) && UniqueIndex(t.index)
    ensures SortRows(t) == GroupMedian(t)
  {
    var s, g := SortRows(t), GroupMedian(t);
    IntLessIsStrictTotal();
    StrictlySortedUnique(s.index, g.index, IntLess);
    forall k | 0 <= k < |t.columns| ensures s.columns[k] == g.columns[k] {
      forall i | 0 <= i < |s.index| ensures s.columns[k].cells[i] == g.columns[k].cells[i] {
        var j := RowOf(t.index, s.index[i]);
        GroupSingle(t.index, t.columns[k].cells, j);
        MedianOfCell(t.columns[k].cells[j]);
      }
    }
  }

  /** Whichever branch it takes, the step returns the group-by-median of its input:
      one row per distinct timestamp, ascending, each cell the median of that
      timestamp's present cells. */
  lemma EnforceQualityIsGroupMedian(t: Frame)
    requires WellFormed(t) && t.timeIndexed
    ensures EnforceQuality(t) == Ok(GroupMedian(t))
  {
    if UniqueIndex(t.index) {
      if MonotonicIncreasing(t.index) {
        GroupMedianOfSorted(t);
      } else {
        GroupMedianOfUnique(t);
      }
    } else {
      StrictlySortedIsUniqueMonotonic(GroupMedian(t).index);
    }
  }

  /** Enforcing quality twice changes nothing more than enforcing it once. */
  lemma EnforceQualityIdempotent(t: Frame)
    requires WellFormed(t)
    ensures EnforceQuality(t).Ok? ==> EnforceQuality(EnforceQuality(t).value) == EnforceQuality(t)
  {
    if t.timeIndexed {
      EnforceQualityIsGroupMedian(t);
      var g := GroupMedian(t);
      StrictlySortedIsUniqueMonotonic(g.index);
    }
  }

  /** Readings 10 and 20 at the same timestamp collapse to one row holding 15. */
  lemma DuplicatesGiveMedian(d: int)
    ensures EnforceQuality(Table(true, [d, d], [Column("load", [Some(10.0), Some(20.0)])]))
      == Ok(Table(true, [d], [Column("load", [Some(15.0)])]))
  {
    var t := Table(true, [d, d], [Column("load", [Some(10.0), Some(20.0)])]);
    EnforceQualityIsGroupMedian(t);
    PairGroupMedian(d);
  }

  /** The grouped frame of the two readings: one row, the median 15. */
  lemma PairGroupMedian(d: int)
    ensures GroupMedian(Table(true, [d, d], [Column("load", [Some(10.0), Some(20.0)])]))
      == Table(true, [d], [Column("load", [Some(15.0)])])
  {
    var t := Table(true, [d, d], [Column("load", [Some(10.0), Some(20.0)])]);
    var g := GroupMedian(t);
    IntLessIsStrictTotal();
    StrictlySortedUnique(g.index, [d], IntLess);
    PairMedian(d);
    assert g.index == [d];
    assert g.columns[0].cells[0] == Median(Present(GroupCells(t.index, t.columns[0].cells, d)));
    assert g.columns[0].cells == [Some(15.0)];
    assert g.columns == [Column("load", [Some(15.0)])];
  }

  lemma PairMedian(d: int)
    ensures Median(Present(GroupCells([d, d], [Some(10.0), Some(20.0)], d))) == Some(15.0)
  {
    assert GroupCells([d], [Some(20.0)], d) == [Some(20.0)];
    assert GroupCells([d, d], [Some(10.0), Some(20.0)], d) == [Some(10.0), Some(20.0)];
    assert Present([Some(20.0)]) == [20.0];
    assert Present([Some(10.0), Some(20.0)]) == [10.0, 20.0];
    MedianTenTwenty();
  }

  // ---------------------------------------------------------------------------
  // _handle_missing_values

  /** The last row before row i holding a value. */
  function LastPresent(cells: seq<Option<real>>, i: nat): (r: Option<nat>)
    requires i <= |cells|
    ensures r.Some? ==> r.value < i && cells[r.value].Some? && forall j :: r.value < j < i ==> cells[j].None?
    ensures r.None? ==> forall j :: 0 <= j < i ==> cells[j].None?
  {
    if i == 0 then None
    else if cells[i - 1].Some? then Some(i - 1)
    else LastPresent(cells, i - 1)
  }

  /** What `fillna(method='ffill', limit=limit)` puts in row i: a present cell stays;
      a missing one takes the last value above it when that value is at most `limit`
      rows up; otherwise it stays missing. */
  function Filled(cells: seq<Option<real>>, limit: nat, i: nat): Option<real>
    requires i < |cells|
  {
    if cells[i].Some? then cells[i]
    else match LastPresent(cells, i)
      case None => None
      case Some(p) => if i - p <= limit then cells[p] else None
  }

  function FillForward(cells: seq<Option<real>>, limit: nat): (r: seq<Option<real>>)
    ensures |r| == |cells|
    ensures forall i :: 0 <= i < |cells| ==> r[i] == Filled(cells, limit, i)
  {
    seq(|cells|, i requires 0 <= i < |cells| => Filled(cells, limit, i))
  }

  /** The pad loop pandas runs: remember the last value and how many rows it has
      been carried, and copy it while that count is within the limit. */
  method FillForwardLoop(cells: seq<Option<real>>, limit: nat) returns (r: seq<Option<real>>)
    ensures r == FillForward(cells, limit)
  {
    r := [];
    var last: Option<real> := None;
    var carried := 0;
    for i := 0 to |cells|
      invariant |r| == i
      invariant forall j :: 0 <= j < i ==> r[j] == Filled(cells, limit, j)
      invariant LastPresent(cells, i).None? ==> last.None?
      invariant LastPresent(cells, i).Some? ==>
        last == cells[LastPresent(cells, i).value] && carried == i - 1 - LastPresent(cells, i).value
    {
      if cells[i].Some? {
        last := cells[i];
        carried := 0;
        r := r + [cells[i]];
      } else {
        carried := carried + 1;
        if last.Some? && carried <= limit {
          r := r + [last];
        } else {
          r := r + [None];
        }
      }
    }
  }

  /** With limit 1 only the first missing cell of each gap is filled, with the value
      just above it; missing cells at the top stay missing; present cells never change. */
  lemma FillOneFillsFirstOfGap(cells: seq<Option<real>>, i: nat)
    requires i < |cells|
    ensures cells[i].Some? ==> FillForward(cells, 1)[i] == cells[i]
    ensures cells[i].None? ==> FillForward(cells, 1)[i] == if i > 0 && cells[i - 1].Some? then cells[i - 1] else None
  {
  }

  /** Where the first fill leaves the last value above a missing cell. */
  lemma {:induction false} LastPresentAfterFill(cells: seq<Option<real>>, a: nat, i: nat, p: nat)
    requires i < |cells| && cells[i].None? && LastPresent(cells, i) == Some(p) && i - p > a
    ensures LastPresent(FillForward(cells, a), i) == Some(p + a)
  {
    var d := FillForward(cells, a);
    assert d[p + a] == cells[p];
    forall j | p + a < j < i ensures d[j].None? {
      assert LastPresent(cells, j) == Some(p) by {
        LastPresentIs(cells, j, p);
      }
    }
    LastPresentIs(d, i, p + a);
  }

  /** The last present cell above row i is the one the characterisation names. */
  lemma {:induction false} LastPresentIs(cells: seq<Option<real>>, i: nat, p: nat)
    requires p < i <= |cells| && cells[p].Some? && forall j :: p < j < i ==> cells[j].None?
    ensures LastPresent(cells, i) == Some(p)
    decreases i
  {
    if i - 1 != p {
      LastPresentIs(cells, i - 1, p);
    }
  }

  lemma FillComposeAt(cells: seq<Option<real>>, a: nat, b: nat, i: nat)
    requires i < |cells|
    ensures Filled(FillForward(cells, a), b, i) == Filled(cells, a + b, i)
  {
    var d := FillForward(cells, a);
    if cells[i].None? {
      match LastPresent(cells, i)
      case None =>
        forall j | 0 <= j < i ensures d[j].None? {
          assert LastPresent(cells, j).None?;
        }
      case Some(p) =>
        if i - p > a {
          LastPresentAfterFill(cells, a, i, p);
        } else {
          assert d[i] == cells[p];
        }
    }
  }

  /** Filling with limit a and then with limit b fills as far as limit a + b. */
  lemma FillCompose(cells: seq<Option<real>>, a: nat, b: nat)
    ensures FillForward(FillForward(cells, a), b) == FillForward(cells, a + b)
  {
    forall i | 0 <= i < |cells| ensures FillForward(FillForward(cells, a), b)[i] == FillForward(cells, a + b)[i] {
      FillComposeAt(cells, a, b, i);
    }
  }

  /** Filling is not idempotent: a second pass with limit 1 reaches one row further. */
  lemma FillNotIdempotent()
    ensures FillForward([Some(1.0), None, None], 1) == [Some(1.0), Some(1.0), None]
    ensures FillForward(FillForward([Some(1.0), None, None], 1), 1) == [Some(1.0), Some(1.0), Some(1.0)]
  {
    var c := [Some(1.0), None, None];
    assert LastPresent(c, 2) == Some(0);
    FillCompose(c, 1, 1);
  }

  /** `_handle_missing_values`: every column forward-filled with limit 1. */
  function HandleMissingValues(t: Frame): (r: Frame)
    requires WellFormed(t)
    ensures WellFormed(r) && r.timeIndexed == t.timeIndexed && r.index == t.index && Names(r) == Names(t)
    ensures forall k :: 0 <= k < |t.columns| ==> r.columns[k].cells == FillForward(t.columns[k].cells, 1)
  {
    t.(columns := seq(|t.columns|, k requires 0 <= k < |t.columns| =>
      Column(t.columns[k].name, FillForward(t.columns[k].cells, 1))))
  }

  // ---------------------------------------------------------------------------
  // _remove_outliers

  lemma ProductNonNegative(p: real, q: real)
    requires p >= 0.0 && q >= 0.0
    ensures p * q >= 0.0
  {
  }

  lemma SquareNonNegative(x: real)
    ensures x * x >= 0.0
  {
    if x < 0.0 {
      ProductNonNegative(-x, -x);
    } else {
      ProductNonNegative(x, x);
    }
  }

  /** The sum of squared deviations from m. */
  function SquaredDeviations(xs: seq<real>, m: real): (r: real)
    ensures r >= 0.0
  {
    if |xs| == 0 then 0.0
    else
      SquareNonNegative(xs[0] - m);
      (xs[0] - m) * (xs[0] - m) + SquaredDeviations(xs[1..], m)
  }

  /** `Series.var()`, with pandas' default of one degree of freedom: NaN for fewer
      than two values. */
  function Variance(xs: seq<real>): (r: Option<real>)
    ensures r.Some? <==> |xs| >= 2
    ensures r.Some? ==> r.value >= 0.0
  {
    if |xs| < 2 then None
    else Some(SquaredDeviations(xs, Sum(xs) / |xs| as real) / (|xs| - 1) as real)
  }

  /** `abs((x - mean) / std) < threshold` for a column's cells, with the square root
      avoided: a zero or undefined standard deviation makes every score NaN, and NaN
      is below nothing. */
  predicate ZBelow(cells: seq<Option<real>>, x: real, threshold: real)
  {
    var xs := Present(cells);
    |xs| >= 2 && ScoreBelow(x, Mean(xs).value, Variance(xs).value, threshold)
  }

  /** The squared form of `|x - m| / sqrt(v) < threshold`, false when v is zero. */
  predicate ScoreBelow(x: real, m: real, v: real, threshold: real)
  {
    v > 0.0 && threshold > 0.0 && (x - m) * (x - m) < threshold * threshold * v
  }

  function Abs(x: real): real
  {
    if x < 0.0 then -x else x
  }

  lemma SquareMonotone(a: real, b: real)
    requires 0.0 <= a && 0.0 <= b
    ensures a < b <==> a * a < b * b
  {
    assert b * b - a * a == (b - a) * (b + a);
    if a < b {
      ProductPositive(b - a, b + a);
    } else {
      ProductNonNegative(a - b, a + b);
    }
  }

  lemma ProductPositive(p: real, q: real)
    requires p > 0.0 && q > 0.0
    ensures p * q > 0.0
  {
  }

  /** Below the threshold after dividing by a positive sd is below threshold * sd. */
  lemma DivBelow(e: real, sd: real, threshold: real)
    requires sd > 0.0
    ensures e / sd < threshold <==> e < threshold * sd
  {
    var z := e / sd;
    assert e == z * sd;
    assert threshold * sd - e == (threshold - z) * sd;
    if z < threshold {
      ProductPositive(threshold - z, sd);
    } else {
      ProductNonNegative(z - threshold, sd);
      assert e - threshold * sd == (z - threshold) * sd;
    }
  }

  /** The squared test against a variance sd * sd is the divided test. */
  lemma ScoreBelowIsDivided(x: real, m: real, sd: real, threshold: real)
    requires sd > 0.0
    ensures ScoreBelow(x, m, sd * sd, threshold) <==> Abs(x - m) / sd < threshold
  {
    var e := Abs(x - m);
    assert e * e == (x - m) * (x - m);
    ProductPositive(sd, sd);
    DivBelow(e, sd, threshold);
    if threshold > 0.0 {
      ProductPositive(threshold, sd);
      SquareMonotone(e, threshold * sd);
      assert (threshold * sd) * (threshold * sd) == threshold * threshold * (sd * sd);
    } else {
      ProductNonNegative(-threshold, sd);
    }
  }

  /** With a positive standard deviation sd (sd * sd the variance), the test is the
      z-score `|x - mean| / sd` compared with the threshold. */
  lemma ZBelowIsZScore(cells: seq<Option<real>>, x: real, threshold: real, sd: real)
    requires sd > 0.0 && Variance(Present(cells)) == Some(sd * sd)
    ensures ZBelow(cells, x, threshold) <==> Abs(x - Mean(Present(cells)).value) / sd < threshold
  {
    ScoreBelowIsDivided(x, Mean(Present(cells)).value, sd, threshold);
  }

  /** One screened column: a value survives when its z-score is below the threshold;
      everything else becomes missing. */
  function Screen(cells: seq<Option<real>>, threshold: real): (r: seq<Option<real>>)
    ensures |r| == |cells|
    ensures forall i :: 0 <= i < |cells| ==>
      r[i] == if cells[i].Some? && ZBelow(cells, cells[i].value, threshold) then cells[i] else None
  {
    seq(|cells|, i requires 0 <= i < |cells| =>
      if cells[i].Some? && ZBelow(cells, cells[i].value, threshold) then cells[i] else None)
  }

  /** `_remove_outliers(df, columns, threshold)`: a copy in which each listed column
      that the frame has is screened against its own mean and standard deviation;
      the other columns, the index and the row count are untouched. */
  function RemoveOutliers(t: Frame, columns: seq<string>, threshold: real): (r: Frame)
    requires WellFormed(t)
    ensures WellFormed(r) && r.timeIndexed == t.timeIndexed && r.index == t.index && Names(r) == Names(t)
    ensures forall k :: 0 <= k < |t.columns| && t.columns[k].name !in columns ==> r.columns[k] == t.columns[k]
    ensures forall k, i :: 0 <= k < |t.columns| && t.columns[k].name in columns && 0 <= i < |t.index| ==>
      var c := t.columns[k].cells;
      (r.columns[k].cells[i].Some? <==> c[i].Some? && ZBelow(c, c[i].value, threshold))
      && (r.columns[k].cells[i].Some? ==> r.columns[k].cells[i] == c[i])
  {
    t.(columns := seq(|t.columns|, k requires 0 <= k < |t.columns| =>
      if t.columns[k].name in columns then Column(t.columns[k].name, Screen(t.columns[k].cells, threshold))
      else t.columns[k]))
  }

  lemma {:induction false} SquaredDeviationsConstant(xs: seq<real>, c: real)
    requires forall i :: 0 <= i < |xs| ==> xs[i] == c
    ensures SquaredDeviations(xs, c) == 0.0
  {
    if |xs| > 0 {
      SquaredDeviationsConstant(xs[1..], c);
    }
  }

  /** A column whose present values are all equal has a zero standard deviation, so
      every score is NaN and the whole column is blanked. */
  lemma ConstantColumnErased(cells: seq<Option<real>>, c: real, threshold: real)
    requires forall i :: 0 <= i < |cells| && cells[i].Some? ==> cells[i].value == c
    ensures forall i :: 0 <= i < |cells| ==> Screen(cells, threshold)[i] == None
  {
    var xs := Present(cells);
    if |xs| >= 2 {
      forall i | 0 <= i < |xs| ensures xs[i] == c {
        assert Some(xs[i]) in cells;
      }
      MeanConstant(xs, c);
      SquaredDeviationsConstant(xs, c);
    }
  }

  // ---------------------------------------------------------------------------
  // process_data

  /** `process_data` between reading and writing the CSV: every column counts as
      numeric, and the threshold is the default 3. */
  function ProcessData(t: Frame): (r: Result<Frame, Error>)
    requires WellFormed(t)
    ensures r.Err? <==> !t.timeIndexed
    ensures r.Ok? ==> WellFormed(r.value) && r.value.timeIndexed && Names(r.value) == Names(t)
    ensures r.Ok? ==> StrictlySorted(r.value.index, IntLess) && forall x :: x in r.value.index <==> x in t.index
    ensures r.Ok? ==> r.value.index == GroupMedian(t).index
    ensures r.Ok? ==> forall k, i :: 0 <= k < |t.columns| && 0 <= i < |r.value.index| ==>
      var c := FillForward(GroupMedian(t).columns[k].cells, 1);
      && (r.value.columns[k].cells[i].Some? <==> c[i].Some? && ZBelow(c, c[i].value, 3.0))
      && (r.value.columns[k].cells[i].Some? ==> r.value.columns[k].cells[i] == c[i])
  {
    match EnforceQuality(t)
    case Err(e) => Err(e)
    case Ok(q) =>
      EnforceQualityIsGroupMedian(t);
      Ok(RemoveOutliers(HandleMissingValues(q), Names(q), 3.0))
  }
}

=== FILE: renewables.dfy ===
/** `RenewableClient.fetch_renewable_data` in `src/data/clients/renewable_client.py`:
    for every window of `chunk_size` days and every requested production type, a
    retry loop with capped backoff that never raises; then one generation column
    per type, found under the label the type's name leads to, sorted by time. */
module Renewables {
  import opened Base
  import opened Sorting
  import opened Calendar
  import opened Windows
  import opened Retry
  import opened Frames
  import opened Fetching

  /** The production types, in declaration order. */
  datatype RenewableType = Solar | WindOffshore | WindOnshore | Biomass | HydroWaterReservoir | HydroRunOfRiver

  const AllTypes: seq<RenewableType> :=
    [Solar, WindOffshore, WindOnshore, Biomass, HydroWaterReservoir, HydroRunOfRiver]

  /** The ENTSO-E production-type code each member carries, as written in the enum. */
  function Code(t: RenewableType): string
  {
    match t
    case Solar => "B16"
    case WindOffshore => "B18"
    case WindOnshore => "B19"
    case Biomass => "B01"
    case HydroWaterReservoir => "B05"
    case HydroRunOfRiver => "B11"
  }

  /** `r_type.name.lower()`: the member's name in lower case, the key of `all_data`. */
  function Key(t: RenewableType): string
  {
    match t
    case Solar => "solar"
    case WindOffshore => "wind_offshore"
    case WindOnshore => "wind_onshore"
    case Biomass => "biomass"
    case HydroWaterReservoir => "hydro_water_reservoir"
    case HydroRunOfRiver => "hydro_run_of_river"
  }

  /** `list(RenewableType)` holds every member once, and no two members share a code. */
  lemma AllTypesDistinctCodes()
    ensures forall t :: t in AllTypes
    ensures forall i, j :: 0 <= i < j < |AllTypes| ==> AllTypes[i] != AllTypes[j] && Code(AllTypes[i]) != Code(AllTypes[j])
  {
    forall t ensures t in AllTypes {
      match t
      case Solar => assert AllTypes[0] == t;
      case WindOffshore => assert AllTypes[1] == t;
      case WindOnshore => assert AllTypes[2] == t;
      case Biomass => assert AllTypes[3] == t;
      case HydroWaterReservoir => assert AllTypes[4] == t;
      case HydroRunOfRiver => assert AllTypes[5] == t;
    }
  }

  predicate IsUpper(c: char) { 'A' <= c <= 'Z' }
  predicate IsLower(c: char) { 'a' <= c <= 'z' }
  predicate IsLetter(c: char) { IsUpper(c) || IsLower(c) }

  function ToLower(c: char): (r: char)
    ensures IsLetter(c) ==> IsLower(r)
    ensures !IsLetter(c) ==> r == c
    ensures IsLower(c) ==> r == c
  {
    if IsUpper(c) then (c as int + 32) as char else c
  }

  function ToUpper(c: char): (r: char)
    ensures IsLetter(c) ==> IsUpper(r)
    ensures !IsLetter(c) ==> r == c
  {
    if IsLower(c) then (c as int - 32) as char else c
  }

  /** Upper-casing a lower-case letter is undone by lower-casing it. */
  lemma CaseRoundTrip(c: char)
    requires IsLower(c)
    ensures ToLower(ToUpper(c)) == c && ToLower(c) == c
  {
  }

  /** `str.replace('_', ' ')`. */
  function Spaced(s: string): (r: string)
    ensures |r| == |s| && forall i :: 0 <= i < |s| ==> r[i] == (if s[i] == '_' then ' ' else s[i])
  {
    if |s| == 0 then [] else [if s[0] == '_' then ' ' else s[0]] + Spaced(s[1..])
  }

  /** One character of `str.title()`: a letter is upper-cased when it starts a run
      of letters and lower-cased otherwise; anything else is kept. */
  function TitleChar(c: char, afterLetter: bool): char
  {
    if !IsLetter(c) then c else if afterLetter then ToLower(c) else ToUpper(c)
  }

  function TitleFrom(s: string, afterLetter: bool): (r: string)
    ensures |r| == |s|
    ensures |s| > 0 ==> r[0] == TitleChar(s[0], afterLetter)
    ensures forall i {:trigger r[i]} :: 1 <= i < |s| ==> r[i] == TitleChar(s[i], IsLetter(s[i - 1]))
  {
    if |s| == 0 then []
    else
      var rest := TitleFrom(s[1..], IsLetter(s[0]));
      var r := [TitleChar(s[0], afterLetter)] + rest;
      forall i | 1 <= i < |s| ensures r[i] == TitleChar(s[i], IsLetter(s[i - 1])) {
        assert r[i] == rest[i - 1] && s[1..][i - 1] == s[i];
        if i >= 2 {
          assert s[1..][i - 2] == s[i - 1];
        }
      }
      r
  }

  /** `str.title()` on ASCII text. */
  function Title(s: string): (r: string)
    ensures |r| == |s|
    ensures forall i {:trigger r[i]} :: 0 <= i < |s| ==> r[i] == TitleChar(s[i], i > 0 && IsLetter(s[i - 1]))
  {
    TitleFrom(s, false)
  }

  /** A chunk's column label: a plain name, or a (type, aggregation) pair of a MultiIndex. */
  datatype Label = Plain(name: string) | Pair(first: string, second: string)

  type Chunk = Table<Label>

  function Empty(c: Chunk): bool
  {
    IsEmpty(c)
  }

  function ColumnName(t: RenewableType): string
  {
    Key(t) + "_generation"
  }

  /** The label the combine step looks for: `Wind Offshore` for offshore wind, else the
      title-cased key paired with `Actual Aggregated`. */
  function Lookup(t: RenewableType): (r: Label)
    ensures r.Plain? <==> t == WindOffshore
    ensures r.Pair? ==> r.second == "Actual Aggregated" && |r.first| == |Key(t)|
  {
    if Key(t) == "wind_offshore" then Plain("Wind Offshore")
    else Pair(Title(Spaced(Key(t))), "Actual Aggregated")
  }

  /** Every key is lower-case letters and underscores. */
  lemma KeyAlphabet(t: RenewableType)
    ensures forall i :: 0 <= i < |Key(t)| ==> IsLower(Key(t)[i]) || Key(t)[i] == '_'
  {
  }

  /** A snake-case name spelled as words: each underscore a space, each word
      capitalised, the rest of it unchanged. */
  predicate SpelledAsWords(k: string, w: string)
  {
    && |w| == |k|
    && forall i {:trigger w[i]} :: 0 <= i < |k| ==>
      if k[i] == '_' then w[i] == ' '
      else (ToLower(w[i]) == k[i] && (IsUpper(w[i]) <==> i == 0 || k[i - 1] == '_'))
  }

  /** `name.replace('_', ' ').title()` spells a snake-case name as words. */
  lemma TitleSpaced(k: string)
    requires forall i :: 0 <= i < |k| ==> IsLower(k[i]) || k[i] == '_'
    ensures SpelledAsWords(k, Title(Spaced(k)))
  {
    forall i | 0 <= i < |k|
      ensures var r := Title(Spaced(k));
        if k[i] == '_' then r[i] == ' '
        else (ToLower(r[i]) == k[i] && (IsUpper(r[i]) <==> i == 0 || k[i - 1] == '_'))
    {
      TitleSpacedAt(k, i);
    }
  }

  lemma TitleSpacedAt(k: string, i: nat)
    requires forall i :: 0 <= i < |k| ==> IsLower(k[i]) || k[i] == '_'
    requires i < |k|
    ensures var r := Title(Spaced(k));
      if k[i] == '_' then r[i] == ' '
      else (ToLower(r[i]) == k[i] && (IsUpper(r[i]) <==> i == 0 || k[i - 1] == '_'))
  {
    var w := Spaced(k);
    var r := Title(w);
    var after := i > 0 && IsLetter(w[i - 1]);
    assert r[i] == TitleChar(w[i], after);
    assert after <==> i > 0 && k[i - 1] != '_' by {
      if i > 0 {
        assert w[i - 1] == (if k[i - 1] == '_' then ' ' else k[i - 1]);
      }
    }
    if k[i] != '_' {
      assert w[i] == k[i] && IsLetter(k[i]);
      CaseRoundTrip(k[i]);
      if after {
        assert r[i] == k[i];
      } else {
        assert r[i] == ToUpper(k[i]);
      }
    }
  }

  /** Apart from offshore wind, a type is looked up under its key spelled as words,
      paired with `Actual Aggregated`. */
  lemma LookupSpelling(t: RenewableType)
    requires t != WindOffshore
    ensures Lookup(t).Pair? && Lookup(t).second == "Actual Aggregated"
    ensures SpelledAsWords(Key(t), Lookup(t).first)
  {
    KeyAlphabet(t);
    TitleSpaced(Key(t));
  }

  /** Different types never share a key, so never share an output column. */
  lemma KeysDistinct(t: RenewableType, u: RenewableType)
    requires t != u
    ensures Key(t) != Key(u) && ColumnName(t) != ColumnName(u)
  {
    assert ColumnName(t)[..|Key(t)|] == Key(t) && ColumnName(u)[..|Key(u)|] == Key(u);
  }

  /** `renewable_types`, defaulting to every member. */
  function Requested(types: Option<seq<RenewableType>>): seq<RenewableType>
  {
    if types.Some? then types.value else AllTypes
  }

  /** The types in the order they first appear: the key order of `all_data`. */
  function FirstOccurrences(ts: seq<RenewableType>): (r: seq<RenewableType>)
    ensures forall t :: t in r <==> t in ts
    ensures forall i, j :: 0 <= i < j < |r| ==> r[i] != r[j]
  {
    if |ts| == 0 then []
    else
      var d := FirstOccurrences(ts[..|ts| - 1]);
      assert ts == ts[..|ts| - 1] + [ts[|ts| - 1]];
      if ts[|ts| - 1] in d then d else d + [ts[|ts| - 1]]
  }

  /** Job k of the loop queries window k / |types| for type types[k % |types|]. */
  function JobType(types: seq<RenewableType>, k: nat): RenewableType
    requires |types| > 0
  {
    types[k % |types|]
  }

  /** What `all_data[key]` holds for type t from job k on: the kept chunks of t's
      jobs, in job order. */
  function ChunksOf(ys: seq<Yield<Chunk>>, types: seq<RenewableType>, t: RenewableType, k: nat): seq<Chunk>
    requires |types| > 0 && k <= |ys|
    decreases |ys| - k
  {
    if k == |ys| then []
    else
      var rest := ChunksOf(ys, types, t, k + 1);
      if JobType(types, k) == t && ys[k].Kept? then [ys[k].value] + rest else rest
  }

  /** Every chunk gathered for a type was kept by one of that type's jobs. */
  lemma {:induction false} ChunksFromJobs(ys: seq<Yield<Chunk>>, types: seq<RenewableType>, t: RenewableType, k: nat)
    requires |types| > 0 && k <= |ys|
    ensures forall c :: c in ChunksOf(ys, types, t, k) ==>
      exists j :: k <= j < |ys| && JobType(types, j) == t && ys[j] == Kept(c)
    decreases |ys| - k
  {
    if k < |ys| {
      ChunksFromJobs(ys, types, t, k + 1);
      var rest := ChunksOf(ys, types, t, k + 1);
      if JobType(types, k) == t && ys[k].Kept? {
        assert ChunksOf(ys, types, t, k) == [ys[k].value] + rest;
        assert ys[k] == Kept(ys[k].value);
      }
    }
  }

  /** Every chunk one of t's jobs kept is gathered for t. */
  lemma {:induction false} JobsInChunks(ys: seq<Yield<Chunk>>, types: seq<RenewableType>, t: RenewableType, k: nat)
    requires |types| > 0 && k <= |ys|
    ensures forall j :: k <= j < |ys| && JobType(types, j) == t && ys[j].Kept? ==> ys[j].value in ChunksOf(ys, types, t, k)
    decreases |ys| - k
  {
    if k < |ys| {
      JobsInChunks(ys, types, t, k + 1);
    }
  }

  /** The label occurs in the concatenation of the chunks. */
  predicate HasLabel(chunks: seq<Chunk>, lab: Label)
  {
    exists i :: 0 <= i < |chunks| && HasColumn(chunks[i], lab)
  }

  /** Every label of every chunk is a pair, so the concatenation has MultiIndex columns. */
  predicate AllPairs(chunks: seq<Chunk>)
  {
    forall i, k :: 0 <= i < |chunks| && 0 <= k < |chunks[i].columns| ==> chunks[i].columns[k].name.Pair?
  }

  datatype Sample = Sample(time: int, value: Option<real>)

  function SampleTime(s: Sample): int
  {
    s.time
  }

  /** One chunk's rows under the label; a chunk without it contributes NaN rows. */
  function ChunkSamples(c: Chunk, lab: Label): (r: seq<Sample>)
    ensures |r| == |c.index|
    ensures forall i :: 0 <= i < |r| ==> r[i].time == c.index[i]
  {
    var cells := Get(c, lab);
    seq(|c.index|, i requires 0 <= i < |c.index| =>
      Sample(c.index[i], if cells.Some? && i < |cells.value| then cells.value[i] else None))
  }

  /** `pd.concat(chunks)[lab]`, as (time, value) samples. */
  function SamplesOf(chunks: seq<Chunk>, lab: Label): seq<Sample>
  {
    if |chunks| == 0 then [] else ChunkSamples(chunks[0], lab) + SamplesOf(chunks[1..], lab)
  }

  datatype Series = Series(name: string, samples: seq<Sample>)

  /** The second parts of the pair labels among `cols` whose first part is `first`. */
  function SecondsIn(cols: seq<Column<Label>>, first: string): (r: seq<string>)
    ensures forall s :: s in r <==> exists k :: 0 <= k < |cols| && cols[k].name == Pair(first, s)
  {
    if |cols| == 0 then []
    else
      var rest := SecondsIn(cols[1..], first);
      assert forall k :: 1 <= k < |cols| ==> cols[k] == cols[1..][k - 1];
      if cols[0].name.Pair? && cols[0].name.first == first then [cols[0].name.second] + rest else rest
  }

  /** The columns a MultiIndex concatenation holds under the level-0 key `first`,
      named by their second part, chunk by chunk (repeats included). */
  function SecondsUnder(chunks: seq<Chunk>, first: string): (r: seq<string>)
    ensures forall s :: s in r <==> HasLabel(chunks, Pair(first, s))
  {
    if |chunks| == 0 then []
    else
      var rest := SecondsUnder(chunks[1..], first);
      assert forall i :: 1 <= i < |chunks| ==> chunks[i] == chunks[1..][i - 1];
      SecondsIn(chunks[0].columns, first) + rest
  }

  /** The sub-frame under a level-0 key is a single column: every entry is the same. */
  predicate SingleSecond(ss: seq<string>)
  {
    |ss| > 0 && forall i :: 0 <= i < |ss| ==> ss[i] == ss[0]
  }

  /** Exactly one pair label has `first` as its first part. */
  ghost predicate OnePairUnder(chunks: seq<Chunk>, first: string)
  {
    exists s :: HasLabel(chunks, Pair(first, s)) && forall s' :: HasLabel(chunks, Pair(first, s')) ==> s' == s
  }

  lemma SingleSecondIsOnePair(chunks: seq<Chunk>, first: string)
    ensures SingleSecond(SecondsUnder(chunks, first)) <==> OnePairUnder(chunks, first)
  {
    var ss := SecondsUnder(chunks, first);
    if SingleSecond(ss) {
      assert ss[0] in ss;
      forall s' | HasLabel(chunks, Pair(first, s')) ensures s' == ss[0] {
        var i :| 0 <= i < |ss| && ss[i] == s';
      }
    }
    if OnePairUnder(chunks, first) {
      var s :| HasLabel(chunks, Pair(first, s)) && forall s' :: HasLabel(chunks, Pair(first, s')) ==> s' == s;
      assert s in ss;
      forall i | 0 <= i < |ss| ensures ss[i] == ss[0] {
        assert ss[i] in ss && ss[0] in ss;
      }
    }
  }

  /** The column one type contributes, if its label is found.  Offshore wind is
      looked up by `in` on the columns, which on MultiIndex columns matches the
      level-0 key: the sub-frame under it is stored when it is a single column,
      and a wider one raises on assignment (caught, so no column). */
  function Extract(t: RenewableType, chunks: seq<Chunk>): (r: Option<Series>)
    ensures r.Some? ==> r.value.name == ColumnName(t) && |chunks| > 0
    ensures t != WindOffshore ==> (r.Some? <==> |chunks| > 0 && AllPairs(chunks) && HasLabel(chunks, Lookup(t)))
    ensures t != WindOffshore && r.Some? ==> r.value.samples == SamplesOf(chunks, Lookup(t))
    ensures t == WindOffshore ==>
      (r.Some? <==>
        |chunks| > 0 &&
        (HasLabel(chunks, Plain("Wind Offshore")) || (AllPairs(chunks) && OnePairUnder(chunks, "Wind Offshore"))))
    ensures t == WindOffshore && r.Some? ==>
      exists lab :: (lab == Plain("Wind Offshore") || (lab.Pair? && lab.first == "Wind Offshore"))
        && HasLabel(chunks, lab) && r.value.samples == SamplesOf(chunks, lab)
  {
    if |chunks| == 0 then None
    else if Key(t) == "wind_offshore" then
      if HasLabel(chunks, Lookup(t)) then Some(Series(ColumnName(t), SamplesOf(chunks, Lookup(t))))
      else if AllPairs(chunks) then
        var ss := SecondsUnder(chunks, Lookup(t).name);
        SingleSecondIsOnePair(chunks, Lookup(t).name);
        if SingleSecond(ss) then
          assert ss[0] in ss;
          Some(Series(ColumnName(t), SamplesOf(chunks, Pair(Lookup(t).name, ss[0]))))
        else None
      else None
    else if AllPairs(chunks) && HasLabel(chunks, Lookup(t)) then Some(Series(ColumnName(t), SamplesOf(chunks, Lookup(t))))
    else None
  }

  /** The column type t contributes after the jobs whose outcomes are `ys`. */
  function TypeColumn(ys: seq<Yield<Chunk>>, types: seq<RenewableType>, t: RenewableType): (r: Option<Series>)
    requires |types| > 0
    ensures r.Some? ==> r.value.name == ColumnName(t)
  {
    Extract(t, ChunksOf(ys, types, t, 0))
  }

  function SeriesNames(cols: seq<Series>): (r: seq<string>)
    ensures |r| == |cols| && forall i :: 0 <= i < |cols| ==> r[i] == cols[i].name
  {
    seq(|cols|, i requires 0 <= i < |cols| => cols[i].name)
  }

  /** The loop over `all_data.items()`: the columns found, in key order; `opts[i]` is
      what key i contributes. */
  function Combine(keys: seq<RenewableType>, opts: seq<Option<Series>>): (r: seq<Series>)
    requires |opts| == |keys|
    requires forall i, j :: 0 <= i < j < |keys| ==> keys[i] != keys[j]
    requires forall i :: 0 <= i < |opts| && opts[i].Some? ==> opts[i].value.name == ColumnName(keys[i])
    ensures forall x :: x in r <==> Some(x) in opts
    ensures forall i, j :: 0 <= i < j < |r| ==> r[i].name != r[j].name
  {
    if |keys| == 0 then []
    else
      var rest := Combine(keys[1..], opts[1..]);
      forall x | x in rest ensures x.name != ColumnName(keys[0]) {
        var i :| 0 <= i < |opts[1..]| && opts[1..][i] == Some(x);
        KeysDistinct(keys[0], keys[i + 1]);
      }
      assert forall x :: Some(x) in opts <==> opts[0] == Some(x) || Some(x) in opts[1..];
      if opts[0].Some? then [opts[0].value] + rest else rest
  }

  /** The columns of `combined_df`, `column(t)` being what type t contributes: one per
      key whose type contributes one, and those only, none twice. */
  function Columns(keys: seq<RenewableType>, column: RenewableType -> Option<Series>): (r: seq<Series>)
    requires forall i, j :: 0 <= i < j < |keys| ==> keys[i] != keys[j]
    requires forall t :: column(t).Some? ==> column(t).value.name == ColumnName(t)
    ensures forall t :: t in keys ==> (ColumnName(t) in SeriesNames(r) <==> column(t).Some?)
    ensures forall t :: t in keys && column(t).Some? ==> column(t).value in r
    ensures forall i :: 0 <= i < |r| ==> exists t :: t in keys && column(t) == Some(r[i])
    ensures forall i, j :: 0 <= i < j < |r| ==> r[i].name != r[j].name
  {
    var opts := seq(|keys|, i requires 0 <= i < |keys| => column(keys[i]));
    var r := Combine(keys, opts);
    forall t | t in keys ensures ColumnName(t) in SeriesNames(r) <==> column(t).Some? {
      ColumnPresent(keys, column, opts, r, t);
    }
    forall i | 0 <= i < |r| ensures exists t :: t in keys && column(t) == Some(r[i]) {
      var j :| 0 <= j < |opts| && opts[j] == Some(r[i]);
      assert keys[j] in keys;
    }
    r
  }

  lemma ColumnPresent(keys: seq<RenewableType>, column: RenewableType -> Option<Series>,
                      opts: seq<Option<Series>>, r: seq<Series>, t: RenewableType)
    requires forall t :: column(t).Some? ==> column(t).value.name == ColumnName(t)
    requires |opts| == |keys| && forall i :: 0 <= i < |keys| ==> opts[i] == column(keys[i])
    requires forall x :: x in r <==> Some(x) in opts
    requires t in keys
    ensures ColumnName(t) in SeriesNames(r) <==> column(t).Some?
    ensures column(t).Some? ==> column(t).value in r
  {
    var k :| 0 <= k < |keys| && keys[k] == t;
    if column(t).Some? {
      assert opts[k] == column(t);
      var i :| 0 <= i < |r| && r[i] == column(t).value;
      assert SeriesNames(r)[i] == ColumnName(t);
    }
    if ColumnName(t) in SeriesNames(r) {
      var i :| 0 <= i < |r| && SeriesNames(r)[i] == ColumnName(t);
      var j :| 0 <= j < |opts| && opts[j] == Some(r[i]);
      if keys[j] != t {
        KeysDistinct(keys[j], t);
      }
    }
  }

  /** `combined_df.sort_index()`, column by column. */
  function SortSeries(cols: seq<Series>): (r: seq<Series>)
    ensures |r| == |cols|
    ensures forall i :: 0 <= i < |r| ==>
      r[i].name == cols[i].name
      && SortedBy(r[i].samples, SampleTime)
      && multiset(r[i].samples) == multiset(cols[i].samples)
  {
    seq(|cols|, i requires 0 <= i < |cols| => Series(cols[i].name, SortBy(cols[i].samples, SampleTime)))
  }

  /** `combined_df` before saving: the columns the requested types contribute after
      the jobs whose outcomes are `ys`, each sorted by time, none named twice. */
  function Generation(ts: seq<RenewableType>, ys: seq<Yield<Chunk>>): (r: seq<Series>)
    requires |ts| > 0
    ensures forall i :: 0 <= i < |r| ==>
      SortedBy(r[i].samples, SampleTime) && exists t :: t in ts && r[i].name == ColumnName(t)
    ensures forall i, j :: 0 <= i < j < |r| ==> r[i].name != r[j].name
  {
    var cols := Columns(FirstOccurrences(ts), t => TypeColumn(ys, ts, t));
    SortSeries(cols)
  }

  /** A requested type has a column exactly when its gathered chunks yield one. */
  lemma GenerationHasColumn(ts: seq<RenewableType>, ys: seq<Yield<Chunk>>, t: RenewableType)
    requires |ts| > 0 && t in ts
    ensures ColumnName(t) in SeriesNames(Generation(ts, ys)) <==> TypeColumn(ys, ts, t).Some?
  {
    var cols := Columns(FirstOccurrences(ts), u => TypeColumn(ys, ts, u));
    assert SeriesNames(Generation(ts, ys)) == SeriesNames(cols);
    assert t in FirstOccurrences(ts);
  }

  /** The column of a type holds the samples its gathered chunks yield, reordered by time. */
  lemma GenerationColumnSamples(ts: seq<RenewableType>, ys: seq<Yield<Chunk>>, t: RenewableType, i: int)
    requires |ts| > 0 && 0 <= i < |Generation(ts, ys)| && Generation(ts, ys)[i].name == ColumnName(t)
    ensures TypeColumn(ys, ts, t).Some?
    ensures multiset(Generation(ts, ys)[i].samples) == multiset(TypeColumn(ys, ts, t).value.samples)
  {
    var cols := Columns(FirstOccurrences(ts), u => TypeColumn(ys, ts, u));
    var u :| u in FirstOccurrences(ts) && TypeColumn(ys, ts, u) == Some(cols[i]);
    if u != t {
      KeysDistinct(u, t);
    }
  }

  /** A requested type has a column exactly when its gathered chunks yield one, and
      that column holds the same samples, reordered by time. */
  lemma GenerationColumns(ts: seq<RenewableType>, ys: seq<Yield<Chunk>>, t: RenewableType)
    requires |ts| > 0 && t in ts
    ensures ColumnName(t) in SeriesNames(Generation(ts, ys)) <==> TypeColumn(ys, ts, t).Some?
    ensures forall i :: 0 <= i < |Generation(ts, ys)| && Generation(ts, ys)[i].name == ColumnName(t) ==>
      multiset(Generation(ts, ys)[i].samples) == multiset(TypeColumn(ys, ts, t).value.samples)
  {
    GenerationHasColumn(ts, ys, t);
    forall i | 0 <= i < |Generation(ts, ys)| && Generation(ts, ys)[i].name == ColumnName(t)
      ensures multiset(Generation(ts, ys)[i].samples) == multiset(TypeColumn(ys, ts, t).value.samples)
    {
      GenerationColumnSamples(ts, ys, t, i);
    }
  }

  /** The number of jobs the loop runs: one per reached window and requested type. */
  function JobCount(windows: nat, types: nat): (r: nat)
    ensures r == windows * types
  {
    windows * types
  }

  /** The jobs of the window loop: none raises, so all of them run, each sleeping
      at most a minute between attempts. */
  function RenewableJobs(remote: (nat, nat) -> Reply<Chunk>, jobs: nat, maxRetries: int): (b: Batch<Chunk>)
    ensures b.raised == None && |b.outcomes| == jobs
    ensures forall k :: 0 <= k < jobs ==> b.outcomes[k] == RunWindow(Renewable, Empty, JobReplies(remote, k), 0, maxRetries).outcome
    ensures forall i :: 0 <= i < |b.sleeps| ==> b.sleeps[i] <= 60
    ensures forall k :: 0 <= k < jobs && b.outcomes[k].Kept? ==> !Empty(b.outcomes[k].value)
  {
    QuietPoliciesRunAll(Renewable, Empty, remote, 0, jobs, maxRetries);
    RunJobs(Renewable, Empty, remote, 0, jobs, maxRetries)
  }

  datatype Fetched = Fetched(columns: seq<Series>, savedAs: Option<string>)

  /** The CSV file of a range, named after the stripped dates: both can be read back
      from fixed positions of the name. */
  function GenerationFile(startDate: string, endDate: string): (r: string)
    ensures |Strip(startDate)| == 8 && |Strip(endDate)| == 8 ==>
      |r| == 42 && r[21..29] == Strip(startDate) && r[30..38] == Strip(endDate)
  {
    FileName("renewable_generation_", Strip(startDate), Strip(endDate))
  }

  /** Columns as `fetch_renewable_data` returns them: each sorted by time, named after
      a requested type, no name twice. */
  predicate Tidy(ts: seq<RenewableType>, cols: seq<Series>)
  {
    && (forall i :: 0 <= i < |cols| ==>
          SortedBy(cols[i].samples, SampleTime) && exists t :: t in ts && cols[i].name == ColumnName(t))
    && (forall i, j :: 0 <= i < j < |cols| ==> cols[i].name != cols[j].name)
  }

  /** What the loop over `all_data` and the save make of the jobs' outcomes. */
  function Assemble(ts: seq<RenewableType>, ys: seq<Yield<Chunk>>, saveWorks: bool, file: string): (r: Result<Fetched, Error>)
    ensures r.Err? ==> r.error == SaveFailed
    ensures r.Ok? ==> Tidy(ts, r.value.columns)
    ensures r.Ok? ==> r.value.savedAs == (if |r.value.columns| == 0 then None else Some(file))
    ensures r.Ok? && |ts| > 0 ==> r.value.columns == Generation(ts, ys)
  {
    if |ts| == 0 then Ok(Fetched([], None))
    else
      var cols := Generation(ts, ys);
      if |cols| == 0 then Ok(Fetched([], None))
      else if !saveWorks then Err(SaveFailed)
      else Ok(Fetched(cols, Some(file)))
  }

  /** `fetch_renewable_data(start_date, end_date, renewable_types, chunk_size, max_retries)`:
      `remote(k, a)` answers attempt `a` of job k, the query for window
      k / |types| and type types[k % |types|]. */
  function FetchRenewableData(startDate: string, endDate: string, types: Option<seq<RenewableType>>,
                              chunkSize: nat, maxRetries: int, saveWorks: bool,
                              remote: (nat, nat) -> Reply<Chunk>): (r: Run<Fetched>)
    ensures r.result.Err? ==> r.result.error in {BadDate, ZeroChunk, DateOverflow, SaveFailed}
    ensures ParseLooseRange(startDate, endDate).Err? ==>
      r == Run(Err(ParseLooseRange(startDate, endDate).error), [], 0)
    ensures forall i :: 0 <= i < |r.sleeps| ==> r.sleeps[i] <= 60
    ensures r.result.Ok? ==> Tidy(Requested(types), r.result.value.columns)
    ensures r.result.Ok? ==>
      r.result.value.savedAs == (if |r.result.value.columns| == 0 then None else Some(GenerationFile(startDate, endDate)))
  {
    var ts := Requested(types);
    match Walk(ParseLooseRange(startDate, endDate), chunkSize)
    case Err(x) => Run(Err(x), [], 0)
    case Ok((n, overflow)) =>
      var b := RenewableJobs(remote, JobCount(n, |ts|), maxRetries);
      if overflow then Run(Err(DateOverflow), b.sleeps, b.queries)
      else Run(Assemble(ts, b.outcomes, saveWorks, GenerationFile(startDate, endDate)), b.sleeps, b.queries)
  }

  /** A successful fetch ran its walk to the end, and then stores, for every
      requested type, a column exactly when the chunks that type's jobs kept yield
      one, with that column's samples (in time order). */
  lemma FetchedColumns(startDate: string, endDate: string, types: Option<seq<RenewableType>>,
                       chunkSize: nat, maxRetries: int, saveWorks: bool,
                       remote: (nat, nat) -> Reply<Chunk>, t: RenewableType)
    requires t in Requested(types)
    requires FetchRenewableData(startDate, endDate, types, chunkSize, maxRetries, saveWorks, remote).result.Ok?
    ensures Walk(ParseLooseRange(startDate, endDate), chunkSize).Ok?
    ensures !Walk(ParseLooseRange(startDate, endDate), chunkSize).value.1
    ensures var ts := Requested(types);
      var ys := RenewableJobs(remote, JobCount(Walk(ParseLooseRange(startDate, endDate), chunkSize).value.0, |ts|), maxRetries).outcomes;
      var cols := FetchRenewableData(startDate, endDate, types, chunkSize, maxRetries, saveWorks, remote).result.value.columns;
      && (ColumnName(t) in SeriesNames(cols) <==> TypeColumn(ys, ts, t).Some?)
      && (TypeColumn(ys, ts, t).Some? ==>
            forall i :: 0 <= i < |cols| && cols[i].name == ColumnName(t) ==>
              multiset(cols[i].samples) == multiset(TypeColumn(ys, ts, t).value.samples))
  {
    var ts := Requested(types);
    var r := FetchRenewableData(startDate, endDate, types, chunkSize, maxRetries, saveWorks, remote);
    var w := Walk(ParseLooseRange(startDate, endDate), chunkSize);
    assert w.Ok? && !w.value.1;
    var ys := RenewableJobs(remote, JobCount(w.value.0, |ts|), maxRetries).outcomes;
    assert r.result == Assemble(ts, ys, saveWorks, GenerationFile(startDate, endDate));
    GenerationColumns(ts, ys, t);
  }
}

=== FILE: retry.dfy ===
/** The per-window retry loops of the four fetchers, as one function driven by
    a policy.  The remote service is a script: `reply(a)` is what the query made
    on attempt `a` (0-based) of a window returns.  Sleeping is not performed but
    recorded: every `time.sleep(w)` the loop would make appears, in order, in
    the `sleeps` of the result. */
module Retry {
  import opened Base

  /** The exceptions a remote query can raise, grouped by the except clause that
      catches them. */
  datatype Fault =
    | NoMatchingData     // entsoe's NoMatchingDataError
    | ConnectionFailure  // requests.ConnectionError, itself a RequestException
    | RequestFailure     // any other requests RequestException (timeout, HTTP error)
    | OtherFailure       // any other Exception

  /** What one query returns: a table, something that is not a table, or an exception. */
  datatype Reply<+T> = Data(value: T) | Malformed | Raised(fault: Fault)

  /** Which loop is being run. */
  datatype Policy =
    | LoaderQuery  // EntsoeClient._query_load_and_forecast in data_loader.py
    | EntsoeLoad   // EntsoeClient.fetch_load_data in entsoe_client.py
    | Renewable    // RenewableClient.fetch_renewable_data
    | Weather      // WeatherClient.fetch_temperature_data

  predicate MayRaise(p: Policy)
  {
    p == LoaderQuery || p == EntsoeLoad
  }

  /** What the loop body does with one reply. */
  datatype Step<+T> =
    | Keep(value: T)        // append the table and break
    | KeepPlaceholder       // append the empty Actual Load / Forecasted Load table and break
    | Stop                  // break without appending
    | Again(pause: seq<nat>) // go on to the next attempt, after these sleeps
    | Raise(fault: Fault)   // the exception leaves the loop

  /** The except clauses of each loop.  A non-table reply makes the `.empty`
      test raise AttributeError in the two load loops, is refused with a
      ValueError caught by the generic clause in the renewable loop, and is an
      exception like any other in the weather loop. */
  function Decide<T>(p: Policy, isEmpty: T -> bool, reply: Reply<T>, attempt: nat, maxRetries: int): (s: Step<T>)
    ensures s.Raise? ==> MayRaise(p)
    ensures s.Keep? <==> reply.Data? && (p == LoaderQuery || !isEmpty(reply.value))
    ensures s.Keep? ==> s.value == reply.value
    ensures s == KeepPlaceholder <==> p == LoaderQuery && reply == Raised(NoMatchingData)
    ensures s.Again? ==> |s.pause| <= 1 && forall i :: 0 <= i < |s.pause| ==> s.pause[i] <= Pow2(attempt)
    ensures s == Raise(ConnectionFailure) ==> attempt == maxRetries - 1
    ensures reply == Raised(ConnectionFailure) && attempt != maxRetries - 1 ==> s.Again? && |s.pause| == 1
  {
    var last := attempt == maxRetries - 1;
    match p
    case LoaderQuery =>
      (match reply
       case Data(v) => Keep(v)
       case Malformed => Raise(OtherFailure)
       case Raised(NoMatchingData) => KeepPlaceholder
       case Raised(ConnectionFailure) => if last then Raise(ConnectionFailure) else Again([Pow2(attempt)])
       case Raised(f) => Raise(f))
    case EntsoeLoad =>
      (match reply
       case Data(v) => if isEmpty(v) then Again([]) else Keep(v)
       case Malformed => Raise(OtherFailure)
       case Raised(NoMatchingData) => Stop
       case Raised(ConnectionFailure) => if last then Raise(ConnectionFailure) else Again([Pow2(attempt)])
       case Raised(f) => Raise(f))
    case Renewable =>
      (match reply
       case Data(v) => if isEmpty(v) then Again([]) else Keep(v)
       case Malformed => Stop
       case Raised(f) =>
         if f == ConnectionFailure || f == RequestFailure then Again([Min(Pow2(attempt), 60)]) else Stop)
    case Weather =>
      (match reply
       case Data(v) => if isEmpty(v) then Again([]) else Keep(v)
       case _ => if last then Again([]) else Again([Pow2(attempt)]))
  }

  /** What a window contributes to the collected list. */
  datatype Yield<+T> = Nothing | Kept(value: T) | Placeholder

  datatype Attempts<+T> = Attempts(outcome: Yield<T>, sleeps: seq<nat>, queries: nat, raised: Option<Fault>)

  /** `for attempt in range(attempt, maxRetries)` over one window. */
  function RunWindow<T>(p: Policy, isEmpty: T -> bool, reply: nat -> Reply<T>, attempt: nat, maxRetries: int): (w: Attempts<T>)
    decreases maxRetries - attempt
    ensures w.queries == 0 <==> attempt >= maxRetries
    ensures w.queries <= Max(maxRetries - attempt, 0)
    ensures |w.sleeps| <= w.queries
    ensures p != Renewable && w.queries > 0 ==> |w.sleeps| < w.queries
    ensures p == Renewable ==> forall i :: 0 <= i < |w.sleeps| ==> w.sleeps[i] <= 60
    ensures w.raised.Some? ==> MayRaise(p) && w.outcome == Nothing && w.raised.value != NoMatchingData
    ensures w.raised.Some? ==>
      w.queries > 0 &&
      var r := reply(attempt + w.queries - 1);
      r == Raised(w.raised.value) || (r == Malformed && w.raised.value == OtherFailure)
    ensures w.outcome.Kept? ==> w.queries > 0 && reply(attempt + w.queries - 1) == Data(w.outcome.value)
    ensures w.outcome.Kept? && p != LoaderQuery ==> !isEmpty(w.outcome.value)
    ensures w.outcome.Placeholder? ==>
      p == LoaderQuery && w.queries > 0 && reply(attempt + w.queries - 1) == Raised(NoMatchingData)
  {
    if attempt >= maxRetries then Attempts(Nothing, [], 0, None)
    else
      match Decide(p, isEmpty, reply(attempt), attempt, maxRetries)
      case Keep(v) => Attempts(Kept(v), [], 1, None)
      case KeepPlaceholder => Attempts(Placeholder, [], 1, None)
      case Stop => Attempts(Nothing, [], 1, None)
      case Raise(f) => Attempts(Nothing, [], 1, Some(f))
      case Again(pause) =>
        var rest := RunWindow(p, isEmpty, reply, attempt + 1, maxRetries);
        Attempts(rest.outcome, pause + rest.sleeps, rest.queries + 1, rest.raised)
  }

  /** 2^a, 2^(a+1), ..., k of them: the uncapped backoff from attempt a on. */
  function Doubling(a: nat, k: nat): (r: seq<nat>)
    ensures |r| == k
    ensures forall i :: 0 <= i < k ==> r[i] == Pow2(a + i)
    decreases k
  {
    if k == 0 then [] else [Pow2(a)] + Doubling(a + 1, k - 1)
  }

  /** min(2^a, 60), min(2^(a+1), 60), ..., k of them: the renewable client's backoff. */
  function CappedDoubling(a: nat, k: nat): (r: seq<nat>)
    ensures |r| == k
    ensures forall i :: 0 <= i < k ==> r[i] == Min(Pow2(a + i), 60)
    decreases k
  {
    if k == 0 then [] else [Min(Pow2(a), 60)] + CappedDoubling(a + 1, k - 1)
  }

  /** A load loop facing a ConnectionError on every attempt queries max_retries
      times, sleeps 2^0 .. 2^(max_retries-2) between the queries, and re-raises. */
  lemma {:induction false} PersistentConnectionFailure<T>(p: Policy, isEmpty: T -> bool, reply: nat -> Reply<T>, a: nat, n: int)
    requires p == LoaderQuery || p == EntsoeLoad
    requires a < n
    requires forall k :: a <= k < n ==> reply(k) == Raised(ConnectionFailure)
    ensures RunWindow(p, isEmpty, reply, a, n) == Attempts(Nothing, Doubling(a, n - 1 - a), n - a, Some(ConnectionFailure))
    decreases n - a
  {
    if a < n - 1 {
      PersistentConnectionFailure(p, isEmpty, reply, a + 1, n);
      assert [Pow2(a)] + Doubling(a + 1, n - 2 - a) == Doubling(a, n - 1 - a);
    }
  }

  /** The renewable loop facing a request exception on every attempt sleeps after
      each of the max_retries queries, min(2^k, 60) after attempt k, and never raises. */
  lemma {:induction false} PersistentRequestFailure<T>(isEmpty: T -> bool, reply: nat -> Reply<T>, a: nat, n: int)
    requires a <= n
    requires forall k :: a <= k < n ==> reply(k) == Raised(ConnectionFailure) || reply(k) == Raised(RequestFailure)
    ensures RunWindow(Renewable, isEmpty, reply, a, n) == Attempts(Nothing, CappedDoubling(a, n - a), n - a, None)
    decreases n - a
  {
    if a < n {
      PersistentRequestFailure(isEmpty, reply, a + 1, n);
      assert [Min(Pow2(a), 60)] + CappedDoubling(a + 1, n - 1 - a) == CappedDoubling(a, n - a);
    }
  }

  /** The weather loop failing on every attempt sleeps 2^k after every attempt k
      but the last, then gives up on the window without raising. */
  lemma {:induction false} PersistentWeatherFailure<T>(isEmpty: T -> bool, reply: nat -> Reply<T>, a: nat, n: int)
    requires a < n
    requires forall k :: a <= k < n ==> !reply(k).Data?
    ensures RunWindow(Weather, isEmpty, reply, a, n) == Attempts(Nothing, Doubling(a, n - 1 - a), n - a, None)
    decreases n - a
  {
    if a < n - 1 {
      PersistentWeatherFailure(isEmpty, reply, a + 1, n);
      assert [Pow2(a)] + Doubling(a + 1, n - 2 - a) == Doubling(a, n - 1 - a);
    }
  }

  /** The loops that test for an empty table re-query it at once: only empty
      replies means max_retries queries, no sleep, nothing kept. */
  lemma {:induction false} EmptyRepliesRequeried<T>(p: Policy, isEmpty: T -> bool, reply: nat -> Reply<T>, a: nat, n: int)
    requires p != LoaderQuery
    requires forall k :: a <= k < n ==> reply(k).Data? && isEmpty(reply(k).value)
    ensures RunWindow(p, isEmpty, reply, a, n) == Attempts(Nothing, [], Max(n - a, 0), None)
    decreases n - a
  {
    if a < n {
      EmptyRepliesRequeried(p, isEmpty, reply, a + 1, n);
    }
  }

  /** NoMatchingDataError is never retried: one query, then the placeholder in the
      data loader and nothing in the load and renewable clients. */
  lemma NoDataNotRetried<T>(p: Policy, isEmpty: T -> bool, reply: nat -> Reply<T>, a: nat, n: int)
    requires p != Weather
    requires a < n
    requires reply(a) == Raised(NoMatchingData)
    ensures var w := RunWindow(p, isEmpty, reply, a, n);
      w.queries == 1 && w.sleeps == [] && w.raised == None
      && w.outcome == (if p == LoaderQuery then Placeholder else Nothing)
  {
  }

  /** The data loader's query loop, given at least one attempt, either raises or
      contributes exactly one table to the collected list. */
  lemma LoaderQueryAlwaysYields<T>(isEmpty: T -> bool, reply: nat -> Reply<T>, a: nat, n: int)
    requires a < n
    ensures var w := RunWindow(LoaderQuery, isEmpty, reply, a, n);
      w.raised.None? ==> w.outcome != Nothing
    decreases n - a
  {
    if a < n - 1 {
      LoaderQueryAlwaysYields(isEmpty, reply, a + 1, n);
    }
  }

  /** The reply script of job j: attempt a of job j receives remote(j, a). */
  function JobReplies<T>(remote: (nat, nat) -> Reply<T>, j: nat): nat -> Reply<T>
  {
    (a: nat) => remote(j, a)
  }

  datatype Batch<+T> = Batch(outcomes: seq<Yield<T>>, sleeps: seq<nat>, queries: nat, raised: Option<Fault>)

  /** Jobs j .. count-1 in order, each with its own retry loop; an exception that
      leaves a loop ends the whole batch. */
  function RunJobs<T>(p: Policy, isEmpty: T -> bool, remote: (nat, nat) -> Reply<T>, j: nat, count: nat, maxRetries: int): (b: Batch<T>)
    requires j <= count
    decreases count - j
    ensures b.raised.None? ==> |b.outcomes| == count - j
    ensures b.raised.None? ==> forall k :: 0 <= k < |b.outcomes| ==>
      var w := RunWindow(p, isEmpty, JobReplies(remote, j + k), 0, maxRetries);
      b.outcomes[k] == w.outcome && w.raised == None
    ensures b.raised.Some? ==> MayRaise(p) && |b.outcomes| < count - j && b.raised.value != NoMatchingData
    ensures p == Renewable ==> forall i :: 0 <= i < |b.sleeps| ==> b.sleeps[i] <= 60
    ensures p != LoaderQuery ==>
      forall k :: 0 <= k < |b.outcomes| && b.outcomes[k].Kept? ==> !isEmpty(b.outcomes[k].value)
    ensures maxRetries <= 0 ==>
      b.raised == None && b.sleeps == [] && b.queries == 0 && forall k :: 0 <= k < |b.outcomes| ==> b.outcomes[k] == Nothing
  {
    if j >= count then Batch([], [], 0, None)
    else
      var w := RunWindow(p, isEmpty, JobReplies(remote, j), 0, maxRetries);
      if w.raised.Some? then Batch([], w.sleeps, w.queries, w.raised)
      else
        var rest := RunJobs(p, isEmpty, remote, j + 1, count, maxRetries);
        var b := Batch([w.outcome] + rest.outcomes, w.sleeps + rest.sleeps, w.queries + rest.queries, rest.raised);
        assert forall k :: 1 <= k < |b.outcomes| ==> b.outcomes[k] == rest.outcomes[k - 1];
        assert forall i :: |w.sleeps| <= i < |b.sleeps| ==> b.sleeps[i] == rest.sleeps[i - |w.sleeps|];
        b
  }

  /** Each job makes at most max_retries queries. */
  lemma {:induction false} JobsQueryBound<T>(p: Policy, isEmpty: T -> bool, remote: (nat, nat) -> Reply<T>, j: nat, count: nat, maxRetries: int)
    requires j <= count
    ensures RunJobs(p, isEmpty, remote, j, count, maxRetries).queries <= (count - j) * Max(maxRetries, 0)
    decreases count - j
  {
    if j < count {
      var m := Max(maxRetries, 0);
      var w := RunWindow(p, isEmpty, JobReplies(remote, j), 0, maxRetries);
      assert w.queries <= m;
      MulStep(count - j, m);
      JobsQueryBound(p, isEmpty, remote, j + 1, count, maxRetries);
      var rest := RunJobs(p, isEmpty, remote, j + 1, count, maxRetries);
      assert rest.queries <= (count - j - 1) * m;
      assert RunJobs(p, isEmpty, remote, j, count, maxRetries).queries <= w.queries + rest.queries;
    }
  }

  lemma MulStep(k: int, m: int)
    requires k >= 1 && m >= 0
    ensures k * m == (k - 1) * m + m
    ensures (k - 1) * m >= 0
  {
  }

  /** The policies that never raise run every job. */
  lemma {:induction false} QuietPoliciesRunAll<T>(p: Policy, isEmpty: T -> bool, remote: (nat, nat) -> Reply<T>, j: nat, count: nat, maxRetries: int)
    requires !MayRaise(p)
    requires j <= count
    ensures RunJobs(p, isEmpty, remote, j, count, maxRetries).raised == None
    decreases count - j
  {
    if j < count {
      QuietPoliciesRunAll(p, isEmpty, remote, j + 1, count, maxRetries);
    }
  }

  /** Each job's loop run on its own, in job order: the reference for what a batch
      collects. */
  function WindowOutcomes<T>(p: Policy, isEmpty: T -> bool, remote: (nat, nat) -> Reply<T>, n: nat, maxRetries: int): (r: seq<Yield<T>>)
    ensures |r| == n
  {
    seq(n, k requires 0 <= k < n => RunWindow(p, isEmpty, JobReplies(remote, k), 0, maxRetries).outcome)
  }

  /** A batch that did not raise collects exactly what each job's loop yields on its own. */
  lemma BatchMatchesWindows<T>(p: Policy, isEmpty: T -> bool, remote: (nat, nat) -> Reply<T>, n: nat, maxRetries: int)
    ensures var b := RunJobs(p, isEmpty, remote, 0, n, maxRetries);
      b.raised.None? ==> b.outcomes == WindowOutcomes(p, isEmpty, remote, n, maxRetries)
  {
    var b := RunJobs(p, isEmpty, remote, 0, n, maxRetries);
    if b.raised.None? {
      forall k | 0 <= k < n ensures b.outcomes[k] == WindowOutcomes(p, isEmpty, remote, n, maxRetries)[k] {
        assert JobReplies(remote, 0 + k) == JobReplies(remote, k);
      }
    }
  }

  /** The tables kept, in job order. */
  function Collected<T>(ys: seq<Yield<T>>): (r: seq<T>)
    ensures |r| <= |ys|
    ensures forall i :: 0 <= i < |r| ==> Kept(r[i]) in ys
    ensures forall i :: 0 <= i < |ys| && ys[i].Kept? ==> ys[i].value in r
    ensures (forall i :: 0 <= i < |ys| ==> !ys[i].Kept?) ==> r == []
  {
    if |ys| == 0 then []
    else
      var rest := Collected(ys[1..]);
      assert ys == [ys[0]] + ys[1..];
      if ys[0].Kept? then [ys[0].value] + rest else rest
  }

  /** The loops that test for emptiness keep only non-empty tables. */
  lemma CollectedNonEmpty<T>(isEmpty: T -> bool, ys: seq<Yield<T>>)
    requires forall k :: 0 <= k < |ys| && ys[k].Kept? ==> !isEmpty(ys[k].value)
    ensures forall i :: 0 <= i < |Collected(ys)| ==> !isEmpty(Collected(ys)[i])
  {
    var c := Collected(ys);
    forall i | 0 <= i < |c| ensures !isEmpty(c[i]) {
      var k :| 0 <= k < |ys| && ys[k] == Kept(c[i]);
    }
  }
}

=== FILE: sorting.dfy ===
/** Sorting over an arbitrary strict total order.  The normaliser sorts
    timestamps, the renewable client sorts its combined index, the weather
    client's pivot orders station ids, and medians sort reals; all of them use
    the insertion sorts below. */
module Sorting {

  ghost predicate StrictTotalOrder<T(!new)>(lt: (T, T) -> bool)
  {
    && (forall x :: !lt(x, x))
    && (forall x, y, z :: lt(x, y) && lt(y, z) ==> lt(x, z))
    && (forall x, y :: x != y ==> lt(x, y) || lt(y, x))
  }

  /** No element is strictly below an element placed before it. */
  predicate Sorted<T>(s: seq<T>, lt: (T, T) -> bool)
  {
    forall i, j :: 0 <= i < j < |s| ==> !lt(s[j], s[i])
  }

  /** Every element is strictly below every element placed after it. */
  predicate StrictlySorted<T>(s: seq<T>, lt: (T, T) -> bool)
  {
    forall i, j :: 0 <= i < j < |s| ==> lt(s[i], s[j])
  }

  function IntLess(a: int, b: int): bool { a < b }

  function RealLess(a: real, b: real): bool { a < b }

  /** Python's comparison of strings: code point by code point, a proper prefix first. */
  function LexLess(a: string, b: string): bool
  {
    if |b| == 0 then false
    else if |a| == 0 then true
    else if a[0] != b[0] then a[0] < b[0]
    else LexLess(a[1..], b[1..])
  }

  lemma IntLessIsStrictTotal()
    ensures StrictTotalOrder(IntLess)
  {
  }

  lemma RealLessIsStrictTotal()
    ensures StrictTotalOrder(RealLess)
  {
  }

  lemma {:induction false} LexLessIrreflexive(a: string)
    ensures !LexLess(a, a)
  {
    if |a| > 0 {
      LexLessIrreflexive(a[1..]);
    }
  }

  lemma {:induction false} LexLessTransitive(a: string, b: string, c: string)
    requires LexLess(a, b) && LexLess(b, c)
    ensures LexLess(a, c)
  {
    if |a| > 0 && a[0] == b[0] && b[0] == c[0] {
      LexLessTransitive(a[1..], b[1..], c[1..]);
    }
  }

  lemma {:induction false} LexLessConnected(a: string, b: string)
    requires a != b
    ensures LexLess(a, b) || LexLess(b, a)
  {
    if |a| > 0 && |b| > 0 && a[0] == b[0] {
      assert a == [a[0]] + a[1..] && b == [b[0]] + b[1..];
      LexLessConnected(a[1..], b[1..]);
    }
  }

  lemma LexLessIsStrictTotal()
    ensures StrictTotalOrder(LexLess)
  {
    forall a | true ensures !LexLess(a, a) {
      LexLessIrreflexive(a);
    }
    forall a, b, c | LexLess(a, b) && LexLess(b, c) ensures LexLess(a, c) {
      LexLessTransitive(a, b, c);
    }
    forall a, b | a != b ensures LexLess(a, b) || LexLess(b, a) {
      LexLessConnected(a, b);
    }
  }

  /** Places `x` into a sorted sequence after every element not above it. */
  function Insert<T(!new)>(x: T, s: seq<T>, lt: (T, T) -> bool): (r: seq<T>)
    requires StrictTotalOrder(lt)
    requires Sorted(s, lt)
    ensures Sorted(r, lt)
    ensures multiset(r) == multiset(s) + multiset{x}
  {
    if |s| == 0 then [x]
    else if lt(x, s[0]) then
      PrependSorted(x, s, lt);
      [x] + s
    else
      var rest := Insert(x, s[1..], lt);
      assert s == [s[0]] + s[1..];
      HeadStaysFirst(x, s, rest, lt);
      [s[0]] + rest
  }

  /** An element below the head of a sorted sequence can go in front of it. */
  lemma PrependSorted<T(!new)>(x: T, s: seq<T>, lt: (T, T) -> bool)
    requires StrictTotalOrder(lt)
    requires Sorted(s, lt) && |s| > 0 && lt(x, s[0])
    ensures Sorted([x] + s, lt)
  {
    var r := [x] + s;
    forall i, j | 0 <= i < j < |r| ensures !lt(r[j], r[i]) {
      if i == 0 {
        assert r[j] == s[j - 1];
        if j > 1 {
          assert !lt(s[j - 1], s[0]);
        }
      } else {
        assert r[i] == s[i - 1] && r[j] == s[j - 1];
      }
    }
  }

  /** The head of a sorted sequence can stay in front of the rest with `x`
      inserted, when `x` is not below it. */
  lemma HeadStaysFirst<T(!new)>(x: T, s: seq<T>, rest: seq<T>, lt: (T, T) -> bool)
    requires Sorted(s, lt) && |s| > 0 && !lt(x, s[0])
    requires Sorted(rest, lt) && multiset(rest) == multiset(s[1..]) + multiset{x}
    ensures Sorted([s[0]] + rest, lt)
  {
    var r := [s[0]] + rest;
    forall i, j | 0 <= i < j < |r| ensures !lt(r[j], r[i]) {
      if i == 0 {
        assert r[j] == rest[j - 1];
        assert rest[j - 1] in multiset(rest);
        if rest[j - 1] != x {
          assert rest[j - 1] in multiset(s[1..]);
          var k :| 0 <= k < |s[1..]| && s[1..][k] == rest[j - 1];
          assert s[k + 1] == rest[j - 1];
        }
      } else {
        assert r[i] == rest[i - 1] && r[j] == rest[j - 1];
      }
    }
  }

  /** Insertion sort: a sorted permutation of `s`. */
  function Sort<T(!new)>(s: seq<T>, lt: (T, T) -> bool): (r: seq<T>)
    requires StrictTotalOrder(lt)
    ensures Sorted(r, lt)
    ensures multiset(r) == multiset(s)
  {
    if |s| == 0 then []
    else
      assert s == [s[0]] + s[1..];
      Insert(s[0], Sort(s[1..], lt), lt)
  }

  /** Places `x` into a strictly sorted sequence unless it is already there. */
  function InsertDistinct<T(==,!new)>(x: T, s: seq<T>, lt: (T, T) -> bool): (r: seq<T>)
    requires StrictTotalOrder(lt)
    requires StrictlySorted(s, lt)
    ensures StrictlySorted(r, lt)
    ensures forall e :: e in r <==> e in s || e == x
  {
    if |s| == 0 then [x]
    else if lt(x, s[0]) then [x] + s
    else if x == s[0] then s
    else
      var rest := InsertDistinct(x, s[1..], lt);
      assert s == [s[0]] + s[1..];
      assert lt(s[0], x);
      assert forall k :: 0 <= k < |rest| ==> rest[k] in s[1..] || rest[k] == x;
      [s[0]] + rest
  }

  /** The distinct elements of `s`, each once, in increasing order. */
  function SortDistinct<T(==,!new)>(s: seq<T>, lt: (T, T) -> bool): (r: seq<T>)
    requires StrictTotalOrder(lt)
    ensures StrictlySorted(r, lt)
    ensures forall e :: e in r <==> e in s
  {
    if |s| == 0 then []
    else
      assert s == [s[0]] + s[1..];
      InsertDistinct(s[0], SortDistinct(s[1..], lt), lt)
  }

  /** The head of a strictly sorted sequence is below all its other elements. */
  lemma HeadIsLeast<T(!new)>(a: seq<T>, e: T, lt: (T, T) -> bool)
    requires StrictlySorted(a, lt)
    requires e in a
    ensures a[0] == e || lt(a[0], e)
  {
    var k :| 0 <= k < |a| && a[k] == e;
    if k > 0 {
      assert lt(a[0], a[k]);
    }
  }

  lemma NonEmptyShares<T>(a: seq<T>, b: seq<T>)
    requires |a| > 0
    requires forall e :: e in a ==> e in b
    ensures |b| > 0
  {
    assert a[0] in b;
  }

  /** A strictly sorted sequence is determined by its elements. */
  lemma {:induction false} StrictlySortedUnique<T(!new)>(a: seq<T>, b: seq<T>, lt: (T, T) -> bool)
    requires StrictTotalOrder(lt)
    requires StrictlySorted(a, lt) && StrictlySorted(b, lt)
    requires forall e :: e in a <==> e in b
    ensures a == b
  {
    if |a| == 0 || |b| == 0 {
      if |a| > 0 {
        NonEmptyShares(a, b);
        assert false;
      }
      if |b| > 0 {
        NonEmptyShares(b, a);
        assert false;
      }
    } else {
      HeadIsLeast(a, b[0], lt);
      HeadIsLeast(b, a[0], lt);
      forall e ensures e in a[1..] <==> e in b[1..] {
        if e in a[1..] {
          var k :| 1 <= k < |a| && a[k] == e;
          assert lt(a[0], e);
          assert e in b;
        }
        if e in b[1..] {
          var k :| 1 <= k < |b| && b[k] == e;
          assert lt(b[0], e);
          assert e in a;
        }
      }
      StrictlySortedUnique(a[1..], b[1..], lt);
      assert a == [a[0]] + a[1..] && b == [b[0]] + b[1..];
    }
  }

  /** Keys never decrease along the sequence. */
  predicate SortedBy<T>(s: seq<T>, key: T -> int)
  {
    forall i, j :: 0 <= i < j < |s| ==> key(s[i]) <= key(s[j])
  }

  /** Places `x` after every element whose key is not above its own. */
  function InsertBy<T>(x: T, s: seq<T>, key: T -> int): (r: seq<T>)
    requires SortedBy(s, key)
    ensures SortedBy(r, key)
    ensures multiset(r) == multiset(s) + multiset{x}
  {
    if |s| == 0 then [x]
    else if key(x) < key(s[0]) then
      assert forall j :: 0 <= j < |s| ==> key(s[0]) <= key(s[j]);
      [x] + s
    else
      var rest := InsertBy(x, s[1..], key);
      assert s == [s[0]] + s[1..];
      HeadStaysFirstBy(x, s, rest, key);
      [s[0]] + rest
  }

  lemma HeadStaysFirstBy<T>(x: T, s: seq<T>, rest: seq<T>, key: T -> int)
    requires SortedBy(s, key) && |s| > 0 && key(s[0]) <= key(x)
    requires SortedBy(rest, key) && multiset(rest) == multiset(s[1..]) + multiset{x}
    ensures SortedBy([s[0]] + rest, key)
  {
    var r := [s[0]] + rest;
    forall j | 0 < j < |r| ensures key(r[0]) <= key(r[j]) {
      assert r[j] == rest[j - 1];
      assert rest[j - 1] in multiset(rest);
      if rest[j - 1] != x {
        assert rest[j - 1] in multiset(s[1..]);
        var k :| 0 <= k < |s[1..]| && s[1..][k] == rest[j - 1];
        assert s[k + 1] == rest[j - 1];
      }
    }
    forall i, j | 0 < i < j < |r| ensures key(r[i]) <= key(r[j]) {
      assert r[i] == rest[i - 1] && r[j] == rest[j - 1];
    }
  }

  /** Insertion sort by an integer key: a permutation of `s` with non-decreasing keys. */
  function SortBy<T>(s: seq<T>, key: T -> int): (r: seq<T>)
    ensures SortedBy(r, key)
    ensures multiset(r) == multiset(s)
  {
    if |s| == 0 then []
    else
      assert s == [s[0]] + s[1..];
      InsertBy(s[0], SortBy(s[1..], key), key)
  }
}

=== FILE: stats.dfy ===
/** The aggregates pandas applies to a column or to a group of rows: sum, mean and
    median, each of which skips missing cells.  Values are exact reals: the
    rounding of IEEE doubles is not modelled. */
module Stats {
  import opened Base
  import opened Sorting

  function Sum(s: seq<real>): real
  {
    if |s| == 0 then 0.0 else s[0] + Sum(s[1..])
  }

  /** The cells that are not missing, in order: what `skipna=True` aggregates see. */
  function Present(cells: seq<Option<real>>): (r: seq<real>)
    ensures |r| <= |cells|
    ensures forall x :: x in r <==> Some(x) in cells
  {
    if |cells| == 0 then []
    else
      var rest := Present(cells[1..]);
      assert cells == [cells[0]] + cells[1..];
      if cells[0].Some? then [cells[0].value] + rest else rest
  }

  /** Every value lies in [lo, hi]. */
  predicate Between(s: seq<real>, lo: real, hi: real)
  {
    forall i :: 0 <= i < |s| ==> lo <= s[i] <= hi
  }

  lemma {:induction false} SumBounds(s: seq<real>, lo: real, hi: real)
    requires Between(s, lo, hi)
    ensures |s| as real * lo <= Sum(s) <= |s| as real * hi
  {
    if |s| > 0 {
      assert Between(s[1..], lo, hi);
      SumBounds(s[1..], lo, hi);
    }
  }

  /** `mean()`: NaN when there is nothing to average. */
  function Mean(s: seq<real>): (r: Option<real>)
    ensures r.Some? <==> |s| > 0
    ensures |s| > 0 ==> Sum(s) == |s| as real * r.value
  {
    if |s| == 0 then None else Some(Sum(s) / |s| as real)
  }

  /** A mean lies within any bounds of the values averaged. */
  lemma MeanBetween(s: seq<real>, lo: real, hi: real)
    requires |s| > 0 && Between(s, lo, hi)
    ensures lo <= Mean(s).value <= hi
  {
    SumBounds(s, lo, hi);
    var n := |s| as real;
    var m := Mean(s).value;
    assert n * m == Sum(s);
    assert n * (m - lo) >= 0.0 && n * (hi - m) >= 0.0;
  }

  /** The mean of equal values is that value. */
  lemma MeanConstant(s: seq<real>, c: real)
    requires |s| > 0 && forall i :: 0 <= i < |s| ==> s[i] == c
    ensures Mean(s) == Some(c)
  {
    MeanBetween(s, c, c);
  }

  /** `min()`: the least value, NaN when there are none. */
  function Least(s: seq<real>): (r: Option<real>)
    ensures r.Some? <==> |s| > 0
    ensures r.Some? ==> r.value in s && forall i :: 0 <= i < |s| ==> r.value <= s[i]
  {
    if |s| == 0 then None
    else match Least(s[1..])
      case None => Some(s[0])
      case Some(m) => Some(if s[0] <= m then s[0] else m)
  }

  /** `max()`: the greatest value, NaN when there are none. */
  function Greatest(s: seq<real>): (r: Option<real>)
    ensures r.Some? <==> |s| > 0
    ensures r.Some? ==> r.value in s && forall i :: 0 <= i < |s| ==> s[i] <= r.value
  {
    if |s| == 0 then None
    else match Greatest(s[1..])
      case None => Some(s[0])
      case Some(m) => Some(if m <= s[0] then s[0] else m)
  }

  /** `median()`: the middle of the sorted values, or the average of the two middle
      ones when their number is even; NaN when there are none. */
  function Median(s: seq<real>): (r: Option<real>)
    ensures r.Some? <==> |s| > 0
  {
    if |s| == 0 then None
    else
      RealLessIsStrictTotal();
      var t := Sort(s, RealLess);
      SortedLength(s, t);
      var m := |t| / 2;
      if |t| % 2 == 1 then Some(t[m]) else Some((t[m - 1] + t[m]) / 2.0)
  }

  lemma SortedLength(s: seq<real>, t: seq<real>)
    requires multiset(t) == multiset(s)
    ensures |t| == |s|
  {
    assert |multiset(t)| == |t| && |multiset(s)| == |s|;
  }

  /** A median lies within any bounds of its values. */
  lemma MedianBetween(s: seq<real>, lo: real, hi: real)
    requires |s| > 0 && Between(s, lo, hi)
    ensures lo <= Median(s).value <= hi
  {
    RealLessIsStrictTotal();
    var t := Sort(s, RealLess);
    SortedLength(s, t);
    forall i | 0 <= i < |t| ensures lo <= t[i] <= hi {
      assert t[i] in multiset(s);
    }
  }

  /** The median of one value is that value. */
  lemma MedianSingle(x: real)
    ensures Median([x]) == Some(x)
  {
    MedianBetween([x], x, x);
  }

  /** Sorting two values puts the smaller first. */
  lemma SortTwo(a: real, b: real)
    ensures StrictTotalOrder(RealLess) && Sort([a, b], RealLess) == if b < a then [b, a] else [a, b]
  {
    RealLessIsStrictTotal();
    assert [a, b][1..] == [b] && [b][1..] == [];
    assert Sort([b], RealLess) == Insert(b, [], RealLess) == [b];
    assert Sort([a, b], RealLess) == Insert(a, [b], RealLess);
  }

  /** The median of two values is their average, whatever their order. */
  lemma MedianOfTwo(a: real, b: real)
    ensures Median([a, b]) == Some((a + b) / 2.0)
  {
    SortTwo(a, b);
  }

  /** Readings 10 and 20 at one timestamp collapse to 15. */
  lemma MedianTenTwenty()
    ensures Median([10.0, 20.0]) == Some(15.0)
  {
    MedianOfTwo(10.0, 20.0);
  }
}

=== FILE: weather.dfy ===
/** `WeatherClient.fetch_temperature_data` in `src/data/clients/weather_client.py`:
    the range is cut into windows of `chunk_size` days, each window is requested
    from the DWD observation service under its two `YYYYMMDD` labels with a retry
    loop that never raises, and the rows collected are pivoted into one column
    per station, renamed after the city and converted from Kelvin to Celsius. */
module Weather {
  import opened Base
  import opened Sorting
  import opened Calendar
  import opened Windows
  import opened Retry
  import opened Frames
  import opened Fetching
  import opened Stats

  /** The stations, in declaration order. */
  datatype WeatherStation = Berlin | Hamburg | Frankfurt

  const AllStations: seq<WeatherStation> := [Berlin, Hamburg, Frankfurt]

  /** The DWD station id each member carries. */
  function Id(s: WeatherStation): string
  {
    match s
    case Berlin => "00433"
    case Hamburg => "01975"
    case Frankfurt => "03379"
  }

  /** The member's name, lower-cased. */
  function Key(s: WeatherStation): string
  {
    match s
    case Berlin => "berlin"
    case Hamburg => "hamburg"
    case Frankfurt => "frankfurt"
  }

  function ColumnName(s: WeatherStation): string
  {
    "temperature_" + Key(s)
  }

  /** The ids the request filters on, in enum order. */
  const StationIds: seq<string> := [Id(Berlin), Id(Hamburg), Id(Frankfurt)]

  /** The column labels assigned after the pivot, in enum order. */
  const ColumnNames: seq<string> := [ColumnName(Berlin), ColumnName(Hamburg), ColumnName(Frankfurt)]

  /** Enum order is already the order of the ids as strings, and stations differ
      in id and in column name. */
  lemma StationIdsOrdered()
    ensures StrictlySorted(StationIds, LexLess)
    ensures forall k :: 0 <= k < 3 ==> StationIds[k] == Id(AllStations[k]) && ColumnNames[k] == ColumnName(AllStations[k])
    ensures forall j, k :: 0 <= j < k < 3 ==> ColumnNames[j] != ColumnNames[k]
  {
    assert ColumnNames[0][12] != ColumnNames[1][12] && ColumnNames[0][12] != ColumnNames[2][12];
    assert ColumnNames[1][12] != ColumnNames[2][12];
  }

  // ---------------------------------------------------------------------------
  // The requests

  /** One request: `start_date` and `end_date` as `strftime('%Y%m%d')` writes them. */
  datatype Request = Request(startLabel: string, endLabel: string)

  /** Every window runs between two existing dates. */
  predicate DateWindows(ws: seq<Window>)
  {
    forall i :: 0 <= i < |ws| ==> 1 <= ws[i].start < ws[i].end <= MaxOrdinal
  }

  lemma SplitDateWindows(a: Date, b: Date, chunkSize: nat)
    requires Valid(a) && Valid(b) && chunkSize > 0
    ensures DateWindows(Split(Ordinal(a), Ordinal(b), chunkSize))
  {
    OrdinalRoundTrip(a);
    OrdinalRoundTrip(b);
    WindowsInRange(Ordinal(a), Ordinal(b), chunkSize);
  }

  /** The labels of each window, its day ordinals written back as dates. */
  function ChunkRequests(ws: seq<Window>): (r: seq<Request>)
    requires DateWindows(ws)
    ensures |r| == |ws|
  {
    if |ws| == 0 then []
    else
      assert DateWindows(ws[1..]) by {
        forall i | 0 <= i < |ws[1..]| ensures 1 <= ws[1..][i].start < ws[1..][i].end <= MaxOrdinal {
          assert ws[1..][i] == ws[i + 1];
        }
      }
      [Request(Format(FromOrdinal(ws[0].start)), Format(FromOrdinal(ws[0].end)))] + ChunkRequests(ws[1..])
  }

  /** Request i carries window i's first and last day as `YYYYMMDD`. */
  lemma {:induction false} ChunkRequestAt(ws: seq<Window>, i: nat)
    requires DateWindows(ws) && i < |ws|
    ensures ChunkRequests(ws)[i] == Request(Format(FromOrdinal(ws[i].start)), Format(FromOrdinal(ws[i].end)))
  {
    if i > 0 {
      assert DateWindows(ws[1..]) by {
        forall j | 0 <= j < |ws[1..]| ensures 1 <= ws[1..][j].start < ws[1..][j].end <= MaxOrdinal {
          assert ws[1..][j] == ws[j + 1];
        }
      }
      ChunkRequestAt(ws[1..], i - 1);
    }
  }

  /** The requests of the windows between two dates. */
  function Requests(a: Date, b: Date, chunkSize: nat): (r: seq<Request>)
    requires Valid(a) && Valid(b) && chunkSize > 0
    ensures |r| == |Split(Ordinal(a), Ordinal(b), chunkSize)|
  {
    SplitDateWindows(a, b, chunkSize);
    ChunkRequests(Split(Ordinal(a), Ordinal(b), chunkSize))
  }

  /** Requests of windows that follow each other share their boundary label. */
  lemma {:induction false} ChunkRequestsChain(ws: seq<Window>)
    requires DateWindows(ws)
    requires forall i :: 0 <= i < |ws| - 1 ==> ws[i].end == ws[i + 1].start
    ensures forall i :: 0 <= i < |ws| - 1 ==> ChunkRequests(ws)[i].endLabel == ChunkRequests(ws)[i + 1].startLabel
  {
    forall i | 0 <= i < |ws| - 1 ensures ChunkRequests(ws)[i].endLabel == ChunkRequests(ws)[i + 1].startLabel {
      ChunkRequestAt(ws, i);
      ChunkRequestAt(ws, i + 1);
    }
  }

  /** Consecutive requests share their boundary label, the first starts at the
      start date and the last ends at the end date. */
  lemma RequestsShareBoundaries(a: Date, b: Date, chunkSize: nat)
    requires Valid(a) && Valid(b) && chunkSize > 0 && Ordinal(a) < Ordinal(b)
    ensures var r := Requests(a, b, chunkSize);
      && |r| > 0
      && r[0].startLabel == Format(a)
      && r[|r| - 1].endLabel == Format(b)
      && forall i :: 0 <= i < |r| - 1 ==> r[i].endLabel == r[i + 1].startLabel
  {
    SplitDateWindows(a, b, chunkSize);
    var ws := Split(Ordinal(a), Ordinal(b), chunkSize);
    assert Requests(a, b, chunkSize) == ChunkRequests(ws);
    OrdinalRoundTrip(a);
    OrdinalRoundTrip(b);
    ChunkRequestAt(ws, 0);
    ChunkRequestAt(ws, |ws| - 1);
    ChunkRequestsChain(ws);
  }

  /** When both inputs are eight digits once stripped, the first request starts
      at the stripped start date and the last ends at the stripped end date, as
      the inputs were written. */
  lemma RequestsEchoInputs(startDate: string, endDate: string, chunkSize: nat)
    requires ParseStrictRange(startDate, endDate).Ok? && chunkSize > 0
    requires forall i :: 0 <= i < |Strip(startDate)| ==> IsDigit(Strip(startDate)[i])
    requires forall i :: 0 <= i < |Strip(endDate)| ==> IsDigit(Strip(endDate)[i])
    ensures var (a, b) := ParseStrictRange(startDate, endDate).value;
      var r := Requests(a, b, chunkSize);
      |r| > 0 && r[0].startLabel == Strip(startDate) && r[|r| - 1].endLabel == Strip(endDate)
  {
    var (a, b) := ParseStrictRange(startDate, endDate).value;
    RequestsShareBoundaries(a, b, chunkSize);
    FormatParse(Strip(startDate));
    FormatParse(Strip(endDate));
  }

  // ---------------------------------------------------------------------------
  // The rows and the retry loop

  /** One row of `values.all().df`: timestamp, station id and reading in Kelvin
      (NaN when the station reported none). */
  datatype Observation = Observation(date: int, station: string, value: Option<real>)

  type Rows = seq<Observation>

  /** `len(values) > 0` fails. */
  predicate NoRows(rows: Rows)
  {
    |rows| == 0
  }

  /** The reply script the loop sees: attempt `a` of window k sends the window's
      request. */
  function WindowReplies(remote: (Request, nat) -> Reply<Rows>, reqs: seq<Request>): (nat, nat) -> Reply<Rows>
  {
    (k: nat, a: nat) => if k < |reqs| then remote(reqs[k], a) else Malformed
  }

  /** The loops of the first n windows: they never raise, each yields what its own
      loop yields, and only non-empty row sets are kept. */
  function WeatherJobs(remote: (Request, nat) -> Reply<Rows>, reqs: seq<Request>, n: nat, maxRetries: int): (b: Batch<Rows>)
    ensures b.raised == None && |b.outcomes| == n
    ensures forall k :: 0 <= k < n ==>
      b.outcomes[k] == RunWindow(Weather, NoRows, JobReplies(WindowReplies(remote, reqs), k), 0, maxRetries).outcome
    ensures forall k :: 0 <= k < n && b.outcomes[k].Kept? ==> !NoRows(b.outcomes[k].value)
  {
    QuietPoliciesRunAll(Weather, NoRows, WindowReplies(remote, reqs), 0, n, maxRetries);
    RunJobs(Weather, NoRows, WindowReplies(remote, reqs), 0, n, maxRetries)
  }

  /** `pd.concat(all_data, ignore_index=True)`: the rows of every chunk, in order. */
  function Concat(chunks: seq<Rows>): (r: Rows)
    ensures forall o :: o in r <==> exists i :: 0 <= i < |chunks| && o in chunks[i]
  {
    if |chunks| == 0 then []
    else
      var rest := Concat(chunks[1..]);
      assert forall i :: 1 <= i < |chunks| ==> chunks[i] == chunks[1..][i - 1];
      chunks[0] + rest
  }

  // ---------------------------------------------------------------------------
  // The pivot

  /** Some row for timestamp d carries a reading. */
  predicate HasReadingOn(rows: Rows, d: int)
  {
    exists o :: o in rows && o.value.Some? && o.date == d
  }

  /** Some row for station s carries a reading. */
  predicate HasReadingFrom(rows: Rows, s: string)
  {
    exists o :: o in rows && o.value.Some? && o.station == s
  }

  /** The rows that carry a reading, in order. */
  function Readings(rows: Rows): (r: Rows)
    ensures forall o :: o in r <==> o in rows && o.value.Some?
  {
    if |rows| == 0 then []
    else
      var rest := Readings(rows[1..]);
      assert rows == [rows[0]] + rows[1..];
      if rows[0].value.Some? then [rows[0]] + rest else rest
  }

  /** The readings of station s at timestamp d, in row order. */
  function ValuesAt(rows: Rows, d: int, s: string): (r: seq<real>)
    ensures forall x :: x in r <==> Observation(d, s, Some(x)) in rows
  {
    if |rows| == 0 then []
    else
      var rest := ValuesAt(rows[1..], d, s);
      assert rows == [rows[0]] + rows[1..];
      var o := rows[0];
      if o.date == d && o.station == s && o.value.Some? then [o.value.value] + rest else rest
  }

  function DatesOf(rows: Rows): (r: seq<int>)
    ensures forall d :: d in r <==> exists o :: o in rows && o.date == d
  {
    var r := seq(|rows|, k requires 0 <= k < |rows| => rows[k].date);
    assert forall o :: o in rows ==> exists k :: 0 <= k < |rows| && rows[k] == o && r[k] == o.date;
    r
  }

  function StationsOf(rows: Rows): (r: seq<string>)
    ensures forall s :: s in r <==> exists o :: o in rows && o.station == s
  {
    var r := seq(|rows|, k requires 0 <= k < |rows| => rows[k].station);
    assert forall o :: o in rows ==> exists k :: 0 <= k < |rows| && rows[k] == o && r[k] == o.station;
    r
  }

  /** The table with the given index and column labels whose cell (d, s) is the mean
      of the readings of s at d, missing when there are none. */
  function MeanTable(rows: Rows, index: seq<int>, names: seq<string>): (t: Table<string>)
    requires forall j, k :: 0 <= j < k < |names| ==> names[j] != names[k]
    ensures t.timeIndexed && t.index == index && Names(t) == names && WellFormed(t)
    ensures forall k, i :: 0 <= k < |names| && 0 <= i < |index| ==>
      t.columns[k].cells[i] == Mean(ValuesAt(rows, index[i], names[k]))
  {
    Table(true, index, seq(|names|, k requires 0 <= k < |names| =>
      Column(names[k], seq(|index|, i requires 0 <= i < |index| => Mean(ValuesAt(rows, index[i], names[k]))))))
  }

  /** `pivot_table(index='date', columns='station_id', values='value', aggfunc='mean')`:
      one row per timestamp and one column per station that has a reading, both
      in increasing order, each cell the mean of its readings. */
  function Pivot(rows: Rows): (t: Table<string>)
    ensures t.timeIndexed && WellFormed(t)
    ensures StrictlySorted(t.index, IntLess)
    ensures forall d :: d in t.index <==> HasReadingOn(rows, d)
    ensures StrictlySorted(Names(t), LexLess)
    ensures forall s :: s in Names(t) <==> HasReadingFrom(rows, s)
    ensures forall k, i :: 0 <= k < |t.columns| && 0 <= i < |t.index| ==>
      t.columns[k].cells[i] == Mean(ValuesAt(rows, t.index[i], t.columns[k].name))
  {
    IntLessIsStrictTotal();
    LexLessIsStrictTotal();
    var present := Readings(rows);
    var index := SortDistinct(DatesOf(present), IntLess);
    var names := SortDistinct(StationsOf(present), LexLess);
    MeanTable(rows, index, names)
  }

  // ---------------------------------------------------------------------------
  // Renaming and conversion

  /** `col - 273.15`: NaN stays NaN. */
  function Celsius(c: Option<real>): (r: Option<real>)
    ensures r.Some? <==> c.Some?
    ensures c.Some? ==> r.value + 273.15 == c.value
  {
    match c
    case None => None
    case Some(v) => Some(v - 273.15)
  }

  /** `df_pivoted.columns = [...]` then the conversion: the labels are assigned by
      position, and a pivot without exactly one column per station cannot take
      them (pandas' length mismatch). */
  function Finish(p: Table<string>): (r: Result<Table<string>, Error>)
    ensures r.Err? <==> |p.columns| != |AllStations|
    ensures r.Err? ==> r.error == ColumnCountMismatch
    ensures r.Ok? ==> r.value.timeIndexed == p.timeIndexed && r.value.index == p.index
    ensures r.Ok? ==> Names(r.value) == ColumnNames
    ensures r.Ok? && WellFormed(p) ==> forall k :: 0 <= k < 3 ==> |r.value.columns[k].cells| == |r.value.index|
    ensures r.Ok? ==> forall k :: 0 <= k < |p.columns| ==>
      |r.value.columns[k].cells| == |p.columns[k].cells| &&
      forall i :: 0 <= i < |p.columns[k].cells| ==> r.value.columns[k].cells[i] == Celsius(p.columns[k].cells[i])
  {
    if |p.columns| != |AllStations| then Err(ColumnCountMismatch)
    else
      var cols := seq(3, k requires 0 <= k < 3 =>
        Column(ColumnNames[k], seq(|p.columns[k].cells|, i requires 0 <= i < |p.columns[k].cells| => Celsius(p.columns[k].cells[i]))));
      assert Names(p.(columns := cols)) == ColumnNames;
      Ok(p.(columns := cols))
  }

  /** Three strictly increasing ids drawn from the three station ids are the
      station ids. */
  lemma ThreeOfThree(names: seq<string>)
    requires |names| == 3 && StrictlySorted(names, LexLess)
    requires forall k :: 0 <= k < 3 ==> names[k] in StationIds
    ensures names == StationIds
  {
    StationIdsOrdered();
    LexLessIsStrictTotal();
    var ids := StationIds;
    assert LexLess(names[0], names[1]) && LexLess(names[1], names[2]);
    assert !LexLess(ids[1], ids[0]) && !LexLess(ids[2], ids[1]) && !LexLess(ids[2], ids[0]);
  }

  /** When only the three stations answer, the rename succeeds exactly when each of
      them reported a reading, and then the column named after a station holds,
      in Celsius, the mean readings of that station's own id. */
  lemma StationsMatchColumns(rows: Rows)
    requires forall o :: o in rows && o.value.Some? ==> o.station in StationIds
    ensures Finish(Pivot(rows)).Ok? <==> forall k :: 0 <= k < 3 ==> HasReadingFrom(rows, StationIds[k])
    ensures Finish(Pivot(rows)).Ok? ==>
      var t := Finish(Pivot(rows)).value;
      forall k, i :: 0 <= k < 3 && 0 <= i < |t.index| ==>
        t.columns[k].name == ColumnName(AllStations[k]) &&
        t.columns[k].cells[i] == Celsius(Mean(ValuesAt(rows, t.index[i], Id(AllStations[k]))))
  {
    StationIdsOrdered();
    LexLessIsStrictTotal();
    var p := Pivot(rows);
    var names := Names(p);
    forall k | 0 <= k < |names| ensures names[k] in StationIds {
      assert HasReadingFrom(rows, names[k]);
    }
    if forall k :: 0 <= k < 3 ==> HasReadingFrom(rows, StationIds[k]) {
      StrictlySortedUnique(names, StationIds, LexLess);
    }
    if |p.columns| == 3 {
      ThreeOfThree(names);
      assert forall k :: 0 <= k < 3 ==> StationIds[k] in names;
    }
  }

  // ---------------------------------------------------------------------------
  // The fetch

  datatype Fetched = Fetched(table: Table<string>, savedAs: Option<string>)

  /** `pd.DataFrame()`. */
  const NoFrame: Table<string> := Table(false, [], [])

  /** The CSV file of a range, named after the stripped dates: both can be read back
      from fixed positions of the name. */
  function TemperatureFile(startDate: string, endDate: string): (r: string)
    ensures |Strip(startDate)| == 8 && |Strip(endDate)| == 8 ==>
      |r| == 41 && r[20..28] == Strip(startDate) && r[29..37] == Strip(endDate)
  {
    FileName("weather_temperature_", Strip(startDate), Strip(endDate))
  }

  /** What becomes of the kept row sets: nothing kept gives the empty frame, unsaved;
      otherwise the converted pivot, saved. */
  function Assemble(ys: seq<Yield<Rows>>, saveWorks: bool, file: string): (r: Result<Fetched, Error>)
    ensures r.Err? ==> r.error == ColumnCountMismatch || r.error == SaveFailed
    ensures (r.Ok? && r.value.savedAs.None?) <==> |Collected(ys)| == 0
    ensures r.Ok? && r.value.savedAs.None? ==> r.value.table == NoFrame
    ensures r.Ok? && r.value.savedAs.Some? ==>
      && r.value.savedAs.value == file
      && r.value.table.timeIndexed
      && StrictlySorted(r.value.table.index, IntLess)
      && Names(r.value.table) == ColumnNames
  {
    var kept := Collected(ys);
    if |kept| == 0 then Ok(Fetched(NoFrame, None))
    else
      match Finish(Pivot(Concat(kept)))
      case Err(x) => Err(x)
      case Ok(t) => if saveWorks then Ok(Fetched(t, Some(file))) else Err(SaveFailed)
  }

  /** The prologue and the window walk: the requests of all windows, how many of
      them are sent before the walk stops, and whether it stops on OverflowError. */
  function Span(startDate: string, endDate: string, chunkSize: nat): (r: Result<(seq<Request>, nat, bool), Error>)
    ensures r.Err? ==> r.error in {BadLength, BadDate, EmptyRange, ZeroChunk}
    ensures r.Ok? ==> r.value.1 <= |r.value.0|
  {
    var range := ParseStrictRange(startDate, endDate);
    match Walk(range, chunkSize)
    case Err(x) => Err(x)
    case Ok((n, overflow)) =>
      var (a, b) := range.value;
      var reqs := Requests(a, b, chunkSize);
      Ok((reqs, n, overflow))
  }

  /** `fetch_temperature_data(start_date, end_date, max_retries, chunk_size)`:
      `remote(q, a)` answers attempt `a` of the request q.  It raises only its own
      errors: a remote failure is never re-raised. */
  function FetchTemperatureData(startDate: string, endDate: string, chunkSize: nat, maxRetries: int,
                                saveWorks: bool, remote: (Request, nat) -> Reply<Rows>): (r: Run<Fetched>)
    ensures r.result.Err? ==>
      r.result.error in {BadLength, BadDate, EmptyRange, ZeroChunk, DateOverflow, ColumnCountMismatch, SaveFailed}
    ensures r.result.Ok? && r.result.value.savedAs.None? ==> r.result.value.table == NoFrame
    ensures r.result.Ok? && r.result.value.savedAs.Some? ==>
      && r.result.value.savedAs.value == TemperatureFile(startDate, endDate)
      && r.result.value.table.timeIndexed
      && StrictlySorted(r.result.value.table.index, IntLess)
      && Names(r.result.value.table) == ColumnNames
  {
    match Span(startDate, endDate, chunkSize)
    case Err(x) => Run(Err(x), [], 0)
    case Ok((reqs, n, overflow)) =>
      var b := WeatherJobs(remote, reqs, n, maxRetries);
      if overflow then Run(Err(DateOverflow), b.sleeps, b.queries)
      else Run(Assemble(b.outcomes, saveWorks, TemperatureFile(startDate, endDate)), b.sleeps, b.queries)
  }

  /** A service that never returns rows: each of its replies is an error or no rows. */
  ghost predicate Silent(remote: (Request, nat) -> Reply<Rows>)
  {
    forall q, a :: remote(q, a).Data? ==> NoRows(remote(q, a).value)
  }

  /** Against a silent service no window keeps anything. */
  lemma SilentJobsKeepNothing(remote: (Request, nat) -> Reply<Rows>, reqs: seq<Request>, n: nat, maxRetries: int)
    requires Silent(remote) && n <= |reqs|
    ensures |Collected(WeatherJobs(remote, reqs, n, maxRetries).outcomes)| == 0
  {
    var b := WeatherJobs(remote, reqs, n, maxRetries);
    forall k | 0 <= k < n ensures !b.outcomes[k].Kept? {
      var reply := JobReplies(WindowReplies(remote, reqs), k);
      var w := RunWindow(Weather, NoRows, reply, 0, maxRetries);
      if w.outcome.Kept? {
        assert false;
      }
    }
  }

  /** A service that never returns rows leaves every window empty-handed, and the
      fetch of a valid range returns the empty frame, unsaved. */
  lemma SilentServiceGivesNoFrame(startDate: string, endDate: string, chunkSize: nat, maxRetries: int,
                                  saveWorks: bool, remote: (Request, nat) -> Reply<Rows>)
    requires Silent(remote)
    requires Span(startDate, endDate, chunkSize).Ok? && !Span(startDate, endDate, chunkSize).value.2
    ensures FetchTemperatureData(startDate, endDate, chunkSize, maxRetries, saveWorks, remote).result == Ok(Fetched(NoFrame, None))
  {
    var (reqs, n, _) := Span(startDate, endDate, chunkSize).value;
    SilentJobsKeepNothing(remote, reqs, n, maxRetries);
  }

  /** What the window loops of a walk yield, window by window. */
  function Outcomes(startDate: string, endDate: string, chunkSize: nat, maxRetries: int,
                    remote: (Request, nat) -> Reply<Rows>): seq<Yield<Rows>>
    requires Span(startDate, endDate, chunkSize).Ok?
  {
    var v := Span(startDate, endDate, chunkSize).value;
    WeatherJobs(remote, v.0, v.1, maxRetries).outcomes
  }

  /** The row sets the windows of a walk keep, window by window. */
  function KeptRows(startDate: string, endDate: string, chunkSize: nat, maxRetries: int,
                    remote: (Request, nat) -> Reply<Rows>): seq<Rows>
    requires Span(startDate, endDate, chunkSize).Ok?
  {
    Collected(Outcomes(startDate, endDate, chunkSize, maxRetries, remote))
  }

  /** A walk that runs to the end hands its window outcomes to `Assemble`. */
  lemma FetchAssembles(startDate: string, endDate: string, chunkSize: nat, maxRetries: int,
                       saveWorks: bool, remote: (Request, nat) -> Reply<Rows>)
    requires Span(startDate, endDate, chunkSize).Ok? && !Span(startDate, endDate, chunkSize).value.2
    ensures FetchTemperatureData(startDate, endDate, chunkSize, maxRetries, saveWorks, remote).result
      == Assemble(Outcomes(startDate, endDate, chunkSize, maxRetries, remote), saveWorks, TemperatureFile(startDate, endDate))
  {
  }

  /** When the walk runs to the end, the fetch comes back unsaved exactly when no
      window kept a row set, and a saved table has one row per timestamp at which
      some kept row carries a reading. */
  lemma FetchedTemperatures(startDate: string, endDate: string, chunkSize: nat, maxRetries: int,
                            saveWorks: bool, remote: (Request, nat) -> Reply<Rows>)
    requires Span(startDate, endDate, chunkSize).Ok? && !Span(startDate, endDate, chunkSize).value.2
    ensures var kept := KeptRows(startDate, endDate, chunkSize, maxRetries, remote);
      var r := FetchTemperatureData(startDate, endDate, chunkSize, maxRetries, saveWorks, remote).result;
      && ((r.Ok? && r.value.savedAs.None?) <==> |kept| == 0)
      && (r.Ok? && r.value.savedAs.Some? ==> forall d :: d in r.value.table.index <==> HasReadingOn(Concat(kept), d))
  {
    FetchAssembles(startDate, endDate, chunkSize, maxRetries, saveWorks, remote);
    var ys := Outcomes(startDate, endDate, chunkSize, maxRetries, remote);
    var r := Assemble(ys, saveWorks, TemperatureFile(startDate, endDate));
    if r.Ok? && r.value.savedAs.Some? {
      assert r.value.table == Finish(Pivot(Concat(Collected(ys)))).value;
    }
  }

  /** The three columns are named after the stations, in order, and the cell of a
      station at a timestamp is the mean of its readings there, in Celsius. */
  ghost predicate StationMeans(t: Table<string>, rows: Rows)
  {
    && |t.columns| == 3
    && (forall k :: 0 <= k < 3 ==> |t.columns[k].cells| == |t.index|)
    && forall k, i :: 0 <= k < 3 && 0 <= i < |t.index| ==>
         t.columns[k].name == ColumnName(AllStations[k]) &&
         t.columns[k].cells[i] == Celsius(Mean(ValuesAt(rows, t.index[i], Id(AllStations[k]))))
  }

  /** On kept rows that only the three stations fill, `Assemble` saves exactly when
      saving works and each station reported a reading. */
  lemma AssembledSaved(ys: seq<Yield<Rows>>, saveWorks: bool, file: string)
    requires forall o :: o in Concat(Collected(ys)) && o.value.Some? ==> o.station in StationIds
    ensures var r := Assemble(ys, saveWorks, file);
      (r.Ok? && r.value.savedAs.Some?) <==>
        saveWorks && |Collected(ys)| > 0 && forall k :: 0 <= k < 3 ==> HasReadingFrom(Concat(Collected(ys)), StationIds[k])
  {
    StationsMatchColumns(Concat(Collected(ys)));
  }

  /** On kept rows that only the three stations fill, a saved table holds in the
      column of each station its mean readings in Celsius. */
  lemma AssembledCells(ys: seq<Yield<Rows>>, saveWorks: bool, file: string)
    requires forall o :: o in Concat(Collected(ys)) && o.value.Some? ==> o.station in StationIds
    ensures var r, rows := Assemble(ys, saveWorks, file), Concat(Collected(ys));
      r.Ok? && r.value.savedAs.Some? ==> StationMeans(r.value.table, rows)
  {
    var rows := Concat(Collected(ys));
    var r := Assemble(ys, saveWorks, file);
    if r.Ok? && r.value.savedAs.Some? {
      StationsMatchColumns(rows);
      assert r.value.table == Finish(Pivot(rows)).value;
    }
  }

  /** When every reading the kept rows carry comes from one of the three stations,
      the fetch is saved exactly when saving works and each station reported a
      reading, and then the column named after a station holds, at each timestamp,
      the mean of that station's readings there, in Celsius. */
  lemma SavedTemperatures(startDate: string, endDate: string, chunkSize: nat, maxRetries: int,
                          saveWorks: bool, remote: (Request, nat) -> Reply<Rows>)
    requires Span(startDate, endDate, chunkSize).Ok? && !Span(startDate, endDate, chunkSize).value.2
    requires var rows := Concat(KeptRows(startDate, endDate, chunkSize, maxRetries, remote));
      forall o :: o in rows && o.value.Some? ==> o.station in StationIds
    ensures var kept := KeptRows(startDate, endDate, chunkSize, maxRetries, remote);
      var r := FetchTemperatureData(startDate, endDate, chunkSize, maxRetries, saveWorks, remote).result;
      (r.Ok? && r.value.savedAs.Some?) <==>
        saveWorks && |kept| > 0 && forall k :: 0 <= k < 3 ==> HasReadingFrom(Concat(kept), StationIds[k])
    ensures var rows := Concat(KeptRows(startDate, endDate, chunkSize, maxRetries, remote));
      var r := FetchTemperatureData(startDate, endDate, chunkSize, maxRetries, saveWorks, remote).result;
      r.Ok? && r.value.savedAs.Some? ==> StationMeans(r.value.table, rows)
  {
    FetchAssembles(startDate, endDate, chunkSize, maxRetries, saveWorks, remote);
    var ys := Outcomes(startDate, endDate, chunkSize, maxRetries, remote);
    var file := TemperatureFile(startDate, endDate);
    var r := FetchTemperatureData(startDate, endDate, chunkSize, maxRetries, saveWorks, remote).result;
    assert r == Assemble(ys, saveWorks, file);
    assert KeptRows(startDate, endDate, chunkSize, maxRetries, remote) == Collected(ys);
    AssembledSaved(ys, saveWorks, file);
    AssembledCells(ys, saveWorks, file);
  }
}

=== FILE: windows.dfy ===
/** The date-range chunking every fetcher performs:

      current = start
      while current < end:
          window_end = min(current + size, end)
          ... query [current, window_end) ...
          current = window_end

    Points are integers: day ordinals for the string-dated clients, seconds on the
    local clock for `_query_load_and_forecast`. */
module Windows {
  import opened Base

  datatype Window = Window(start: int, end: int)

  /** The windows the loop visits, in order.  Each is non-empty and at most
      `size` long, all but the last exactly `size` long, consecutive windows
      share their boundary, and together they run from `start` to `end`. */
  function Split(start: int, end: int, size: int): (ws: seq<Window>)
    requires size > 0
    ensures |ws| == 0 <==> start >= end
    ensures |ws| > 0 ==> ws[0].start == start && ws[|ws| - 1].end == end
    ensures forall i :: 0 <= i < |ws| ==> ws[i].start < ws[i].end <= ws[i].start + size
    ensures forall i :: 0 <= i < |ws| - 1 ==> ws[i].end == ws[i + 1].start
    ensures forall i :: 0 <= i < |ws| - 1 ==> ws[i].end == ws[i].start + size
    decreases end - start
  {
    if start >= end then []
    else
      var e := Min(start + size, end);
      [Window(start, e)] + Split(e, end, size)
  }

  lemma {:induction false} ChainOrdered(ws: seq<Window>, i: int, j: int)
    requires forall k :: 0 <= k < |ws| ==> ws[k].start < ws[k].end
    requires forall k :: 0 <= k < |ws| - 1 ==> ws[k].end == ws[k + 1].start
    requires 0 <= i < j < |ws|
    ensures ws[i].end <= ws[j].start
    decreases j - i
  {
    if j > i + 1 {
      ChainOrdered(ws, i, j - 1);
    }
  }

  /** Windows never overlap: an earlier window ends no later than a later one starts. */
  lemma {:induction false} SplitOrdered(start: int, end: int, size: int)
    requires size > 0
    ensures var ws := Split(start, end, size);
      forall i, j :: 0 <= i < j < |ws| ==> ws[i].end <= ws[j].start
  {
    var ws := Split(start, end, size);
    forall i, j | 0 <= i < j < |ws| ensures ws[i].end <= ws[j].start {
      ChainOrdered(ws, i, j);
    }
  }

  /** The window holding x, searching from window k onwards. */
  lemma {:induction false} FindWindow(ws: seq<Window>, x: int, k: nat) returns (i: nat)
    requires forall j :: 0 <= j < |ws| - 1 ==> ws[j].end == ws[j + 1].start
    requires k < |ws| && ws[k].start <= x < ws[|ws| - 1].end
    ensures k <= i < |ws| && ws[i].start <= x < ws[i].end
    decreases |ws| - k
  {
    if x < ws[k].end {
      i := k;
    } else {
      i := FindWindow(ws, x, k + 1);
    }
  }

  /** A window of a chain lies between the chain's first start and its last end. */
  lemma {:induction false} ChainInside(ws: seq<Window>, i: int)
    requires forall k :: 0 <= k < |ws| ==> ws[k].start < ws[k].end
    requires forall k :: 0 <= k < |ws| - 1 ==> ws[k].end == ws[k + 1].start
    requires 0 <= i < |ws|
    ensures ws[0].start <= ws[i].start && ws[i].end <= ws[|ws| - 1].end
  {
    if i > 0 {
      ChainOrdered(ws, 0, i);
    }
    if i < |ws| - 1 {
      ChainOrdered(ws, i, |ws| - 1);
    }
  }

  /** Some window holds x. */
  predicate InSome(ws: seq<Window>, x: int)
  {
    exists i :: 0 <= i < |ws| && ws[i].start <= x < ws[i].end
  }

  lemma {:induction false} ChainCovers(ws: seq<Window>, x: int)
    requires forall k :: 0 <= k < |ws| ==> ws[k].start < ws[k].end
    requires forall k :: 0 <= k < |ws| - 1 ==> ws[k].end == ws[k + 1].start
    requires |ws| > 0
    ensures ws[0].start <= x < ws[|ws| - 1].end <==> InSome(ws, x)
  {
    if ws[0].start <= x < ws[|ws| - 1].end {
      var i := FindWindow(ws, x, 0);
    } else {
      forall i | 0 <= i < |ws| ensures !(ws[i].start <= x < ws[i].end) {
        ChainInside(ws, i);
      }
    }
  }

  lemma {:induction false} ChainDisjoint(ws: seq<Window>, x: int)
    requires forall k :: 0 <= k < |ws| ==> ws[k].start < ws[k].end
    requires forall k :: 0 <= k < |ws| - 1 ==> ws[k].end == ws[k + 1].start
    ensures forall i, j ::
      0 <= i < |ws| && 0 <= j < |ws| && ws[i].start <= x < ws[i].end && ws[j].start <= x < ws[j].end ==> i == j
  {
    forall i, j | 0 <= i < |ws| && 0 <= j < |ws| && ws[i].start <= x < ws[i].end && ws[j].start <= x < ws[j].end
      ensures i == j
    {
      if i < j {
        ChainOrdered(ws, i, j);
      } else if j < i {
        ChainOrdered(ws, j, i);
      }
    }
  }

  /** Every point of [start, end) lies in some window, and no other point does. */
  lemma {:induction false} SplitCovers(start: int, end: int, size: int, x: int)
    requires size > 0
    ensures start <= x < end <==> InSome(Split(start, end, size), x)
  {
    var ws := Split(start, end, size);
    if |ws| > 0 {
      assert ws[0].start == start && ws[|ws| - 1].end == end;
      ChainCovers(ws, x);
    } else {
      assert start >= end;
    }
  }

  /** No point lies in two windows. */
  lemma {:induction false} SplitDisjoint(start: int, end: int, size: int, x: int)
    requires size > 0
    ensures var ws := Split(start, end, size);
      forall i, j :: 0 <= i < |ws| && 0 <= j < |ws| && ws[i].start <= x < ws[i].end && ws[j].start <= x < ws[j].end
        ==> i == j
  {
    ChainDisjoint(Split(start, end, size), x);
  }

  /** The first k windows are full, so window k starts k * size after the first. */
  lemma {:induction false} FullWindows(ws: seq<Window>, size: int, k: nat)
    requires forall i :: 0 <= i < |ws| - 1 ==> ws[i].end == ws[i + 1].start
    requires forall i :: 0 <= i < |ws| - 1 ==> ws[i].end == ws[i].start + size
    requires k < |ws|
    ensures ws[k].start == ws[0].start + size * k
  {
    if k > 0 {
      FullWindows(ws, size, k - 1);
    }
  }

  /** The number of windows is ceil((end - start) / size), which is how the
      clients size their progress bars: (total + size - 1) // size. */
  lemma SplitCount(start: int, end: int, size: int)
    requires size > 0
    requires start < end
    ensures |Split(start, end, size)| == (end - start + size - 1) / size
  {
    var ws := Split(start, end, size);
    var n := |ws|;
    FullWindows(ws, size, n - 1);
    var last := ws[n - 1].end - ws[n - 1].start;
    assert end - start + size - 1 == size * n + (last - 1);
    DivUnique(end - start + size - 1, size, n, last - 1);
  }
}
